=== FILE: README.md ===
# FacingTime servers in Dafny

This project models the server side of the FacingTime chat app. It covers
three codebases:

- **The RustCore crate.** An HTTP/HTTPS server whose state sits behind a
  mutex and whose work runs in background tasks. It also serves static files
  with a path-traversal check, and advertises itself over mDNS. It is used
  through a C interface of nullable handles and through a wrapper object for
  a scripting engine.
- **The Swift app's own HTTP layer.** A request parser, a router keyed by
  `METHOD:PATH`, and a chat room capped at 100 messages. Beside it sits the
  app's logger, whose in-memory buffer holds at most 1000 entries.
- **An older, self-contained RustCore library.** It has a response builder,
  a chat room with client channels, a route table, header parsing and
  response serialization.

Each source file becomes one Dafny module, and each module takes the
source's own form:

- Objects that the source updates in place are classes, with `modifies` and
  `reads` frames.
- Loops are methods, proved against specification functions.
- Lookups and parsers are functions.
- Everything the code cannot see is a parameter: the clock, fresh ids, JSON
  encoding, address parsing, runtime creation, TLS provisioning, the mDNS
  daemon and the filesystem.

Shared modules:

| module | holds |
|---|---|
| `Common` | option type, machine integers, C string arguments, Swift's `suffix` |
| `Text` | UTF-8, decimal digits, both whitespace sets, trimming, searching, splitting and joining |
| `Http1` | HTTP/1.1 message text both hand-written servers use: status line, field lines, head (sections 4 and 5 of RFC 9112) |
| `CoreTypes` | `ServerConfig`, `ServerState`, `CoreError` |

## Model

| member | source | states |
|---|---|---|
| `HttpServer.HttpServerState.constructor` | RustCore/src/server/http_server.rs:32-38 | a new server is not running, has 0 clients, no configuration, no runtime and no shutdown sender |
| `HttpServer.HttpServerState.Start` | RustCore/src/server/http_server.rs:48-149 | errors come in this order: AlreadyRunning, InvalidAddress, then a runtime failure (Unknown); any error leaves the state, the runtime and the sender as they were; success marks the server running with config {address, dir, https=false, no cert, no key}, keeps the client count, reuses an existing runtime and installs a fresh sender |
| `HttpServer.HttpServerState.StartHttps` | RustCore/src/server/http_server.rs:159-355 | as `Start`, except that a TLS failure between the address check and the runtime gives Unknown before any runtime is made; success records https=true |
| `HttpServer.HttpServerState.Launch` | RustCore/src/server/http_server.rs:74-117 | the shared tail of both starts: the runtime is created only when absent; the previous sender is dropped and a new one installed; a task is spawned on the new channel |
| `HttpServer.HttpServerState.Stop` | RustCore/src/server/http_server.rs:362-397 | a stopped server is untouched; a running one has its sender taken and fired, `is_running` cleared and `connected_clients` reset, while the configuration and the runtime stay |
| `HttpServer.HttpServerState.IsRunning` | RustCore/src/server/http_server.rs:399-404 | the shared flag; in a consistent state a running server is configured and holds a shutdown sender not yet fired |
| `HttpServer.HttpServerState.GetAddress` | RustCore/src/server/http_server.rs:408-414 | the configured address, or "" when there is no configuration |
| `HttpServer.ShutdownChannel.SendAndDrop` | RustCore/src/server/http_server.rs:380-384 | `send(())` then the sender's drop: the value is sent, the sender is gone, and the receiver's `changed()` resolves |
| `HttpServer.ShutdownChannel.Drop` | RustCore/src/server/http_server.rs:451-451 | a bare drop: no value is sent, yet the receiver's `changed()` resolves |
| `HttpServer.HttpServerState.Drop` | RustCore/src/server/http_server.rs:444-451 | the sender is released, which wakes the task, and so is the runtime |
| `HttpServer.ServeTask.Bound` | RustCore/src/server/http_server.rs:121-125 | a successful bind moves the task from binding to serving and leaves the shared state alone |
| `HttpServer.ServeTask.BindFailed` | RustCore/src/server/http_server.rs:121-130 | a bind failure ends the task without touching `is_running` |
| `HttpServer.ServeTask.ServeFailed` | RustCore/src/server/http_server.rs:139-144 | a plain server error clears `is_running` and nothing else |
| `HttpServer.ServeTask.ShutdownObserved` | RustCore/src/server/http_server.rs:341-349 | on shutdown, the HTTPS loop clears `is_running`; the plain server leaves the state alone |
| `HttpServer.ServeTask.RunHttpsLoop` | RustCore/src/server/http_server.rs:292-349 | accept results, good or failed, go round the loop again; the loop exits exactly at the first shutdown, and then clears `is_running` |
| `HttpServer.StopTwice` | RustCore/src/server/http_server.rs:362-397 | stopping twice equals stopping once |
| `HttpServer.AddressAfterStop` | RustCore/src/server/http_server.rs:389-414 | `get_address` still returns the old address after `stop` |
| `HttpServer.StaleHttpsTask` | RustCore/src/server/http_server.rs:341-349 | an HTTPS server stopped and restarted before its old task wakes is then reported stopped by that old task |
| `StaticFiles.ParsePath` | RustCore/src/server/router.rs:82 | absolute exactly with a leading slash; the empty text is the empty relative path; a trailing slash after a name leaves a final `.`, so that name must be a directory |
| `StaticFiles.JoinPath` | RustCore/src/server/router.rs:85 | an absolute second path replaces the first; a relative one is appended; an empty one leaves a trailing separator |
| `StaticFiles.Canonicalize` | RustCore/src/server/router.rs:94-101 | the empty path names nothing, so an empty static directory fails |
| `StaticFiles.CanonicalIsReal` | RustCore/src/server/router.rs:85-101 | a canonical path exists and is not a link, and it is a directory when the path ends in `.` or a slash |
| `StaticFiles.ServeStaticFile` | RustCore/src/server/router.rs:77-151 | every answer is 200, 403, 404 or 500; 404 when the joined path does not canonicalise, then 500 exactly when the root does not; 403 exactly outside the root or for a directory; 404 when a contained file cannot be read; a 200 is never a directory and carries the table's content type |
| `StaticFiles.GetAnswer` | RustCore/src/server/router.rs:44-66 | `/` serves `index.html`; `/health` answers 200 "OK"; any other routed path serves the file named by the rest of the path |
| `StaticFiles.Dispatch` | RustCore/src/server/router.rs:44-48 | an unrouted path is 404; GET runs the route's handler; HEAD gives the same status and headers with no body; any other method is 405 with `allow: GET,HEAD` |
| `StaticFiles.RouterServesOnlyUnderRoot` | RustCore/src/server/router.rs:44-151 | apart from `/health`, a 200 from the router answers GET or HEAD with a readable file whose real path lies under the real static root, and GET carries its bytes |
| `StaticFiles.TrailingSlashIsNotServed` | RustCore/src/server/router.rs:85-114 | a requested path ending in a slash is never answered with 200: a file followed by a slash does not canonicalise and a directory is refused |
| `StaticFiles.EmptyStaticDirServesNothing` | RustCore/src/server/router.rs:85-101 | with an empty static directory every request is 404 or 500, and 500 exactly when the joined path resolves |
| `StaticFiles.ContentType` | RustCore/src/server/router.rs:120-134 | the result is `application/octet-stream` exactly for extensions outside the fourteen known ones (twelve types) |
| `StaticFiles.Extension` | RustCore/src/server/router.rs:120 | an empty path has no extension, and an extension never contains a dot |
| `StaticFiles.ServedFileIsUnderRoot` | RustCore/src/server/router.rs:85-114 | a 200 answer carries the bytes of a readable regular file whose real path lies under the real static root, symbolic links included |
| `StaticFiles.ServesFilesUnderRoot` | RustCore/src/server/router.rs:77-145 | conversely, a readable file reached by plain names from a real root is served with 200 and its bytes |
| `StaticFiles.ResolveIsReal` | RustCore/src/server/router.rs:85 | resolution from a directory, as `Resolve` walks it, ends at an existing path that is not a link |
| `StaticFiles.ResolveDotIsDir` | RustCore/src/server/router.rs:85-90 | resolution of components ending in `.` ends at a directory: a file followed by a slash fails |
| `StaticFiles.CanonicalIsFixpoint` | RustCore/src/server/router.rs:94 | canonicalising a real path gives it back |
| `MdnsServer.MdnsServerState.constructor` | RustCore/src/server/mdns_server.rs:45-56 | unregistered, with no daemon or runtime, empty names and port 0 |
| `MdnsServer.MdnsServerState.IsRunning` | RustCore/src/server/mdns_server.rs:59-61 | running exactly while a daemon is held |
| `MdnsServer.MdnsServerState.Start` | RustCore/src/server/mdns_server.rs:78-192 | gives AlreadyRunning when registered; each fallible step fails with Unknown and changes nothing; success stores the new handles and the arguments unchanged, and advertises `<hostname>.local.` |
| `MdnsServer.MdnsServerState.Stop` | RustCore/src/server/mdns_server.rs:198-216 | the daemon is dropped and the flag cleared; the runtime and the record fields are kept |
| `MdnsServer.MdnsServerState.Drop` | RustCore/src/server/mdns_server.rs:219-230 | only the runtime is released |
| `MdnsServer.Advertised` | RustCore/src/server/mdns_server.rs:119-134 | the record has the hostname under `.local.`, no fixed address, and automatic addresses on |
| `MdnsServer.MonitorLoop` | RustCore/src/server/mdns_server.rs:154-178 | timeouts and non-error events are skipped; the loop ends exactly at the first daemon error, or at once when there is no monitor |
| `MdnsServer.StartWhileRegistered` | RustCore/src/server/mdns_server.rs:86-90 | a second start leaves the service registered |
| `MdnsServer.StopTwice` | RustCore/src/server/mdns_server.rs:198-216 | stopping twice is harmless and keeps the runtime |
| `MdnsServer.RestartMakesNewRuntime` | RustCore/src/server/mdns_server.rs:100-106 | a restart after a stop builds a new runtime rather than reusing the kept one |
| `MdnsServer.FullnameAsWritten` | RustCore/src/server/mdns_server.rs:64-66 | the name splits back into the instance, a dot, the service type and a final dot |
| `MdnsServer.MdnsServerState.ServiceFullname` | RustCore/src/server/mdns_server.rs:64-66 | the name as written from the stored fields; a type ending in a dot gives a name ending in an empty label |
| `MdnsServer.AsWrittenDoublesTrailingDot` | RustCore/src/server/mdns_server.rs:64-66 | as written, a fully-qualified service type yields a name ending in an empty label |
| `MdnsServer.AsWrittenDefaultName` | RustCore/src/server/mdns_server.rs:64-66 | example, not a general property: with the C default type, the name is "Instance._service._tcp.local.." |
| `MdnsServer.FullnameParts` | RustCore/src/server/mdns_server.rs:64-66 | the corrected name splits back into the instance, a dot and the type made absolute; for a type that is not empty or "." and has no empty last label, neither has the name |
| `MdnsServer.FullnameAgreesWithoutTrailingDot` | RustCore/src/server/mdns_server.rs:64-66 | the written and corrected names agree exactly when the type has no trailing dot |
| `FfiServer.Create` | RustCore/src/ffi/server.rs:15-18 | a fresh handle to a new, stopped server |
| `FfiServer.Free` | RustCore/src/ffi/server.rs:27-37 | null is ignored; otherwise the server is dropped |
| `FfiServer.Start` | RustCore/src/ffi/server.rs:50-92 | returns 0 for null or for an argument that is not UTF-8, and then nothing changes; null arguments default to "0.0.0.0:8080" and "/tmp"; a non-zero flag selects HTTPS; the result is 1 exactly when the chosen start succeeds |
| `FfiServer.Stop` | RustCore/src/ffi/server.rs:99-105 | null is ignored; otherwise the server ends stopped, a running one without its sender and a stopped one untouched |
| `FfiServer.IsRunning` | RustCore/src/ffi/server.rs:115-125 | 1 exactly for a non-null running server, else 0 |
| `FfiServer.HandleRequest` | RustCore/src/ffi/server.rs:139-194 | a null server gets the error object; for a live server, any argument that is not UTF-8 gives null |
| `FfiServer.HandleRequestEchoesHeaders` | RustCore/src/ffi/server.rs:169-193 | for NUL-free arguments, null exactly on bad UTF-8; otherwise the fixed 200 JSON with the headers text (default `{}`) spliced in unchanged |
| `FfiServer.HandleRequestIgnoresRequest` | RustCore/src/ffi/server.rs:151-188 | the method, path and body never change the answer |
| `FfiServer.StartStopScenario` | RustCore/tests/http_server_test.rs:64-102 | create, start, stop twice: reports 0, 1, 1, 0 |
| `FfiMdns.Create` | RustCore/src/ffi/mdns.rs:14-17 | a fresh, unregistered advertiser |
| `FfiMdns.Free` | RustCore/src/ffi/mdns.rs:26-36 | null is ignored; otherwise the advertiser is dropped |
| `FfiMdns.DecodeNames` | RustCore/src/ffi/mdns.rs:61-86 | a null name takes its default; the result is None exactly when one name is not UTF-8 |
| `FfiMdns.Start` | RustCore/src/ffi/mdns.rs:50-94 | returns 0 for null or undecodable names, and then nothing changes; 1 exactly when `start` succeeds, and then the record holds the decoded names and the port |
| `FfiMdns.Stop` | RustCore/src/ffi/mdns.rs:101-107 | null is ignored; otherwise `stop` drops the daemon handle and clears the registered flag, keeping the runtime; the advertisement itself is not withdrawn |
| `FfiMdns.IsRunning` | RustCore/src/ffi/mdns.rs:117-127 | 1 exactly for a non-null registered advertiser |
| `FfiMdns.StartStopScenario` | RustCore/tests/mdns_server_test.rs:49-112 | create, start, stop twice: reports 0, 1, 1, 0; the logged name is "TestServer._game._tcp.local.." |
| `GodotServer.NarrowToU16` | RustCore/src/godot_server.rs:193 | `port as u16` keeps the low 16 bits |
| `GodotServer.NarrowingWraps` | RustCore/src/godot_server.rs:193 | example, not a general property: -1 becomes 65535, 65616 becomes 80 and -2^31 becomes 0 |
| `GodotServer.NarrowingCollides` | RustCore/src/godot_server.rs:193 | two ports collide exactly when they differ by a multiple of 65536 |
| `GodotServer.Slot` | RustCore/src/godot_server.rs:126-146 | a slot reads "not created", "stopped" or "running" |
| `GodotServer.StatusLineReadsBack` | RustCore/src/godot_server.rs:125-149 | the report line parses back into both slot states |
| `GodotServer.StatusLineInjective` | RustCore/src/godot_server.rs:125-149 | distinct slot states give distinct report lines |
| `GodotServer.StatusWords` | RustCore/src/godot_server.rs:125-149 | example, not a general property: the report before and after creating both servers |
| `GodotServer.RustCoreServer.constructor` | RustCore/src/godot_server.rs:35-41 | both slots start empty |
| `GodotServer.RustCoreServer.CreateServer` | RustCore/src/godot_server.rs:59-68 | always true; an existing server is kept and an empty slot gets a new one |
| `GodotServer.RustCoreServer.StartServer` | RustCore/src/godot_server.rs:71-103 | false with no server; otherwise `start_https` or `start` as the flag says, true exactly on Ok |
| `GodotServer.RustCoreServer.StopServer` | RustCore/src/godot_server.rs:106-113 | stops the held server, if any |
| `GodotServer.RustCoreServer.IsRunning` | RustCore/src/godot_server.rs:116-121 | false with no server, else the server's own answer |
| `GodotServer.RustCoreServer.GetStatus` | RustCore/src/godot_server.rs:125-149 | the report line of both slots' states, and it parses back into them |
| `GodotServer.RustCoreServer.GetServerAddress` | RustCore/src/godot_server.rs:153-158 | "" with no server, else the server's address |
| `GodotServer.RustCoreServer.FreeServer` | RustCore/src/godot_server.rs:161-164 | the slot is emptied and the server it held has released its sender and runtime |
| `GodotServer.RustCoreServer.CreateMdns` | RustCore/src/godot_server.rs:169-178 | always true; an existing advertiser is kept |
| `GodotServer.RustCoreServer.StartMdns` | RustCore/src/godot_server.rs:181-204 | false with no advertiser; otherwise `start` with the port narrowed to 16 bits |
| `GodotServer.RustCoreServer.StopMdns` | RustCore/src/godot_server.rs:207-219 | on a registered advertiser, `stop` drops the daemon handle and clears the flag, keeping the runtime; an unregistered one is left alone; the advertisement itself is not withdrawn |
| `GodotServer.RustCoreServer.IsMdnsRunning` | RustCore/src/godot_server.rs:222-227 | false with no advertiser, else whether it is registered |
| `GodotServer.RustCoreServer.FreeMdns` | RustCore/src/godot_server.rs:230-233 | the slot is emptied and the advertiser it held has released its runtime |
| `GodotServer.RustCoreServer.Drop` | RustCore/src/godot_server.rs:44-52 | stops and then frees both; the server ends stopped and without handles, the advertiser with its registered flag cleared |
| `GodotServer.StatusScenario` | RustCore/src/godot_server.rs:125-178 | a new wrapper reports "not created" twice; after both creates it reports "stopped" twice |
| `Http1.StatusText` | Sources/Core/HttpServer.swift:61-69 | "Unknown" exactly for codes other than 200, 400, 404 and 500 |
| `Http1.StatusTextTable` | Sources/RustCore/src/lib.rs:268-274 | the table itself, not a derived property: the four reason phrases and "Unknown" for every other code, shared by both servers |
| `Http1.WriteHead` | Sources/Core/HttpServer.swift:50-54 | the line-by-line loop builds exactly the head: status line, `Content-Length`, `Connection: close`, one line per field, empty line |
| `Http1.SplitField` | Sources/Core/HttpServer.swift:240-242 | no field exactly when the line has no ':' |
| `Http1.FoldFieldsLookup` | Sources/Core/HttpServer.swift:239-245 | a name is present exactly when some line carries it, and its value comes from the last such line |
| `Http1.FieldLinesRoundTrip` | Sources/Core/HttpServer.swift:53 | trimmed, single-line fields written once each fold back into the same dictionary |
| `Http1.HeadReadsBack` | Sources/Core/HttpServer.swift:49-58 | cut at CRLF, a head gives its status line, a `Content-Length` that parses back, and the headers |
| `Text.Utf8Concat` | Sources/Core/HttpServer.swift:56-57 | encoding distributes over concatenation |
| `Text.TrimIsTrimmed` | Sources/Core/HttpServer.swift:241-242 | trimming leaves no whitespace at either end |
| `Text.ParseSwiftInt` | Sources/Core/HttpServer.swift:135 | a parsed value is a 64-bit integer, read from an optional sign and digits only, and negative only after a '-' |
| `Text.SwiftIntRoundTrip` | Sources/Core/HttpServer.swift:135 | `Int(_:)` reads back every 64-bit integer's decimal text |
| `Text.JoinComponents` | Sources/Core/HttpServer.swift:228 | splitting at a non-empty separator and joining again gives the text back |
| `Text.SplitOmittingEmpty` | Sources/Core/HttpServer.swift:230 | the pieces are non-empty and at most `maxSplits + 1`; all are separator-free except a last piece reached by the split limit |
| `SwiftHttp.OkHtml` | Sources/Core/HttpServer.swift:29-33 | 200, HTML content type, body the page's UTF-8 |
| `SwiftHttp.OkJson` | Sources/Core/HttpServer.swift:35-39 | 200, JSON content type, body the serializer's output, which is nil when it throws |
| `SwiftHttp.NotFound` | Sources/Core/HttpServer.swift:41-43 | 404, no headers, body "Not Found" |
| `SwiftHttp.BadRequest` | Sources/Core/HttpServer.swift:45-47 | 400, no headers, body "Bad Request" |
| `SwiftHttp.NotFoundBodyIsText` | Sources/Core/HttpServer.swift:42 | the fixed body is the UTF-8 of "Not Found" |
| `SwiftHttp.BadRequestBodyIsText` | Sources/Core/HttpServer.swift:46 | the fixed body is the UTF-8 of "Bad Request" |
| `SwiftHttp.Serialize` | Sources/Core/HttpServer.swift:49-59 | the bytes are the head, with `Content-Length` equal to the body's byte count, then the body |
| `SwiftHttp.ChatRoom.AddMessage` | Sources/Core/HttpServer.swift:78-83 | the room becomes the newest 100 of the old messages plus the new one; the new one is last and the cap holds |
| `SwiftHttp.AddBelowCapKeepsAll` | Sources/Core/HttpServer.swift:81 | below the cap, nothing is dropped |
| `SwiftHttp.AddToFullRoomDropsOldest` | Sources/Core/HttpServer.swift:81 | at the cap, exactly the oldest message is dropped |
| `SwiftHttp.ChatRoom.GetMessagesAsWritten` | Sources/Core/HttpServer.swift:85-88 | traps exactly on a negative limit |
| `SwiftHttp.ChatRoom.GetMessages` | Sources/Core/HttpServer.swift:85-88 | all messages without a limit; otherwise the newest `min(limit, count)` in order |
| `SwiftHttp.GetMessagesAgrees` | Sources/Core/HttpServer.swift:85-88 | the corrected reading equals the written one wherever the written one does not trap |
| `SwiftHttp.Limit` | Sources/Core/HttpServer.swift:135 | `X-Limit` read by `Int(_:)`; 50 when the header is absent or unparsable |
| `SwiftHttp.ListedAsWritten` | Sources/Core/HttpServer.swift:134-139 | traps exactly when the limit is negative |
| `SwiftHttp.Listed` | Sources/Core/HttpServer.swift:134-139 | 200 with the encoding of the newest `max(limit, 0)` messages |
| `SwiftHttp.Handle` | Sources/Core/HttpServer.swift:115-151 | 404 exactly without a handler; 400 exactly for a post without both strings; 200 otherwise |
| `SwiftHttp.Respond` | Sources/Core/HttpServer.swift:123-126 | a key without a handler answers 404 |
| `SwiftHttp.RespondedMessages` | Sources/Core/HttpServer.swift:141-151 | routing keeps the 100-message cap |
| `SwiftHttp.Router.Route` | Sources/Core/HttpServer.swift:109-152 | the answer and the room after the call are those of the specification over the room before it |
| `SwiftHttp.Router.HandlePostMessage` | Sources/Core/HttpServer.swift:141-151 | 400 with the room untouched unless the body has both strings; otherwise one message is added and acknowledged with its id |
| `SwiftHttp.RouteKeyInjective` | Sources/Core/HttpServer.swift:124 | for methods without ':', distinct (method, path) pairs give distinct keys |
| `SwiftHttp.ColonInMethodIsNotRouted` | Sources/Core/HttpServer.swift:115-125 | a method containing ':' (which the space-only split of the request line lets through) never reaches a handler, since its key holds two ':' and every table key one |
| `SwiftHttp.RouteTable` | Sources/Core/HttpServer.swift:115-121 | for every method, ':' included, exactly five pairs reach a handler, and only `POST /api/messages` reaches the post handler |
| `SwiftHttp.RespondHeaders` | Sources/Core/HttpServer.swift:29-47 | every answer carries at most the `Content-Type` header |
| `SwiftHttp.OnlyPostsChangeTheRoom` | Sources/Core/HttpServer.swift:116-151 | for every parsed request, only a well-formed post changes the room, and it adds its message last and acknowledges it |
| `SwiftHttp.MalformedPostIsBadRequest` | Sources/Core/HttpServer.swift:142-148 | a post without `username` or `content` gets 400 and changes nothing |
| `SwiftHttp.ListingHonoursTheLimit` | Sources/Core/HttpServer.swift:134-139 | `GET /api/messages` lists the newest `X-Limit` messages, 50 by default, and changes nothing |
| `SwiftHttp.NegativeLimitTrapsAsWritten` | Sources/Core/HttpServer.swift:135-136 | `X-Limit: -1` reaches `suffix(-1)` and traps |
| `SwiftHttp.ListedAgrees` | Sources/Core/HttpServer.swift:134-139 | for a non-negative limit, the corrected listing equals the written one |
| `SwiftHttp.NegativeLimitListsNothing` | Sources/Core/HttpServer.swift:135-136 | the corrected listing answers a negative limit with the empty list |
| `SwiftHttp.HeaderBlock` | Sources/Core/HttpServer.swift:238-239 | a prefix of non-empty lines, followed by an empty line when it stops early |
| `SwiftHttp.PathOf` | Sources/Core/HttpServer.swift:234 | a target without '?' is its own path |
| `SwiftHttp.BodyOf` | Sources/Core/HttpServer.swift:248-251 | none exactly when the text has no CRLF CRLF; otherwise the text after its first occurrence |
| `SwiftHttp.ParseRequest` | Sources/Core/HttpServer.swift:226-253 | a parsed request has a non-empty method without spaces and a non-empty path, and a body exactly when the text has an empty line |
| `SwiftHttp.ReadRequest` | Sources/Core/HttpServer.swift:226-253 | the reading loop gives exactly the parse: method and path from the first line, headers up to the empty line, body after it |
| `SwiftHttp.ReadHeaders` | Sources/Core/HttpServer.swift:237-245 | the loop builds exactly the fold of the header lines |
| `SwiftHttp.Server.ProcessRequest` | Sources/Core/HttpServer.swift:226-256 | no answer for non-UTF-8 or a short request line; otherwise the serialized answer of the route, with the room updated as routing says |
| `SwiftHttp.RequestReadsBack` | Sources/Core/HttpServer.swift:226-253 | a client's request text parses back to its method, the path of its target, its headers and its body |
| `SwiftHttp.RequestLineParts` | Sources/Core/HttpServer.swift:230 | the request line splits into method, target and version |
| `SwiftHttp.PathOfQuery` | Sources/Core/HttpServer.swift:234 | the path of `path?query` is `path`, for a non-empty `path` without '?' |
| `SwiftHttp.PathAfterLeadingQuestionMark` | Sources/Core/HttpServer.swift:234 | example, not a general property: the target "?a=1" has the path "a=1": the path is the first non-empty piece between '?'s |
| `SwiftHttp.NoSpaceNoRequest` | Sources/Core/HttpServer.swift:230-231 | a first line without a space gets no answer |
| `SwiftLogger.LevelFromRaw` | Sources/Services/Logger.swift:6-10 | a recognised raw value maps to the level that has it |
| `SwiftLogger.RawValueRoundTrip` | Sources/Services/Logger.swift:6-10 | every level reads back from its raw value |
| `SwiftLogger.OsLogType` | Sources/Services/Logger.swift:12-19 | only a warning is written at the default type |
| `SwiftLogger.OsLogTypeInjective` | Sources/Services/Logger.swift:12-19 | distinct levels get distinct log types |
| `SwiftLogger.LastPathComponent` | Sources/Services/Logger.swift:81 | an empty path gives an empty name; the name holds no '/' unless it is the root "/" |
| `SwiftLogger.LastPathComponentOfFile` | Sources/Services/Logger.swift:81 | `dir/name` is recorded as `name` |
| `SwiftLogger.LastPathComponentCorners` | Sources/Services/Logger.swift:81 | example, not a general property: "" stays "", slashes alone give "/", and a trailing slash is ignored |
| `SwiftLogger.TimeText` | Sources/Services/Logger.swift:140-143 | "HH:mm:ss.SSS" is 12 characters of digits, ':' and '.' |
| `SwiftLogger.Formatted` | Sources/Services/Logger.swift:141-145 | a formatted entry parses back to its time, level and message |
| `SwiftLogger.ShortDescription` | Sources/Services/Logger.swift:147-151 | the time to the second, then " LEVEL: ", then the message |
| `SwiftLogger.RenderingsAgree` | Sources/Services/Logger.swift:140-151 | both renderings share the time to the second and end with the message |
| `SwiftLogger.Logger.constructor` | Sources/Services/Logger.swift:29-38 | both lists start empty |
| `SwiftLogger.Logger.Log` | Sources/Services/Logger.swift:76-100 | the entry records the level, message, caller, line, time and the file's last path component; the buffer becomes `Appended` of the old buffer and the entry; the mirror becomes the newest 100 of the old mirror plus the entry, and stays the newest 100 of the buffer |
| `SwiftLogger.Appended` | Sources/Services/Logger.swift:94-97 | the cap holds and the new entry is last |
| `SwiftLogger.AppendedKeepsTail` | Sources/Services/Logger.swift:94-97 | the buffer is a contiguous tail of everything logged, 1001 entries shrinking to 901 |
| `SwiftLogger.MirrorAfterAppend` | Sources/Services/Logger.swift:94-98 | dropping 100 never changes what the newest-100 mirror shows |
| `SwiftLogger.Logger.LogDebug` | Sources/Services/Logger.swift:42-44 | logs the message at debug |
| `SwiftLogger.Logger.LogInfo` | Sources/Services/Logger.swift:46-48 | logs the message at info |
| `SwiftLogger.Logger.LogWarning` | Sources/Services/Logger.swift:50-52 | logs the message at warning |
| `SwiftLogger.Logger.LogError` | Sources/Services/Logger.swift:54-56 | logs the message at error |
| `SwiftLogger.Logger.LogCategory` | Sources/Services/Logger.swift:58-72 | logs at info with the message behind "[NETWORK] ", "[DISCOVERY] ", "[CONNECTION] " or "[MESSAGE] " |
| `SwiftLogger.Logger.GetRecentLogs` | Sources/Services/Logger.swift:104-108 | the newest `min(limit, count)` entries in order; a negative limit traps |
| `SwiftLogger.DefaultRecentLogsIsMirror` | Sources/Services/Logger.swift:104-108 | with the default limit, the result is the mirror |
| `SwiftLogger.ByCategory` | Sources/Services/Logger.swift:110-114 | exactly the entries whose message holds "[category]" |
| `SwiftLogger.Logger.GetLogsByCategory` | Sources/Services/Logger.swift:110-114 | exactly the buffer's entries whose message holds "[category]" |
| `SwiftLogger.ByCategoryAppend` | Sources/Services/Logger.swift:110-114 | filtering distributes over concatenation, so it keeps buffer order |
| `SwiftLogger.TaggedEntryIsFound` | Sources/Services/Logger.swift:58-72 | an entry logged through a category helper is found under that category |
| `SwiftLogger.Logger.ClearLogs` | Sources/Services/Logger.swift:116-122 | both lists become empty |
| `SwiftLogger.Logger.ExportLogs` | Sources/Services/Logger.swift:124-128 | an empty log exports as ""; for messages without newlines, splitting the export at line breaks gives one formatted line per entry, oldest first, each of which parses back (`SwiftLogger.Formatted`) |
| `ChatCore.NewResponse` | Sources/RustCore/src/lib.rs:23-29 | the status alone, with no headers and no body |
| `ChatCore.WithBody` | Sources/RustCore/src/lib.rs:31-35 | the body is set and `Content-Type` (re)set; the status and other headers stay |
| `ChatCore.NewWithBody` | Sources/RustCore/src/lib.rs:23-35 | a fresh response given a body has exactly the one content-type header |
| `ChatCore.ChatRoom.constructor` | Sources/RustCore/src/lib.rs:58-63 | no messages and no clients |
| `ChatCore.ChatRoom.AddMessage` | Sources/RustCore/src/lib.rs:65-77 | one message is appended and returned, with its timestamp cut to 64 bits; the clients stay |
| `ChatCore.AsU64` | Sources/RustCore/src/lib.rs:70-73 | below 2^64, unchanged; otherwise the low 64 bits |
| `ChatCore.ChatRoom.GetMessages` | Sources/RustCore/src/lib.rs:79-85 | without a limit, all messages oldest first; with `n`, at most `n`, newest first |
| `ChatCore.NewestFirst` | Sources/RustCore/src/lib.rs:82 | element `i` is the `i`-th newest |
| `ChatCore.NewestFirstIsReversedTail` | Sources/RustCore/src/lib.rs:82 | reversed, a limited read is the last `n` messages |
| `ChatCore.AddedMessageComesFirst` | Sources/RustCore/src/lib.rs:65-85 | a message just added heads every limited read |
| `ChatCore.ChatRoom.RegisterClient` | Sources/RustCore/src/lib.rs:87-89 | the id now names the channel; every other entry stays |
| `ChatCore.ChatRoom.UnregisterClient` | Sources/RustCore/src/lib.rs:91-93 | the id is removed and every other entry stays |
| `ChatCore.RegisterThenUnregister` | Sources/RustCore/src/lib.rs:87-93 | register then unregister restores the other clients, and the whole map for a new id |
| `ChatCore.Handle` | Sources/RustCore/src/lib.rs:136-229 | every handler answers 200 with only a content type: HTML for the page routes, JSON for the API |
| `ChatCore.Route` | Sources/RustCore/src/lib.rs:128-134 | a pair in the table runs its handler; any other pair gets 404 "Not Found" as `text/plain` |
| `ChatCore.RouteTable` | Sources/RustCore/src/lib.rs:117-123 | exactly the five pairs are routed, matched exactly |
| `ChatCore.RouteIgnoresHeadersAndBody` | Sources/RustCore/src/lib.rs:129 | only the method and path select the answer |
| `ChatCore.ParseHeaders` | Sources/RustCore/src/lib.rs:255-265 | the loop builds exactly the fold of the lines: cut at the first ':', trimmed, lines without ':' skipped, later lines overwrite |
| `ChatCore.ParseHeadersRoundTrip` | Sources/RustCore/src/lib.rs:255-265 | trimmed `name: value` lines joined by CRLF parse back to the same dictionary |
| `Text.RustLines` | Sources/RustCore/src/lib.rs:257 | no lines exactly for the empty text, and no line holds a line feed |
| `ChatCore.RustLinesOfJoin` | Sources/RustCore/src/lib.rs:257 | `lines()` splits CRLF-joined single lines back apart |
| `ChatCore.SerializeResponse` | Sources/RustCore/src/lib.rs:267-294 | the head, with `Content-Length` equal to the body's UTF-8 length or 0, then the body bytes |
| `ChatCore.SerializedReadsBack` | Sources/RustCore/src/lib.rs:267-294 | cut at CRLF, the head gives the status line, the body length and the headers back |
| `ChatCore.HttpServer.HandleRequest` | Sources/RustCore/src/lib.rs:243-253 | the bytes are the serialization of the routed request with the parsed headers |

## Left out

- I/O and sockets are not modelled. This covers binding, the axum/hyper serving, the TLS handshake, `NWListener` and its connections, `os_log`, and the log file (`FileLogger`). These are replaced by event methods and oracle parameters.
- Concurrency is not modelled: the tokio runtime, spawned tasks, the mutexes and the logger's lock are treated as single-threaded. Task progress is modelled as event methods on `ServeTask` and as the loop methods.
- Certificate generation and the rustls configuration are reduced to a `TlsSetup` of step outcomes.
- The mDNS daemon, service-info validation and registration are reduced to an `MdnsSetup` of outcomes and a `Daemon` record list.
- The filesystem is an abstract map, with symbolic links followed up to 40 deep, as Linux does. OS case-folding and mount semantics are not modelled.
- Symbolic-link chains longer than 40 links make canonicalisation fail, rather than being followed.
- JSON encoding and decoding (serde_json, `JSONSerialization`) are opaque function parameters. Fresh UUIDs and the clock are parameters too.
- `SwiftLogger.TimeText` renders a timestamp as UTC milliseconds of the day. The local time zone of `DateFormatter` is not modelled.
- The random `id` of a log entry is left out.
- `ft_http_server_free_response` only releases memory and is not modelled.
- The detached thread that `ft_*_free` drops the server on is not modelled. Free is the drop itself.
- `ChatRoom::broadcast` in the older library spawns one send task per client. It is not modelled, because it is pure concurrency and returns nothing.
- The older library's own C functions (lib.rs:298-349) duplicate the names of the crate's C interface and cannot be built. They are not modelled.
- In that library, `handle_chat` (declared with `Self::Output`) and `handle_get_messages` (an untyped `vec![]`) do not compile. `ChatCore.Handle` gives them the behaviour they evidently intend: the index page, and the empty JSON array.
- The Swift `ChatRoom` timestamp conversion `UInt64(ms)` is not modelled. Timestamps are parameters.
- The Swift `HttpServer.start`/`stop` are not modelled, and neither is the connection table; they are listener and connection I/O.
- The logger's singleton and subsystem name are not modelled.
- `SwiftHttp.Wire` assumes that a response's headers are walked in one fixed order. That holds because every response has at most the one header `Content-Type`; the order a larger dictionary would be walked in is not modelled.
- Swift's `String(data:encoding:)` is an input to `SwiftHttp.Server.ProcessRequest`: the text is either decoded or `None`. UTF-8 validation itself is not modelled.
- `SwiftHttp.Router.Route` uses the corrected listing (`SwiftHttp.Listed`), so a negative `X-Limit` lists no messages instead of trapping as the code does; the trap itself is `SwiftHttp.ListedAsWritten` (see Findings).
- `SwiftHttp.Respond` uses the corrected listing as well: its answer to `GET /api/messages` with a negative `X-Limit` is 200 with no messages, not the trap.
- `SwiftHttp.Server.ProcessRequest` inherits the corrected listing from `SwiftHttp.Router.Route`: for a negative `X-Limit` it sends 200 with no messages where the app would trap.
- `SwiftHttp.ListingHonoursTheLimit` is stated over the corrected listing; for a negative limit the code as written traps (`SwiftHttp.NegativeLimitTrapsAsWritten`).
- `StaticFiles.Dispatch` takes the URL path as already percent-decoded (`/my%20file.txt` arrives as `/my file.txt`); axum's decoding, and its 400 answer for a path that does not decode to UTF-8, are not modelled.
- `SwiftHttp.ParseRequest` treats a Swift `String` as a sequence of Unicode scalars. Swift splits and compares by `Character` (extended grapheme clusters, under canonical equivalence), so a space or a ':' followed by a combining mark forms one `Character` with it and is not a separator there; that case is not modelled.
- `Http1.SplitField` and the header dictionaries compare names scalar by scalar; Swift's canonical-equivalence comparison of `String` keys is not modelled.
- `SwiftLogger.ByCategory` tests `contains` scalar by scalar; Swift's `Character`-based, canonical-equivalence matching is not modelled.
- Where the code departs from what its names and comments suggest, the model follows the code:
  - Only the route `/` serves `index.html`. An empty wildcard path does not.
  - The Swift path is the first non-empty piece between '?'s, so "?a=1" has path "a=1" (`SwiftHttp.PathAfterLeadingQuestionMark`).
  - An mDNS `start` after a `stop` builds a new runtime (`MdnsServer.RestartMakesNewRuntime`).
  - The mDNS monitor never clears `is_registered`.
  - An mDNS `stop` does not withdraw the advertisement: it only drops the server's daemon handle and clears the flag, while the monitor task keeps its own clone of the daemon and runs until a daemon error; nothing unregisters the service.
  - A restarted HTTPS server can be marked stopped by its previous task (`HttpServer.StaleHttpsTask`).
  - The full mDNS name the code computes is only logged. It is never sent.

## Findings

| source | as written | input that shows it | evidently intended | confidence | as-written member | corrected member |
|---|---|---|---|---|---|---|
| RustCore/src/server/mdns_server.rs:64-66 | `format!("{}.{}.", instance, service_type)` appends a dot to a service type that already ends in one | instance "TestServer", type "_game._tcp.local." gives "TestServer._game._tcp.local.." | `<Instance>.<Service>.<Domain>` with exactly one trailing dot | high (not executed) | `MdnsServer.AsWrittenDoublesTrailingDot` | `MdnsServer.FullnameParts` |
| Sources/Core/HttpServer.swift:85-88, 135 | `X-Limit` is parsed with `Int(_:)` and passed straight to `suffix`, which traps on a negative length | `GET /api/messages` with `X-Limit: -1` | a negative limit lists no messages | high (not executed) | `SwiftHttp.NegativeLimitTrapsAsWritten` | `SwiftHttp.NegativeLimitListsNothing` |

=== FILE: chat_core.dfy ===
/**
 * The older, self-contained RustCore library: a response builder, a chat
 * room holding messages and client channels, a fixed route table, and a
 * server that parses a header block, routes and serializes the response.
 *
 * This crate does not compile as written (a `Self::Output` return type in
 * `handle_chat` and an untyped `vec![]` in `handle_get_messages`); the model
 * gives those two handlers the behaviour they evidently intend.
 */
module ChatCore {
  import opened Common
  import opened Text
  import opened Http1

  // ---------------------------------------------------------------------
  // Requests and responses
  // ---------------------------------------------------------------------

  datatype HttpRequest = HttpRequest(verb: string, path: string, headers: map<string, string>, body: Option<string>)

  datatype HttpResponse = HttpResponse(statusCode: U16, headers: map<string, string>, body: Option<string>)

  /** `HttpResponse::new`: the status alone, no headers, no body. */
  function NewResponse(statusCode: U16): (r: HttpResponse)
    ensures r.statusCode == statusCode && r.headers == map[] && r.body == None
  {
    HttpResponse(statusCode, map[], None)
  }

  /** `with_body`: the body is set and `Content-Type` is (re)set; the status and other headers stay. */
  function WithBody(response: HttpResponse, body: string, contentType: string): (r: HttpResponse)
    ensures r.statusCode == response.statusCode && r.body == Some(body)
    ensures r.headers.Keys == response.headers.Keys + {"Content-Type"} && r.headers["Content-Type"] == contentType
    ensures forall k | k in response.headers && k != "Content-Type" :: r.headers[k] == response.headers[k]
  {
    response.(body := Some(body), headers := response.headers["Content-Type" := contentType])
  }

  /** `json`: the serialized value as an `application/json` body; a failed serialization gives "". */
  function Json(response: HttpResponse, encoded: Option<string>): HttpResponse {
    WithBody(response, if encoded.Some? then encoded.value else "", "application/json")
  }

  /** Every response the router builds carries at most the `Content-Type` header. */
  predicate OnlyContentType(response: HttpResponse) {
    forall k | k in response.headers :: k == "Content-Type"
  }

  /** A fresh response given a body has exactly one header, the content type. */
  lemma NewWithBody(statusCode: U16, body: string, contentType: string)
    ensures WithBody(NewResponse(statusCode), body, contentType)
      == HttpResponse(statusCode, map["Content-Type" := contentType], Some(body))
  {
  }

  // ---------------------------------------------------------------------
  // The chat room
  // ---------------------------------------------------------------------

  /** `ChatMessage`; the id and the clock are supplied by the caller. */
  datatype ChatMessage = ChatMessage(id: string, username: string, content: string, timestamp: nat)

  /** A client's channel, known only by identity. */
  datatype Sender = Sender(channel: nat)

  /** `as u64` on the milliseconds since the epoch keeps the low 64 bits. */
  function AsU64(millis: nat): (r: nat)
    ensures r < 0x1_0000_0000_0000_0000
    ensures millis < 0x1_0000_0000_0000_0000 ==> r == millis
  {
    millis % 0x1_0000_0000_0000_0000
  }

  /** The newest `n` elements of `s`, newest first. */
  function NewestFirst<T>(s: seq<T>, n: nat): (r: seq<T>)
    ensures |r| == if |s| < n then |s| else n
    ensures forall i | 0 <= i < |r| :: r[i] == s[|s| - 1 - i]
  {
    if n == 0 || s == [] then []
    else
      var rest := NewestFirst(s[..|s| - 1], n - 1);
      [s[|s| - 1]] + rest
  }

  function Reverse<T>(s: seq<T>): (r: seq<T>)
    ensures |r| == |s|
    ensures forall i | 0 <= i < |s| :: r[i] == s[|s| - 1 - i]
  {
    seq(|s|, i requires 0 <= i < |s| => s[|s| - 1 - i])
  }

  /** Read oldest first, the newest `n` are exactly the last `n` messages. */
  lemma NewestFirstIsReversedTail<T>(s: seq<T>, n: nat)
    ensures Reverse(NewestFirst(s, n)) == Newest(s, n)
  {
    var r := NewestFirst(s, n);
    ReversedFromEnd(r, Reverse(r), Newest(s, n), s);
  }

  /** A sequence read from the end of `s`, reversed, is the same-length suffix of `s`. */
  lemma ReversedFromEnd<T>(r: seq<T>, back: seq<T>, t: seq<T>, s: seq<T>)
    requires |r| == |t| == |back| <= |s|
    requires forall i | 0 <= i < |r| :: r[i] == s[|s| - 1 - i]
    requires forall i | 0 <= i < |back| :: back[i] == r[|r| - 1 - i]
    requires t == s[|s| - |t|..]
    ensures back == t
  {
    forall i | 0 <= i < |t| ensures back[i] == t[i] {
      assert back[i] == r[|r| - 1 - i];
    }
  }

  /** `ChatRoom`: the message list and the client channels by id. */
  class ChatRoom {
    var messages: seq<ChatMessage>
    var clients: map<string, Sender>

    /** `ChatRoom::new`. */
    constructor()
      ensures messages == [] && clients == map[]
    {
      messages := [];
      clients := map[];
    }

    /** `add_message`: one new message at the end, returned; the clients stay. */
    method AddMessage(username: string, content: string, id: string, nowMillis: nat) returns (message: ChatMessage)
      modifies this
      ensures message == ChatMessage(id, username, content, AsU64(nowMillis))
      ensures messages == old(messages) + [message]
      ensures clients == old(clients)
    {
      message := ChatMessage(id, username, content, AsU64(nowMillis));
      messages := messages + [message];
    }

    /** `get_messages`: all of them oldest first, or at most `n` newest first. */
    function GetMessages(limit: Option<nat>): (r: seq<ChatMessage>)
      reads this
      ensures limit.None? ==> r == messages
      ensures limit.Some? ==> |r| == (if |messages| < limit.value then |messages| else limit.value)
      ensures limit.Some? ==> forall i | 0 <= i < |r| :: r[i] == messages[|messages| - 1 - i]
    {
      match limit
      case None => messages
      case Some(n) => NewestFirst(messages, n)
    }

    /** `register_client`: the id now names this channel; every other entry stays. */
    method RegisterClient(clientId: string, sender: Sender)
      modifies this
      ensures clients == old(clients)[clientId := sender]
      ensures messages == old(messages)
    {
      clients := clients[clientId := sender];
    }

    /** `unregister_client`: the id is gone; every other entry stays, and an unknown id changes nothing. */
    method UnregisterClient(clientId: string)
      modifies this
      ensures clients == old(clients) - {clientId}
      ensures messages == old(messages)
    {
      clients := clients - {clientId};
    }
  }

  /** The message just added is the first one a limited read returns. */
  lemma AddedMessageComesFirst(before: seq<ChatMessage>, message: ChatMessage, n: nat)
    requires n >= 1
    ensures NewestFirst(before + [message], n)[0] == message
    ensures NewestFirst(before + [message], n)[1..] == NewestFirst(before, n - 1)
  {
    var s := before + [message];
    assert s[..|s| - 1] == before;
  }

  /** Registering and then unregistering an id leaves the other clients as they were. */
  lemma RegisterThenUnregister(clients: map<string, Sender>, clientId: string, sender: Sender)
    ensures clients[clientId := sender] - {clientId} == clients - {clientId}
    ensures clientId !in clients ==> clients[clientId := sender] - {clientId} == clients
  {
  }

  // ---------------------------------------------------------------------
  // Routing
  // ---------------------------------------------------------------------

  datatype Handler = Index | Chat | Status | ListMessages | PostMessage

  /** The route table: five exact (method, path) pairs. */
  function Lookup(verb: string, path: string): Option<Handler> {
    if verb == "GET" && path == "/" then Some(Index)
    else if verb == "GET" && path == "/chat" then Some(Chat)
    else if verb == "GET" && path == "/api/status" then Some(Status)
    else if verb == "GET" && path == "/api/messages" then Some(ListMessages)
    else if verb == "POST" && path == "/api/messages" then Some(PostMessage)
    else None
  }

  /** The answer for every pair outside the table. */
  function NotFound(): HttpResponse {
    WithBody(NewResponse(404), "Not Found", "text/plain")
  }

  /**
   * The handler bodies. The page, the status object and the acknowledgement
   * are supplied already serialized; the message list is the empty JSON array.
   */
  datatype Pages = Pages(indexHtml: string, statusJson: Option<string>, ackJson: Option<string>)

  /** What each handler answers: the page for `/` and `/chat`, JSON for the API. */
  function Handle(handler: Handler, pages: Pages): (r: HttpResponse)
    ensures r.statusCode == 200 && OnlyContentType(r) && r.body.Some? && "Content-Type" in r.headers
    ensures r.headers["Content-Type"] == if handler == Index || handler == Chat then "text/html" else "application/json"
  {
    match handler
    case Index => WithBody(NewResponse(200), pages.indexHtml, "text/html")
    case Chat => WithBody(NewResponse(200), pages.indexHtml, "text/html")
    case Status => Json(NewResponse(200), pages.statusJson)
    case ListMessages => Json(NewResponse(200), Some("[]"))
    case PostMessage => Json(NewResponse(200), pages.ackJson)
  }

  /** `Router::route`: the handler for the exact (method, path) pair, or 404 "Not Found" as plain text. */
  function Route(request: HttpRequest, pages: Pages): (r: HttpResponse)
    ensures OnlyContentType(r) && r.body.Some?
    ensures Lookup(request.verb, request.path).None? ==>
      r.statusCode == 404 && r.body == Some("Not Found") && r.headers == map["Content-Type" := "text/plain"]
    ensures Lookup(request.verb, request.path).Some? ==> r == Handle(Lookup(request.verb, request.path).value, pages)
  {
    match Lookup(request.verb, request.path)
    case None => NotFound()
    case Some(handler) => Handle(handler, pages)
  }

  /** Only the five pairs are routed, matched exactly; a POST is only accepted on `/api/messages`. */
  lemma RouteTable(verb: string, path: string)
    ensures Lookup(verb, path).Some? <==>
      (verb == "GET" && (path == "/" || path == "/chat" || path == "/api/status" || path == "/api/messages"))
      || (verb == "POST" && path == "/api/messages")
    ensures Lookup(verb, path) == Some(PostMessage) <==> verb == "POST" && path == "/api/messages"
  {
  }

  /** Headers and body never affect routing. */
  lemma RouteIgnoresHeadersAndBody(request: HttpRequest, pages: Pages)
    ensures Route(request, pages) == Route(HttpRequest(request.verb, request.path, map[], None), pages)
  {
  }

  // ---------------------------------------------------------------------
  // The server
  // ---------------------------------------------------------------------

  /** The UTF-8 bytes of the body, none when there is no body. */
  function BodyBytes(response: HttpResponse): seq<byte> {
    if response.body.Some? then Utf8(response.body.value) else []
  }

  /** The byte form of a response whose headers are walked in `order`. */
  function Serialized(response: HttpResponse, order: seq<string>): seq<byte>
    requires forall k | k in order :: k in response.headers
  {
    Utf8(Head(response.statusCode, |BodyBytes(response)|, FieldLines(response.headers, order))) + BodyBytes(response)
  }

  /** The one order in which a response with at most `Content-Type` can be walked. */
  function HeaderOrder(h: map<string, string>): (order: seq<string>)
    ensures forall k | k in order :: k in h
  {
    if "Content-Type" in h then ["Content-Type"] else []
  }

  lemma HeaderOrderEnumerates(h: map<string, string>)
    requires forall k | k in h :: k == "Content-Type"
    ensures Enumerates(HeaderOrder(h), h)
  {
  }

  /** `HttpServer`: the router and its chat room. */
  class HttpServer {
    const chatRoom: ChatRoom

    /** `HttpServer::new`. */
    constructor()
      ensures fresh(chatRoom) && chatRoom.messages == [] && chatRoom.clients == map[]
    {
      chatRoom := new ChatRoom();
    }

    /** `handle_request`: parse the header block, route, serialize. */
    method HandleRequest(verb: string, path: string, headerText: string, body: Option<string>, pages: Pages)
      returns (data: seq<byte>)
      ensures data == Serialized(Route(HttpRequest(verb, path, FoldFields(RustLines(headerText), RustWhiteSpace), body), pages),
                                 HeaderOrder(Route(HttpRequest(verb, path, FoldFields(RustLines(headerText), RustWhiteSpace), body), pages).headers))
    {
      var headers := ParseHeaders(headerText);
      var response := Route(HttpRequest(verb, path, headers, body), pages);
      HeaderOrderEnumerates(response.headers);
      data := SerializeResponse(response, HeaderOrder(response.headers));
    }
  }

  /**
   * `parse_headers`: each line of the block (split as `str::lines` does)
   * that holds a ':' is cut at its first ':', both halves trimmed, and
   * inserted, a later line overwriting an earlier one with the same name.
   */
  method ParseHeaders(headerText: string) returns (headers: map<string, string>)
    ensures headers == FoldFields(RustLines(headerText), RustWhiteSpace)
  {
    var lines := RustLines(headerText);
    headers := map[];
    var i := 0;
    assert lines[..0] == [];
    while i < |lines|
      invariant 0 <= i <= |lines|
      invariant headers == FoldFields(lines[..i], RustWhiteSpace)
    {
      var line := lines[i];
      FoldFieldsStep(lines, i, RustWhiteSpace);
      var colon := IndexOfChar(line, ':');
      if colon.Some? {
        var pos := colon.value;
        var key := Trim(line[..pos], RustWhiteSpace);
        var value := Trim(line[pos + 1..], RustWhiteSpace);
        assert SplitField(line, RustWhiteSpace) == Some((key, value));
        headers := headers[key := value];
      }
      i := i + 1;
    }
    assert lines[..i] == lines;
  }

  /**
   * `serialize_response`: the head (status line from the shared table,
   * `Content-Length` as the body's byte length or 0, `Connection: close`,
   * the headers in walking order, the empty line), then the body bytes.
   */
  method SerializeResponse(response: HttpResponse, order: seq<string>) returns (data: seq<byte>)
    requires Enumerates(order, response.headers)
    ensures data == Serialized(response, order)
  {
    var length := if response.body.Some? then |Utf8(response.body.value)| else 0;
    assert length == |BodyBytes(response)|;
    var output := WriteHead(response.statusCode, length, response.headers, order);
    data := Utf8(output);
    if response.body.Some? {
      data := data + Utf8(response.body.value);
    }
  }

  // ---------------------------------------------------------------------
  // Header blocks read back
  // ---------------------------------------------------------------------

  /** `str::lines` on CRLF-joined single lines, the last one non-empty, gives the lines back. */
  lemma {:induction false} RustLinesOfJoin(lines: seq<string>)
    requires |lines| >= 1 && SingleLines(lines) && lines[|lines| - 1] != []
    ensures RustLines(Join(lines, CRLF)) == lines
    decreases |lines|
  {
    var first := lines[0];
    if |lines| == 1 {
      assert Join(lines, CRLF) == first;
      assert IndexOfChar(first, '\n') == None;
    } else {
      var rest := lines[1..];
      assert lines == [first] + rest;
      JoinCons(first, rest, CRLF);
      var tail := Join(rest, CRLF);
      var s := first + CRLF + tail;
      assert s[|first| + 1] == '\n';
      forall j | 0 <= j < |first| + 1 ensures s[j] != '\n' {
        if j < |first| {
          assert s[j] == first[j];
        }
      }
      IndexOfCharAt(s, '\n', |first| + 1);
      assert s[..|first| + 1] == first + "\r";
      assert StripCarriageReturn(first + "\r") == first;
      assert s[|first| + 2..] == tail;
      RustLinesOfJoin(rest);
    }
  }

  /**
   * A header block written as `name: value` lines joined by CRLF parses
   * back to the same dictionary, whatever order the lines were written in.
   */
  lemma ParseHeadersRoundTrip(h: map<string, string>, order: seq<string>)
    requires Enumerates(order, h) && |order| >= 1
    requires WellFormedFields(h, RustWhiteSpace)
    ensures FoldFields(RustLines(Join(FieldLines(h, order), CRLF)), RustWhiteSpace) == h
  {
    var fields := FieldLines(h, order);
    forall i | 0 <= i < |fields| ensures '\r' !in fields[i] && '\n' !in fields[i] {
      var k := order[i];
      assert fields[i] == (k + ": ") + h[k];
    }
    var last := order[|order| - 1];
    assert fields[|fields| - 1] == FieldLine(last, h[last]);
    assert |fields[|fields| - 1]| >= 2;
    RustLinesOfJoin(fields);
    FieldLinesRoundTrip(h, order, RustWhiteSpace);
  }

  /**
   * A serialized head reads back: cut at CRLF, it gives the status line, a
   * `Content-Length` equal to the body's byte length, and the headers.
   */
  lemma SerializedReadsBack(response: HttpResponse, order: seq<string>)
    requires Enumerates(order, response.headers) && WellFormedFields(response.headers, RustWhiteSpace)
    requires |BodyBytes(response)| <= UsizeMax
    ensures var length := |BodyBytes(response)|;
      var parts := Components(Head(response.statusCode, length, FieldLines(response.headers, order)), CRLF);
      |parts| == |order| + 5
      && parts[0] == StatusLine(response.statusCode)
      && SplitField(parts[1], RustWhiteSpace) == Some(("Content-Length", NatToDecimal(length)))
      && ParseUsize(NatToDecimal(length)) == Some(length)
      && FoldFields(parts[3..|parts| - 2], RustWhiteSpace) == response.headers
  {
    var length := |BodyBytes(response)|;
    HeadReadsBack(response.statusCode, length, response.headers, order, RustWhiteSpace);
  }
}

=== FILE: common.dfy ===
/**
 * Small value types shared by every part of the model: an option type,
 * machine integers of the widths the Rust code uses, the three shapes a
 * C string argument can take when it crosses the opaque-handle boundary,
 * and Swift's `suffix`, which both bounded Swift buffers use.
 */
module Common {

  datatype Option<T> = None | Some(value: T)

  /** An 8-bit byte. */
  newtype byte = x: int | 0 <= x < 0x100

  /** Rust's `u16` (ports). */
  type U16 = x: int | 0 <= x < 0x1_0000

  /** Rust's `i32` and C's `int` (result codes, the Godot port argument). */
  type I32 = x: int | -0x8000_0000 <= x < 0x8000_0000

  /**
   * A `*const c_char` handed to a boundary function: a null pointer, bytes
   * that are not valid UTF-8, or a valid string. A valid C string never holds
   * a NUL character (the NUL ends it).
   */
  datatype CArg = Null | Invalid | Valid(text: string)

  predicate WellFormedArg(arg: CArg) {
    arg.Valid? ==> '\0' !in arg.text
  }

  /**
   * How every boundary function reads a string argument: a null pointer
   * falls back to a documented default, invalid UTF-8 makes the call fail
   * (None), and a valid string is taken as it is.
   */
  function DecodeArg(arg: CArg, fallback: string): Option<string> {
    match arg
    case Null => Some(fallback)
    case Invalid => None
    case Valid(s) => Some(s)
  }

  /** Swift's `suffix(n)` for `n >= 0`: the last `n` elements, or all when there are fewer. */
  function Newest<T>(s: seq<T>, n: nat): (r: seq<T>)
    ensures |r| == if |s| < n then |s| else n
    ensures r == s[|s| - |r|..]
  {
    if |s| <= n then s else s[|s| - n..]
  }

  /** Swift's `suffix(n)` for any `Int`: a negative length is a runtime trap (`None`). */
  function Suffix<T>(s: seq<T>, n: int): (r: Option<seq<T>>)
    ensures r.None? <==> n < 0
    ensures r.Some? ==> r.value == Newest(s, n)
  {
    if n < 0 then None else Some(Newest(s, n))
  }
}

=== FILE: core_types.dfy ===
/**
 * The shared vocabulary of the Rust core: its error type, the server
 * configuration and the locked server state, and the async runtime handle
 * both servers hold.
 */
module CoreTypes {
  import opened Common

  /** Every way a core operation can fail. */
  datatype CoreError =
    | NotRunning
    | AlreadyRunning
    | BindFailed(detail: string)
    | InvalidAddress(address: string)
    | StaticDirNotFound(dir: string)
    | IoError(detail: string)
    | JsonError(detail: string)
    | Unknown

  /** `Result<(), CoreError>`. */
  datatype Outcome = Ok | Err(error: CoreError)

  /** What a started HTTP server was configured with. */
  datatype ServerConfig = ServerConfig(
    address: string,
    staticDir: string,
    useHttps: bool,
    certPath: Option<string>,
    keyPath: Option<string>)

  /** The state behind the server's mutex; `connectedClients` is a `usize`. */
  datatype ServerState = ServerState(isRunning: bool, connectedClients: nat, config: Option<ServerConfig>)

  /** The derived default: not running, no clients, no configuration. */
  const DefaultServerState: ServerState := ServerState(false, 0, None)

  /**
   * An async runtime. Only its identity matters here: which runtime a
   * server holds, and whether a start made a new one.
   */
  class Runtime {
    constructor() { }
  }
}

=== FILE: ffi_mdns.dfy ===
/**
 * The C interface to the mDNS advertiser: a nullable handle, C string
 * arguments with defaults for null and failure for invalid UTF-8, and
 * results mapped to 1 and 0.
 */
module FfiMdns {
  import opened Common
  import opened CoreTypes
  import opened MdnsServer

  /** The service type used when the caller passes null. */
  const DefaultServiceType: string := "_service._tcp.local."

  /** The instance name used when the caller passes null. */
  const DefaultInstanceName: string := "Instance"

  /** The hostname used when the caller passes null. */
  const DefaultHostname: string := "server"

  /** `ft_mdns_server_create`: a new, unregistered advertiser behind a fresh handle. */
  method Create() returns (server: MdnsServerState)
    ensures fresh(server)
    ensures server.Valid() && !server.isRegistered && server.daemon == None && server.runtime == None
  {
    server := new MdnsServerState();
  }

  /** `ft_mdns_server_free`: null is ignored; otherwise the advertiser is dropped. */
  method Free(server: MdnsServerState?)
    modifies server
    ensures server != null ==> server.runtime == None
  {
    if server == null {
      return;
    }
    server.Drop();
  }

  /** The three names after defaulting, or None when one is not UTF-8. */
  function DecodeNames(serviceType: CArg, instanceName: CArg, hostname: CArg): (r: Option<(string, string, string)>)
    ensures r.Some? <==> !serviceType.Invalid? && !instanceName.Invalid? && !hostname.Invalid?
    ensures r.Some? ==>
      r.value.0 == (if serviceType.Null? then DefaultServiceType else serviceType.text)
      && r.value.1 == (if instanceName.Null? then DefaultInstanceName else instanceName.text)
      && r.value.2 == (if hostname.Null? then DefaultHostname else hostname.text)
  {
    match (DecodeArg(serviceType, DefaultServiceType), DecodeArg(instanceName, DefaultInstanceName),
           DecodeArg(hostname, DefaultHostname))
    case (Some(t), Some(i), Some(h)) => Some((t, i, h))
    case _ => None
  }

  /**
   * `ft_mdns_server_start`: 0 for a null handle or an undecodable name
   * (nothing changes); otherwise the advertiser's `start` with the names
   * after defaulting, Ok as 1 and any error as 0.
   */
  method Start(server: MdnsServerState?, serviceType: CArg, instanceName: CArg, hostname: CArg,
               port: U16, setup: MdnsSetup)
    returns (r: I32)
    requires server != null ==> server.Valid()
    modifies server
    ensures r == 0 || r == 1
    ensures server != null ==> server.Valid()
    ensures server == null ==> r == 0
    ensures DecodeNames(serviceType, instanceName, hostname).None? ==>
      r == 0 && (server != null ==> unchanged(server))
    ensures r == 1 <==>
      server != null && DecodeNames(serviceType, instanceName, hostname).Some?
      && !old(server.isRegistered) && SetupSucceeds(setup)
    ensures r == 1 ==>
      var names := DecodeNames(serviceType, instanceName, hostname).value;
      server.isRegistered && fresh(server.daemon.value)
      && server.serviceType == names.0 && server.instanceName == names.1
      && server.hostname == names.2 && server.port == port
  {
    if server == null {
      return 0;
    }
    var names := DecodeNames(serviceType, instanceName, hostname);
    if names.None? {
      return 0;
    }
    var outcome := server.Start(names.value.0, names.value.1, names.value.2, port, setup);
    r := if outcome.Ok? then 1 else 0;
  }

  /**
   * `ft_mdns_server_stop`: null is ignored; otherwise the daemon handle is
   * dropped and the flag cleared (the advertisement itself is not withdrawn).
   */
  method Stop(server: MdnsServerState?)
    requires server != null ==> server.Valid()
    modifies server
    ensures server != null ==> server.Valid() && !server.isRegistered && server.runtime == old(server.runtime)
  {
    if server == null {
      return;
    }
    server.Stop();
  }

  /** `ft_mdns_server_is_running`: 1 exactly for a non-null handle whose service is registered. */
  function IsRunning(server: MdnsServerState?): (r: I32)
    reads server
    ensures r == 0 || r == 1
    ensures r == 1 <==> server != null && server.isRegistered
  {
    if server == null then 0 else if server.isRegistered then 1 else 0
  }

  /**
   * A handle's life: a new advertiser reports 0; starting "TestServer" of
   * type "_game._tcp.local." on host "testserver" reports 1 and logs the
   * full name with an empty last label; stopping twice is harmless and
   * leaves it unregistered.
   */
  method StartStopScenario(setup: MdnsSetup)
    returns (before: I32, started: I32, running: I32, fullname: string, stopped: I32)
    requires SetupSucceeds(setup)
    ensures before == 0 && started == 1 && running == 1 && stopped == 0
    ensures fullname == "TestServer._game._tcp.local.."
  {
    var server := Create();
    before := IsRunning(server);
    started := Start(server, Valid("_game._tcp.local."), Valid("TestServer"), Valid("testserver"), 3456, setup);
    running := IsRunning(server);
    fullname := server.ServiceFullname();
    TestServerFullname();
    Stop(server);
    Stop(server);
    stopped := IsRunning(server);
    Free(server);
  }

  /** The name the test's advertiser logs. */
  lemma TestServerFullname()
    ensures FullnameAsWritten("TestServer", "_game._tcp.local.") == "TestServer._game._tcp.local.."
  {
  }
}

=== FILE: ffi_server.dfy ===
/**
 * The C interface to the HTTP server: a nullable handle, C string
 * arguments that are null (and then take a default), invalid UTF-8 (and
 * then fail) or text, and results mapped to 1 and 0.
 */
module FfiServer {
  import opened Common
  import opened CoreTypes
  import opened HttpServer

  /** The address used when the caller passes null. */
  const DefaultAddress: string := "0.0.0.0:8080"

  /** The static directory used when the caller passes null. */
  const DefaultStaticDir: string := "/tmp"

  /** `ft_http_server_create`: a new, stopped server behind a fresh handle. */
  method Create() returns (server: HttpServerState)
    ensures fresh(server) && fresh(server.inner)
    ensures server.Valid() && !server.IsRunning() && server.GetAddress() == ""
    ensures server.runtime == None && server.shutdownTx == None
  {
    server := new HttpServerState();
  }

  /**
   * `ft_http_server_free`: null is ignored; otherwise the server is dropped,
   * releasing its shutdown sender and then its runtime.
   */
  method Free(server: HttpServerState?)
    modifies if server != null then {server} + server.Sender() else {}
    ensures server != null ==> server.shutdownTx == None && server.runtime == None
  {
    if server == null {
      return;
    }
    server.Drop();
  }

  /**
   * `ft_http_server_start`: 0 for a null handle or an undecodable argument
   * (the server is not touched); otherwise `start_https` when `useHttps` is
   * non-zero and `start` when it is zero, with Ok as 1 and any error as 0.
   */
  method Start(server: HttpServerState?, address: CArg, staticDir: CArg, useHttps: I32,
               validAddress: string -> bool, tls: TlsSetup, runtimeCreated: bool)
    returns (r: I32)
    requires server != null ==> server.Valid()
    modifies if server != null then {server, server.inner} + server.Sender() else {}
    ensures r == 0 || r == 1
    ensures server != null ==> server.Valid()
    ensures server == null ==> r == 0
    ensures DecodeArg(address, DefaultAddress).None? || DecodeArg(staticDir, DefaultStaticDir).None? ==>
      r == 0 && (server != null ==> unchanged(server, server.inner))
    ensures r == 1 <==>
      server != null
      && DecodeArg(address, DefaultAddress).Some? && DecodeArg(staticDir, DefaultStaticDir).Some?
      && !old(server.inner.state.isRunning)
      && validAddress(DecodeArg(address, DefaultAddress).value)
      && (useHttps != 0 ==> TlsReady(tls))
      && (old(server.runtime).Some? || runtimeCreated)
    ensures r == 0 && server != null ==> server.shutdownTx == old(server.shutdownTx)
    ensures r == 1 ==>
      server.IsRunning() && fresh(server.shutdownTx.value)
      && server.inner.state.config == Some(ServerConfig(DecodeArg(address, DefaultAddress).value,
                                                        DecodeArg(staticDir, DefaultStaticDir).value,
                                                        useHttps != 0, None, None))
  {
    if server == null {
      return 0;
    }
    var addressText := DecodeArg(address, DefaultAddress);
    if addressText.None? {
      return 0;
    }
    var dirText := DecodeArg(staticDir, DefaultStaticDir);
    if dirText.None? {
      return 0;
    }
    var outcome: Outcome;
    var task: ServeTask?;
    if useHttps != 0 {
      outcome, task := server.StartHttps(addressText.value, dirText.value, validAddress, tls, runtimeCreated);
    } else {
      outcome, task := server.Start(addressText.value, dirText.value, validAddress, runtimeCreated);
    }
    r := if outcome.Ok? then 1 else 0;
  }

  /** `ft_http_server_stop`: null is ignored; otherwise the server stops. */
  method Stop(server: HttpServerState?)
    requires server != null ==> server.Valid()
    modifies if server != null then {server, server.inner} + server.Sender() else {}
    ensures server != null ==> server.Valid() && !server.IsRunning()
    ensures server != null && !old(server.inner.state.isRunning) ==>
      server.inner.state == old(server.inner.state) && server.shutdownTx == old(server.shutdownTx)
    ensures server != null && old(server.inner.state.isRunning) ==> server.shutdownTx == None
  {
    if server == null {
      return;
    }
    server.Stop();
  }

  /** `ft_http_server_is_running`: 1 exactly for a non-null handle whose server runs. */
  function IsRunning(server: HttpServerState?): (r: I32)
    reads server, if server != null then {server.inner} + server.Sender() else {}
    ensures r == 0 || r == 1
    ensures r == 1 <==> server != null && server.IsRunning()
  {
    if server == null then 0 else if server.IsRunning() then 1 else 0
  }

  // ---------------------------------------------------------------------
  // handle_request
  // ---------------------------------------------------------------------

  /** The answer for a null handle. */
  const NullServerResponse: string := "{\"error\": \"server is null\"}"

  /** The JSON text around the echoed headers. */
  const ResponsePrefix: string := "{\"status_code\": 200, \"headers\": "

  /** The fixed success answer with the headers text spliced in. */
  function ResponseJson(headers: string): string {
    ResponsePrefix + headers + "}"
  }

  /** The optional body: null is none, invalid UTF-8 fails, text is kept. */
  function DecodeBody(body: CArg): Option<Option<string>> {
    match body
    case Null => Some(None)
    case Invalid => None
    case Valid(text) => Some(Some(text))
  }

  /**
   * `ft_http_server_handle_request`: a null handle gets an error object;
   * any undecodable argument, or a response that cannot become a C string,
   * gives null (`None`); otherwise the fixed 200 answer echoing the headers
   * text (defaulting to `{}`). Method, path and body are decoded and unused.
   */
  function HandleRequest(server: HttpServerState?, verb: CArg, path: CArg, headers: CArg, body: CArg): (r: Option<string>)
    ensures server == null ==> r == Some(NullServerResponse)
    ensures server != null && (verb.Invalid? || path.Invalid? || headers.Invalid? || body.Invalid?) ==> r == None
  {
    if server == null then Some(NullServerResponse)
    else if DecodeArg(verb, "GET").None? || DecodeArg(path, "/").None? then None
    else if DecodeArg(headers, "{}").None? || DecodeBody(body).None? then None
    else
      var response := ResponseJson(DecodeArg(headers, "{}").value);
      if '\0' in response then None else Some(response)
  }

  /**
   * For C strings (no interior NUL), the answer is null exactly when some
   * argument is not UTF-8, and otherwise it carries the headers text back
   * unchanged between the fixed prefix and the closing brace.
   */
  lemma HandleRequestEchoesHeaders(server: HttpServerState, verb: CArg, path: CArg, headers: CArg, body: CArg)
    requires WellFormedArg(verb) && WellFormedArg(path) && WellFormedArg(headers) && WellFormedArg(body)
    ensures var r := HandleRequest(server, verb, path, headers, body);
      (r.None? <==> verb.Invalid? || path.Invalid? || headers.Invalid? || body.Invalid?)
      && (r.Some? ==>
            var text := if headers.Valid? then headers.text else "{}";
            |r.value| == |ResponsePrefix| + |text| + 1
            && r.value[..|ResponsePrefix|] == ResponsePrefix
            && r.value[|ResponsePrefix|..|r.value| - 1] == text
            && r.value[|r.value| - 1] == '}')
  {
    if !(verb.Invalid? || path.Invalid? || headers.Invalid? || body.Invalid?) {
      var text := if headers.Valid? then headers.text else "{}";
      var response := ResponseJson(text);
      assert response == ResponsePrefix + (text + "}");
      assert '\0' !in ResponsePrefix;
      assert '\0' !in response by {
        forall i | 0 <= i < |response| ensures response[i] != '\0' {
          if i < |ResponsePrefix| {
            assert response[i] == ResponsePrefix[i];
          } else if i < |ResponsePrefix| + |text| {
            assert response[i] == text[i - |ResponsePrefix|];
          }
        }
      }
    }
  }

  /** The method, path and body never change the answer, only whether they decode. */
  lemma HandleRequestIgnoresRequest(server: HttpServerState?, verb: CArg, path: CArg, headers: CArg, body: CArg)
    requires !verb.Invalid? && !path.Invalid? && !body.Invalid?
    ensures HandleRequest(server, verb, path, headers, body) == HandleRequest(server, Null, Null, headers, Null)
  {
  }

  // ---------------------------------------------------------------------
  // Scenarios
  // ---------------------------------------------------------------------

  /**
   * A handle's life: a new server reports 0; starting it on a bindable
   * address reports 1 and leaves it running; stopping twice is harmless and
   * leaves it stopped.
   */
  method StartStopScenario(validAddress: string -> bool, runtimeCreated: bool)
    returns (fresh0: I32, started: I32, running: I32, stopped: I32)
    requires validAddress("127.0.0.1:0") && runtimeCreated
    ensures fresh0 == 0 && started == 1 && running == 1 && stopped == 0
  {
    var server := Create();
    fresh0 := IsRunning(server);
    var tls := TlsSetup(false, false, false, 0, false);
    started := Start(server, Valid("127.0.0.1:0"), Valid("/tmp"), 0, validAddress, tls, runtimeCreated);
    running := IsRunning(server);
    Stop(server);
    Stop(server);
    stopped := IsRunning(server);
    Free(server);
  }
}

=== FILE: godot_server.dfy ===
/**
 * The scripting-engine wrapper: one object holding an optional HTTP server
 * and an optional mDNS advertiser, with create/start/stop/free for each,
 * boolean results, and a one-line status report.
 */
module GodotServer {
  import opened Common
  import opened CoreTypes
  import opened HttpServer
  import opened MdnsServer

  // ---------------------------------------------------------------------
  // Port narrowing
  // ---------------------------------------------------------------------

  /** `port as u16` on an `i32`: keep the low 16 bits (two's complement). */
  function NarrowToU16(port: I32): (r: U16)
    ensures 0 <= port < 0x1_0000 ==> r == port
    ensures (r - port) % 0x1_0000 == 0
  {
    port % 0x1_0000
  }

  /** Out-of-range ports wrap: -1 becomes 65535 and 65616 becomes 80. */
  lemma NarrowingWraps()
    ensures NarrowToU16(-1) == 0xFFFF
    ensures NarrowToU16(0x1_0000 + 80) == 80
    ensures NarrowToU16(-0x8000_0000) == 0
  {
  }

  /** Narrowing loses exactly the multiples of 65536. */
  lemma NarrowingCollides(a: I32, b: I32)
    ensures NarrowToU16(a) == NarrowToU16(b) <==> (a - b) % 0x1_0000 == 0
  {
    var ra, rb := NarrowToU16(a), NarrowToU16(b);
    var qa, qb := a / 0x1_0000, b / 0x1_0000;
    assert a == qa * 0x1_0000 + ra;
    assert b == qb * 0x1_0000 + rb;
    assert a - b == (qa - qb) * 0x1_0000 + (ra - rb);
    if (a - b) % 0x1_0000 == 0 {
      var k := (a - b) / 0x1_0000;
      assert ra - rb == (k - qa + qb) * 0x1_0000;
    }
  }

  // ---------------------------------------------------------------------
  // Status report
  // ---------------------------------------------------------------------

  /** The state of one slot as reported. */
  datatype SlotStatus = Running | Stopped | NotCreated

  /** The word printed for a slot. */
  function Word(s: SlotStatus): string {
    match s
    case Running => "running"
    case Stopped => "stopped"
    case NotCreated => "not created"
  }

  /** What a slot holding a (possibly running) server reports. */
  function Slot(created: bool, running: bool): (s: SlotStatus)
    ensures s == NotCreated <==> !created
    ensures s == Running <==> created && running
  {
    if !created then NotCreated else if running then Running else Stopped
  }

  /** The label before the server's word. */
  const HttpLabel: string := "HTTP: "

  /** The label before the advertiser's word. */
  const MdnsLabel: string := ", mDNS: "

  /** The report line: `HTTP: <word>, mDNS: <word>`. */
  function StatusLine(http: SlotStatus, mdns: SlotStatus): string {
    HttpLabel + (Word(http) + (MdnsLabel + Word(mdns)))
  }

  predicate StartsWith(s: string, prefix: string) {
    |prefix| <= |s| && s[..|prefix|] == prefix
  }

  /** The slot word at the head of a text, if any. */
  function WordAt(s: string): (r: Option<SlotStatus>)
    ensures r.Some? ==> StartsWith(s, Word(r.value))
  {
    if StartsWith(s, Word(Running)) then Some(Running)
    else if StartsWith(s, Word(Stopped)) then Some(Stopped)
    else if StartsWith(s, Word(NotCreated)) then Some(NotCreated)
    else None
  }

  /** Reading the tail `, mDNS: <word>` of a report line. */
  function ParseMdnsPart(rest: string): Option<SlotStatus> {
    if !StartsWith(rest, MdnsLabel) then None
    else match WordAt(rest[|MdnsLabel|..])
      case None => None
      case Some(mdns) => if rest[|MdnsLabel|..] == Word(mdns) then Some(mdns) else None
  }

  /** Reading a report line back into the two slot states. */
  function ParseStatusLine(s: string): Option<(SlotStatus, SlotStatus)> {
    if !StartsWith(s, HttpLabel) then None
    else match WordAt(s[|HttpLabel|..])
      case None => None
      case Some(http) =>
        match ParseMdnsPart(s[|HttpLabel| + |Word(http)|..])
        case None => None
        case Some(mdns) => Some((http, mdns))
  }

  /** A text starts with its first part, and what follows is the rest. */
  lemma PrefixOf(prefix: string, rest: string)
    ensures StartsWith(prefix + rest, prefix) && (prefix + rest)[|prefix|..] == rest
  {
  }

  /** A word is recognised at the head of any text it starts. */
  lemma WordAtWord(w: SlotStatus, tail: string)
    ensures WordAt(Word(w) + tail) == Some(w)
  {
    var s := Word(w) + tail;
    PrefixOf(Word(w), tail);
    assert s[0] == Word(w)[0];
    match w
    case Running =>
    case Stopped =>
      assert !StartsWith(s, Word(Running)) by {
        assert s[0] == 's';
      }
    case NotCreated =>
      assert !StartsWith(s, Word(Running)) && !StartsWith(s, Word(Stopped)) by {
        assert s[0] == 'n';
      }
  }

  /** The tail of a report line reads back as the advertiser's state. */
  lemma MdnsPartReadsBack(mdns: SlotStatus)
    ensures ParseMdnsPart(MdnsLabel + Word(mdns)) == Some(mdns)
  {
    PrefixOf(MdnsLabel, Word(mdns));
    WordAtWord(mdns, "");
    assert Word(mdns) + "" == Word(mdns);
  }

  /** The report line reads back as the two slot states. */
  lemma StatusLineReadsBack(http: SlotStatus, mdns: SlotStatus)
    ensures ParseStatusLine(StatusLine(http, mdns)) == Some((http, mdns))
  {
    var s := StatusLine(http, mdns);
    var tail := MdnsLabel + Word(mdns);
    PrefixOf(HttpLabel, Word(http) + tail);
    WordAtWord(http, tail);
    PrefixOf(Word(http), tail);
    assert s[|HttpLabel| + |Word(http)|..] == s[|HttpLabel|..][|Word(http)|..];
    MdnsPartReadsBack(mdns);
  }

  /** Equal report lines come from equal slot states. */
  lemma StatusLineInjective(h1: SlotStatus, m1: SlotStatus, h2: SlotStatus, m2: SlotStatus)
    ensures StatusLine(h1, m1) == StatusLine(h2, m2) <==> h1 == h2 && m1 == m2
  {
    StatusLineReadsBack(h1, m1);
    StatusLineReadsBack(h2, m2);
  }

  // ---------------------------------------------------------------------
  // The wrapper object
  // ---------------------------------------------------------------------

  /** `RustCoreServer`: the HTTP slot and the mDNS slot. */
  class RustCoreServer {
    var http: Option<HttpServerState>
    var mdns: Option<MdnsServerState>

    /** The objects behind the HTTP slot. */
    function HttpObjects(): set<object>
      reads this, if http.Some? then {http.value} else {}
    {
      if http.Some? then {http.value, http.value.inner} + http.value.Sender() else {}
    }

    /** The objects behind the mDNS slot. */
    function MdnsObjects(): set<object>
      reads this, if mdns.Some? then {mdns.value} else {}
    {
      if mdns.Some? then {mdns.value} + mdns.value.DaemonObject() else {}
    }

    /** Each server held is itself consistent. */
    predicate Valid()
      reads this, HttpObjects(), MdnsObjects()
    {
      (http.Some? ==> http.value.Valid()) && (mdns.Some? ==> mdns.value.Valid())
    }

    /** `init`: both slots empty. */
    constructor()
      ensures http == None && mdns == None && Valid()
    {
      http := None;
      mdns := None;
    }

    /** `create_server`: always true; an existing server is kept, an empty slot gets a new one. */
    method CreateServer() returns (ok: bool)
      requires Valid()
      modifies this
      ensures ok && Valid() && http.Some? && mdns == old(mdns)
      ensures old(http).Some? ==> http == old(http)
      ensures old(http).None? ==> fresh(http.value) && !http.value.IsRunning() && http.value.shutdownTx == None
    {
      if http.Some? {
        return true;
      }
      var server := new HttpServerState();
      http := Some(server);
      ok := true;
    }

    /**
     * `start_server`: false with no server; otherwise `start_https` or
     * `start` as `useHttps` says, Ok as true.
     */
    method StartServer(address: string, staticDir: string, useHttps: bool,
                       validAddress: string -> bool, tls: TlsSetup, runtimeCreated: bool)
      returns (ok: bool)
      requires Valid()
      modifies HttpObjects()
      ensures Valid() && http == old(http) && mdns == old(mdns)
      ensures ok <==>
        http.Some? && !old(http.value.inner.state.isRunning) && validAddress(address)
        && (useHttps ==> TlsReady(tls)) && (old(http.value.runtime).Some? || runtimeCreated)
      ensures ok ==>
        (http.value.IsRunning()
         && http.value.inner.state.config == Some(ServerConfig(address, staticDir, useHttps, None, None)))
    {
      if http.None? {
        return false;
      }
      var server := http.value;
      var outcome: Outcome;
      var task: ServeTask?;
      if useHttps {
        outcome, task := server.StartHttps(address, staticDir, validAddress, tls, runtimeCreated);
      } else {
        outcome, task := server.Start(address, staticDir, validAddress, runtimeCreated);
      }
      ok := outcome.Ok?;
    }

    /** `stop_server`: stops the server if there is one. */
    method StopServer()
      requires Valid()
      modifies HttpObjects()
      ensures Valid() && http == old(http) && mdns == old(mdns)
      ensures http.Some? ==> !http.value.IsRunning() && http.value.runtime == old(http.value.runtime)
      ensures HttpObjects() <= old(HttpObjects())
    {
      if http.Some? {
        http.value.Stop();
      }
    }

    /** `is_running`: false with no server, else the server's answer. */
    function IsRunning(): (running: bool)
      reads this, HttpObjects()
      ensures running <==> http.Some? && http.value.IsRunning()
    {
      match http
      case None => false
      case Some(server) => server.IsRunning()
    }

    /** `get_status`: the report line for both slots, from which both slots read back. */
    function GetStatus(): (r: string)
      reads this, HttpObjects(), MdnsObjects()
      ensures r == StatusLine(Slot(http.Some?, IsRunning()), Slot(mdns.Some?, IsMdnsRunning()))
      ensures ParseStatusLine(r) == Some((Slot(http.Some?, IsRunning()), Slot(mdns.Some?, IsMdnsRunning())))
    {
      var h, m := Slot(http.Some?, IsRunning()), Slot(mdns.Some?, IsMdnsRunning());
      StatusLineReadsBack(h, m);
      StatusLine(h, m)
    }

    /** `get_server_address`: empty with no server, else the server's address. */
    function GetServerAddress(): (address: string)
      reads this, HttpObjects()
      ensures http.None? ==> address == ""
      ensures http.Some? ==> address == http.value.GetAddress()
    {
      match http
      case None => ""
      case Some(server) => server.GetAddress()
    }

    /** `free_server`: the slot is emptied and the server it held is dropped. */
    method FreeServer()
      requires Valid()
      modifies this, HttpObjects()
      ensures Valid() && http == None && mdns == old(mdns)
      ensures old(http).Some? ==> old(http).value.runtime == None && old(http).value.shutdownTx == None
      ensures old(http).Some? ==> old(http).value.inner.state == old(http.value.inner.state)
    {
      if http.Some? {
        http.value.Drop();
      }
      http := None;
    }

    /** `create_mdns`: always true; an existing advertiser is kept, an empty slot gets a new one. */
    method CreateMdns() returns (ok: bool)
      requires Valid()
      modifies this
      ensures ok && Valid() && mdns.Some? && http == old(http)
      ensures old(mdns).Some? ==> mdns == old(mdns)
      ensures old(mdns).None? ==> fresh(mdns.value) && !mdns.value.isRegistered
    {
      if mdns.Some? {
        return true;
      }
      var advertiser := new MdnsServerState();
      mdns := Some(advertiser);
      ok := true;
    }

    /** `start_mdns`: false with no advertiser; otherwise `start` with the port narrowed to 16 bits. */
    method StartMdns(serviceType: string, instanceName: string, hostname: string, port: I32, setup: MdnsSetup)
      returns (ok: bool)
      requires Valid()
      modifies MdnsObjects()
      ensures Valid() && http == old(http) && mdns == old(mdns)
      ensures ok <==> mdns.Some? && !old(mdns.value.isRegistered) && SetupSucceeds(setup)
      ensures ok ==>
        (mdns.value.isRegistered && mdns.value.port == NarrowToU16(port)
         && mdns.value.serviceType == serviceType && mdns.value.instanceName == instanceName
         && mdns.value.hostname == hostname)
    {
      if mdns.None? {
        return false;
      }
      var outcome := mdns.value.Start(serviceType, instanceName, hostname, NarrowToU16(port), setup);
      ok := outcome.Ok?;
    }

    /** `stop_mdns`: on a registered advertiser, the daemon handle is dropped and the flag cleared. */
    method StopMdns()
      requires Valid()
      modifies MdnsObjects()
      ensures Valid() && http == old(http) && mdns == old(mdns)
      ensures mdns.Some? ==> !mdns.value.isRegistered && mdns.value.runtime == old(mdns.value.runtime)
      ensures MdnsObjects() <= old(MdnsObjects())
    {
      if mdns.Some? && mdns.value.IsRunning() {
        mdns.value.Stop();
      }
    }

    /** `is_mdns_running`: false with no advertiser, else whether it is registered. */
    function IsMdnsRunning(): (running: bool)
      reads this, MdnsObjects()
      ensures running <==> mdns.Some? && mdns.value.isRegistered
    {
      match mdns
      case None => false
      case Some(advertiser) => advertiser.isRegistered
    }

    /** `free_mdns`: the slot is emptied and the advertiser it held is dropped. */
    method FreeMdns()
      requires Valid()
      modifies this, MdnsObjects()
      ensures Valid() && mdns == None && http == old(http)
      ensures old(mdns).Some? ==> old(mdns).value.runtime == None
      ensures old(mdns).Some? ==> old(mdns).value.isRegistered == old(mdns.value.isRegistered)
    {
      if mdns.Some? {
        mdns.value.Drop();
      }
      mdns := None;
    }

    /**
     * `Drop`: stop the server, stop the advertiser, then free both; the
     * held server ends stopped and without handles, the advertiser
     * unregistered and without a runtime.
     */
    method Drop()
      requires Valid()
      modifies this, HttpObjects(), MdnsObjects()
      ensures http == None && mdns == None
      ensures old(http).Some? ==>
        !old(http).value.IsRunning() && old(http).value.runtime == None && old(http).value.shutdownTx == None
      ensures old(mdns).Some? ==> !old(mdns).value.isRegistered && old(mdns).value.runtime == None
    {
      StopServer();
      StopMdns();
      FreeServer();
      FreeMdns();
    }
  }

  /** A new wrapper reports "HTTP: not created, mDNS: not created"; after both creates, "stopped" twice. */
  method StatusScenario() returns (before: string, after: string)
    ensures before == "HTTP: not created, mDNS: not created"
    ensures after == "HTTP: stopped, mDNS: stopped"
  {
    var wrapper := new RustCoreServer();
    assert !wrapper.IsRunning() && !wrapper.IsMdnsRunning();
    before := wrapper.GetStatus();
    StatusWords();
    var created := wrapper.CreateServer();
    created := wrapper.CreateMdns();
    assert wrapper.http.Some? && wrapper.mdns.Some?;
    assert !wrapper.IsRunning() && !wrapper.IsMdnsRunning();
    after := wrapper.GetStatus();
  }

  /** The two report lines a wrapper shows before and right after creating both servers. */
  lemma StatusWords()
    ensures StatusLine(NotCreated, NotCreated) == "HTTP: not created, mDNS: not created"
    ensures StatusLine(Stopped, Stopped) == "HTTP: stopped, mDNS: stopped"
  {
    NotCreatedLine();
    StoppedLine();
  }

  lemma NotCreatedLine()
    ensures HttpLabel + ("not created" + (MdnsLabel + "not created")) == "HTTP: not created, mDNS: not created"
  {
  }

  lemma StoppedLine()
    ensures HttpLabel + ("stopped" + (MdnsLabel + "stopped")) == "HTTP: stopped, mDNS: stopped"
  {
  }
}

=== FILE: http1.dfy ===
/**
 * The HTTP/1.1 message text both hand-written servers produce and read:
 * the status line (section 4 of RFC 9112), field lines `name: value`
 * (section 5 of RFC 9112) separated by CRLF, the empty line, then the body.
 * Parsing a field line cuts it at its first ':' and trims both sides; a
 * block of field lines is folded into a dictionary in which a later line
 * overwrites an earlier one with the same name.
 */
module Http1 {
  import opened Common
  import opened Text

  const CRLF: string := "\r\n"

  /** The reason phrase both servers attach to a status code. */
  function StatusText(code: int): (text: string)
    ensures text != "Unknown" <==> code == 200 || code == 400 || code == 404 || code == 500
  {
    if code == 200 then "OK"
    else if code == 400 then "Bad Request"
    else if code == 404 then "Not Found"
    else if code == 500 then "Internal Server Error"
    else "Unknown"
  }

  function StatusLine(code: int): string {
    "HTTP/1.1 " + IntToDecimal(code) + " " + StatusText(code)
  }

  function FieldLine(name: string, value: string): string {
    name + ": " + value
  }

  /**
   * A field whose line reads back as itself: the name holds no ':', neither
   * part holds a line break, and neither has whitespace at its ends.
   */
  predicate WellFormedField(name: string, value: string, ws: Whitespace) {
    ':' !in name && '\r' !in name && '\n' !in name && '\r' !in value && '\n' !in value
    && Trimmed(name, ws) && Trimmed(value, ws)
  }

  /** One field line: split at the first ':', trim both halves; no ':' means no field. */
  function SplitField(line: string, ws: Whitespace): (r: Option<(string, string)>)
    ensures r.None? <==> ':' !in line
  {
    match IndexOfChar(line, ':')
    case None => None
    case Some(i) => Some((Trim(line[..i], ws), Trim(line[i + 1..], ws)))
  }

  /** The field each line holds, if any. */
  function SplitFields(lines: seq<string>, ws: Whitespace): (fields: seq<Option<(string, string)>>)
    ensures |fields| == |lines|
    ensures forall i | 0 <= i < |lines| :: fields[i] == SplitField(lines[i], ws)
  {
    seq(|lines|, i requires 0 <= i < |lines| => SplitField(lines[i], ws))
  }

  /** Insert fields one after another into an empty dictionary. */
  function Insert(fields: seq<Option<(string, string)>>): map<string, string> {
    if fields == [] then map[]
    else
      var acc := Insert(fields[..|fields| - 1]);
      match fields[|fields| - 1]
      case None => acc
      case Some(f) => acc[f.0 := f.1]
  }

  /** Fold a block of field lines into a dictionary; a later line overwrites an earlier one. */
  function FoldFields(lines: seq<string>, ws: Whitespace): map<string, string> {
    Insert(SplitFields(lines, ws))
  }

  /** Folding one more line. */
  lemma FoldFieldsSnoc(lines: seq<string>, line: string, ws: Whitespace)
    ensures FoldFields(lines + [line], ws) ==
      match SplitField(line, ws)
      case None => FoldFields(lines, ws)
      case Some(f) => FoldFields(lines, ws)[f.0 := f.1]
  {
    var fs := SplitFields(lines + [line], ws);
    assert fs[..|lines|] == SplitFields(lines, ws);
  }

  /** Folding a prefix one line longer. */
  lemma FoldFieldsStep(lines: seq<string>, i: nat, ws: Whitespace)
    requires i < |lines|
    ensures FoldFields(lines[..i + 1], ws) ==
      match SplitField(lines[i], ws)
      case None => FoldFields(lines[..i], ws)
      case Some(f) => FoldFields(lines[..i], ws)[f.0 := f.1]
  {
    assert lines[..i + 1] == lines[..i] + [lines[i]];
    FoldFieldsSnoc(lines[..i], lines[i], ws);
  }

  predicate Names(field: Option<(string, string)>, name: string) {
    field.Some? && field.value.0 == name
  }

  /** The field lines of a dictionary, in the order the dictionary is walked. */
  function FieldLines(h: map<string, string>, order: seq<string>): (lines: seq<string>)
    requires forall k | k in order :: k in h
    ensures |lines| == |order|
    ensures forall i | 0 <= i < |order| :: lines[i] == FieldLine(order[i], h[order[i]])
  {
    if order == [] then [] else [FieldLine(order[0], h[order[0]])] + FieldLines(h, order[1..])
  }

  /** `order` walks every key of `h` exactly once. */
  predicate Enumerates(order: seq<string>, h: map<string, string>) {
    (forall k | k in order :: k in h) && (forall k | k in h :: k in order)
    && (forall i, j | 0 <= i < j < |order| :: order[i] != order[j])
  }

  // ---------------------------------------------------------------------
  // Field lines read back
  // ---------------------------------------------------------------------

  /** Parsing a written field line gives its name and value back. */
  lemma SplitFieldLine(name: string, value: string, ws: Whitespace)
    requires WellFormedField(name, value, ws)
    ensures SplitField(FieldLine(name, value), ws) == Some((name, value))
  {
    var line := FieldLine(name, value);
    assert line[|name|] == ':';
    assert ':' in line;
    assert line[..|name|] == name;
    assert IndexOfChar(line, ':') == Some(|name|);
    assert line[|name| + 1..] == " " + value;
    assert IsSpace(ws, ' ');
    assert (" " + value)[1..] == value;
    assert TrimStart(" " + value, ws) == value;
  }

  /** A name is in the dictionary exactly when some field names it. */
  lemma {:induction false} InsertDomain(fields: seq<Option<(string, string)>>, name: string)
    ensures name in Insert(fields) <==> exists i | 0 <= i < |fields| :: Names(fields[i], name)
  {
    if fields != [] {
      var n := |fields|;
      var init := fields[..n - 1];
      InsertDomain(init, name);
      if name in Insert(fields) {
        if !Names(fields[n - 1], name) {
          var i :| 0 <= i < |init| && Names(init[i], name);
          assert fields[i] == init[i];
        }
      } else {
        forall i | 0 <= i < n ensures !Names(fields[i], name) {
          if i < n - 1 {
            assert fields[i] == init[i];
          }
        }
      }
    }
  }

  /** A later field overwrites an earlier one: the value comes from the last field naming it. */
  lemma {:induction false} InsertLastWins(fields: seq<Option<(string, string)>>, name: string)
    requires name in Insert(fields)
    ensures exists i | 0 <= i < |fields| ::
      fields[i] == Some((name, Insert(fields)[name]))
      && forall j | i < j < |fields| :: !Names(fields[j], name)
  {
    var n := |fields|;
    var init := fields[..n - 1];
    if Names(fields[n - 1], name) {
      assert fields[n - 1] == Some((name, Insert(fields)[name]));
    } else {
      InsertLastWins(init, name);
      var i :| 0 <= i < |init| && init[i] == Some((name, Insert(init)[name]))
               && forall j | i < j < |init| :: !Names(init[j], name);
      assert fields[i] == init[i];
      forall j | i < j < n ensures !Names(fields[j], name) {
        if j < n - 1 {
          assert fields[j] == init[j];
        }
      }
    }
  }

  /**
   * Header lookup after parsing: a name is present exactly when some line
   * carries it, and its value is the one on the last such line.
   */
  lemma FoldFieldsLookup(lines: seq<string>, ws: Whitespace, name: string)
    ensures name in FoldFields(lines, ws) <==> exists i | 0 <= i < |lines| :: Names(SplitField(lines[i], ws), name)
    ensures name in FoldFields(lines, ws) ==>
      exists i | 0 <= i < |lines| ::
        SplitField(lines[i], ws) == Some((name, FoldFields(lines, ws)[name]))
        && forall j | i < j < |lines| :: !Names(SplitField(lines[j], ws), name)
  {
    var fields := SplitFields(lines, ws);
    InsertDomain(fields, name);
    if name in FoldFields(lines, ws) {
      InsertLastWins(fields, name);
    }
  }

  /** The fields a dictionary holds, in the order it is walked. */
  function Entries(h: map<string, string>, order: seq<string>): (fields: seq<Option<(string, string)>>)
    requires forall k | k in order :: k in h
    ensures |fields| == |order|
  {
    seq(|order|, i requires 0 <= i < |order| => Some((order[i], h[order[i]])))
  }

  /** Inserting the entries of a dictionary gives back the entries inserted. */
  lemma {:induction false} InsertEntries(h: map<string, string>, order: seq<string>)
    requires forall k | k in order :: k in h
    ensures forall k :: k in Insert(Entries(h, order)) <==> k in order
    ensures forall k | k in order :: Insert(Entries(h, order))[k] == h[k]
  {
    if order != [] {
      var n := |order|;
      var init := order[..n - 1];
      var last := order[n - 1];
      assert Entries(h, order)[..n - 1] == Entries(h, init);
      InsertEntries(h, init);
      assert order == init + [last];
      ExtendCover(Insert(Entries(h, init)), Insert(Entries(h, order)), h, init, last);
    }
  }

  lemma ExtendCover(before: map<string, string>, after: map<string, string>, h: map<string, string>, init: seq<string>, last: string)
    requires last in h && after == before[last := h[last]]
    requires forall k :: k in before <==> k in init
    requires forall k | k in init :: k in h && before[k] == h[k]
    ensures forall k :: k in after <==> k in init + [last]
    ensures forall k | k in init + [last] :: after[k] == h[k]
  {
  }

  /** Each written field line splits back into its entry. */
  lemma SplitFieldLines(h: map<string, string>, order: seq<string>, ws: Whitespace)
    requires forall k | k in order :: k in h && WellFormedField(k, h[k], ws)
    ensures SplitFields(FieldLines(h, order), ws) == Entries(h, order)
  {
    forall i | 0 <= i < |order|
      ensures SplitFields(FieldLines(h, order), ws)[i] == Entries(h, order)[i]
    {
      SplitFieldLine(order[i], h[order[i]], ws);
    }
  }

  /** With every key written once, folding gives back the whole dictionary. */
  lemma FieldLinesRoundTrip(h: map<string, string>, order: seq<string>, ws: Whitespace)
    requires Enumerates(order, h)
    requires forall k | k in h :: WellFormedField(k, h[k], ws)
    ensures FoldFields(FieldLines(h, order), ws) == h
  {
    SplitFieldLines(h, order, ws);
    EntriesRoundTrip(h, order);
  }

  /** Inserting every entry of a dictionary, each once, rebuilds it. */
  lemma EntriesRoundTrip(h: map<string, string>, order: seq<string>)
    requires Enumerates(order, h)
    ensures Insert(Entries(h, order)) == h
  {
    InsertEntries(h, order);
  }

  // ---------------------------------------------------------------------
  // Lines separated by CRLF
  // ---------------------------------------------------------------------

  predicate SingleLines(lines: seq<string>) {
    forall i | 0 <= i < |lines| :: '\r' !in lines[i] && '\n' !in lines[i]
  }

  /** Cutting a CRLF-joined block of single lines at CRLF gives the lines back. */
  lemma ComponentsOfJoin(lines: seq<string>, rest: string)
    requires |lines| >= 1 && SingleLines(lines)
    ensures Components(Join(lines, CRLF) + CRLF + rest, CRLF) == lines + Components(rest, CRLF)
  {
    assert CRLF[0] == '\r';
    ComponentsOfJoinThen(lines, CRLF, rest);
  }

  /** A block of non-empty single lines never holds an empty line. */
  lemma {:induction false} NoBlankLine(lines: seq<string>)
    requires |lines| >= 1 && SingleLines(lines)
    requires forall i | 0 <= i < |lines| :: lines[i] != []
    ensures !Contains(Join(lines, CRLF) + CRLF, CRLF + CRLF)
    decreases |lines|
  {
    var s := Join(lines, CRLF) + CRLF;
    var l := lines[0];
    forall j: nat | j <= |s| ensures !OccursAt(s, CRLF + CRLF, j) {
      if j + 4 <= |s| {
        if j < |l| {
          assert s[j] == l[j];
          assert s[j..j + 4][0] == s[j];
        } else if j == |l| {
          if |lines| > 1 {
            var t := Join(lines[1..], CRLF) + CRLF;
            assert s == l + CRLF + t;
            assert t[0] == lines[1][0];
            assert s[j + 2] == t[0];
            assert s[j..j + 4][2] == s[j + 2];
          }
        } else if j == |l| + 1 {
          assert s[j] == '\n';
          assert s[j..j + 4][0] == s[j];
        } else {
          var t := Join(lines[1..], CRLF) + CRLF;
          assert s == l + CRLF + t;
          NoBlankLine(lines[1..]);
          var k: nat := j - |l| - 2;
          assert s[j..j + 4] == t[k..k + 4];
          assert !OccursAt(t, CRLF + CRLF, k);
        }
      }
    }
  }

  /** The first empty line after a block of non-empty single lines is the one that ends it. */
  lemma BlankLineAfter(lines: seq<string>, body: string)
    requires |lines| >= 1 && SingleLines(lines)
    requires forall i | 0 <= i < |lines| :: lines[i] != []
    ensures IndexOf(Join(lines, CRLF) + CRLF + CRLF + body, CRLF + CRLF) == Some(|Join(lines, CRLF)|)
  {
    var head := Join(lines, CRLF);
    var s := head + CRLF + CRLF + body;
    NoBlankLine(lines);
    assert OccursAt(s, CRLF + CRLF, |head|) by {
      assert s[|head|..|head| + 4] == CRLF + CRLF;
    }
    forall j: nat | j < |head| ensures !OccursAt(s, CRLF + CRLF, j) {
      if j + 4 <= |head| + 2 {
        assert s[j..j + 4] == (head + CRLF)[j..j + 4];
        assert !OccursAt(head + CRLF, CRLF + CRLF, j);
      } else {
        assert j == |head| - 1;
        assert s[j..j + 4][1] == s[|head|] == '\r';
      }
    }
    assert IndexOf(s, CRLF + CRLF).Some?;
    assert IndexOf(s, CRLF + CRLF).value == |head|;
  }

  // ---------------------------------------------------------------------
  // Response head
  // ---------------------------------------------------------------------

  /**
   * The lines of a response head: the status line, `Content-Length`,
   * `Connection: close`, then one line per field.
   */
  function HeadLines(code: int, contentLength: nat, fieldLines: seq<string>): (lines: seq<string>)
    ensures |lines| == 3 + |fieldLines| && lines[3..] == fieldLines
  {
    [StatusLine(code), FieldLine("Content-Length", NatToDecimal(contentLength)), "Connection: close"] + fieldLines
  }

  /** The text of a response head, ended by the empty line. */
  function Head(code: int, contentLength: nat, fieldLines: seq<string>): string {
    Join(HeadLines(code, contentLength, fieldLines), CRLF) + CRLF + CRLF
  }

  predicate WellFormedFields(h: map<string, string>, ws: Whitespace) {
    forall k | k in h :: WellFormedField(k, h[k], ws)
  }

  /**
   * The text of a response head, built line by line as both servers do:
   * the three fixed lines, one line per field in walking order, the empty line.
   */
  method WriteHead(code: int, length: nat, h: map<string, string>, order: seq<string>) returns (output: string)
    requires forall k | k in order :: k in h
    ensures output == Head(code, length, FieldLines(h, order))
  {
    ghost var fields := FieldLines(h, order);
    output := StatusLine(code) + CRLF;
    output := output + "Content-Length: " + NatToDecimal(length) + CRLF;
    output := output + "Connection: close" + CRLF;
    ghost var written := HeadLines(code, length, []);
    FixedLinesEnded(code, length);
    assert fields[..0] == [];
    var i := 0;
    while i < |order|
      invariant 0 <= i <= |order|
      invariant written == HeadLines(code, length, fields[..i])
      invariant output == Ended(written, CRLF)
    {
      var line := order[i] + ": " + h[order[i]];
      EndedSnoc(written, line, CRLF);
      HeadLinesSnoc(code, length, fields, i);
      output := output + line + CRLF;
      written := written + [line];
      i := i + 1;
    }
    assert fields[..i] == fields;
    EndedJoin(written, CRLF);
    output := output + CRLF;
  }

  /** One more field line is one more head line. */
  lemma HeadLinesSnoc(code: int, length: nat, fields: seq<string>, i: nat)
    requires i < |fields|
    ensures HeadLines(code, length, fields[..i + 1]) == HeadLines(code, length, fields[..i]) + [fields[i]]
  {
    assert fields[..i + 1] == fields[..i] + [fields[i]];
  }

  /** The three fixed lines of a head, each ended by CRLF. */
  lemma FixedLinesEnded(code: int, length: nat)
    ensures Ended(HeadLines(code, length, []), CRLF) ==
      StatusLine(code) + CRLF + "Content-Length: " + NatToDecimal(length) + CRLF + "Connection: close" + CRLF
  {
    var status, digits := StatusLine(code), NatToDecimal(length);
    assert HeadLines(code, length, []) == [status, "Content-Length: " + digits, "Connection: close"] by {
      ContentLengthPrefix(digits);
    }
    EndedThree(status, "Content-Length: ", digits, "Connection: close", CRLF);
  }

  /** The `Content-Length` field line is the fixed prefix and the digits. */
  lemma ContentLengthPrefix(digits: string)
    ensures FieldLine("Content-Length", digits) == "Content-Length: " + digits
  {
    assert "Content-Length" + ": " == "Content-Length: ";
  }

  /** The status table of both servers: four known reason phrases, "Unknown" for every other code. */
  lemma StatusTextTable(code: int)
    ensures StatusText(200) == "OK" && StatusText(400) == "Bad Request"
    ensures StatusText(404) == "Not Found" && StatusText(500) == "Internal Server Error"
    ensures code != 200 && code != 400 && code != 404 && code != 500 ==> StatusText(code) == "Unknown"
  {
  }

  /** The lines of a head hold no line break of their own. */
  lemma HeadLinesAreSingle(code: int, contentLength: nat, h: map<string, string>, order: seq<string>, ws: Whitespace)
    requires forall k | k in order :: k in h && WellFormedField(k, h[k], ws)
    ensures SingleLines(HeadLines(code, contentLength, FieldLines(h, order)))
  {
    var fields := FieldLines(h, order);
    var lines := HeadLines(code, contentLength, fields);
    StatusLineIsSingle(code);
    ContentLengthLineIsSingle(contentLength);
    ConnectionCloseIsSingle();
    FieldLinesAreSingle(h, order, ws);
    forall i | 0 <= i < |lines| ensures '\r' !in lines[i] && '\n' !in lines[i] {
      if i >= 3 {
        assert lines[i] == fields[i - 3];
      }
    }
  }

  lemma ContentLengthLineIsSingle(contentLength: nat)
    ensures var line := FieldLine("Content-Length", NatToDecimal(contentLength));
      '\r' !in line && '\n' !in line
  {
    DigitsAreNotBreaks(NatToDecimal(contentLength));
    NoBreakConcat("Content-Length: ", NatToDecimal(contentLength));
    assert FieldLine("Content-Length", NatToDecimal(contentLength)) == "Content-Length: " + NatToDecimal(contentLength);
  }

  lemma ConnectionCloseIsSingle()
    ensures '\r' !in "Connection: close" && '\n' !in "Connection: close"
  {
  }

  /** Field lines of well-formed fields hold no line break. */
  lemma FieldLinesAreSingle(h: map<string, string>, order: seq<string>, ws: Whitespace)
    requires forall k | k in order :: k in h && WellFormedField(k, h[k], ws)
    ensures SingleLines(FieldLines(h, order))
  {
    var fields := FieldLines(h, order);
    forall i | 0 <= i < |fields| ensures '\r' !in fields[i] && '\n' !in fields[i] {
      var k := order[i];
      NoBreakConcat(k, ": ");
      NoBreakConcat(k + ": ", h[k]);
    }
  }

  /** Cutting a head at CRLF gives its lines, then the two empty pieces around the final CRLF. */
  lemma HeadComponents(code: int, contentLength: nat, fieldLines: seq<string>)
    requires SingleLines(HeadLines(code, contentLength, fieldLines))
    ensures Components(Head(code, contentLength, fieldLines), CRLF) == HeadLines(code, contentLength, fieldLines) + ["", ""]
  {
    var lines := HeadLines(code, contentLength, fieldLines);
    ComponentsOfJoin(lines, CRLF);
    ComponentsOfCRLF();
  }

  /** The final CRLF alone cuts into two empty pieces. */
  lemma ComponentsOfCRLF()
    ensures Components(CRLF, CRLF) == ["", ""]
  {
    ComponentsCons("", CRLF, "");
    assert "" + CRLF + "" == CRLF;
    assert Components("", CRLF) == [""];
  }

  /**
   * A reader that cuts a serialized head at CRLF finds the status line,
   * a `Content-Length` that parses back to the body length, and field lines
   * that fold back into the header dictionary.
   */
  lemma HeadReadsBack(code: int, contentLength: nat, h: map<string, string>, order: seq<string>, ws: Whitespace)
    requires Enumerates(order, h) && WellFormedFields(h, ws)
    requires contentLength <= UsizeMax
    ensures var parts := Components(Head(code, contentLength, FieldLines(h, order)), CRLF);
      |parts| == |order| + 5
      && parts[0] == StatusLine(code)
      && SplitField(parts[1], ws) == Some(("Content-Length", NatToDecimal(contentLength)))
      && ParseUsize(NatToDecimal(contentLength)) == Some(contentLength)
      && FoldFields(parts[3..|parts| - 2], ws) == h
      && parts[|parts| - 2..] == ["", ""]
  {
    var fields := FieldLines(h, order);
    var lines := HeadLines(code, contentLength, fields);
    var parts := Components(Head(code, contentLength, fields), CRLF);
    assert parts == lines + ["", ""] by {
      HeadLinesAreSingle(code, contentLength, h, order, ws);
      HeadComponents(code, contentLength, fields);
    }
    assert parts[0] == StatusLine(code) && parts[1] == FieldLine("Content-Length", NatToDecimal(contentLength))
        && parts[3..|parts| - 2] == fields by {
      assert parts[0] == lines[0] && parts[1] == lines[1];
      assert parts[3..|parts| - 2] == lines[3..] == fields;
    }
    assert FoldFields(fields, ws) == h by {
      FieldLinesRoundTrip(h, order, ws);
    }
    ContentLengthReadsBack(contentLength, ws);
  }

  /** The `Content-Length` line reads back as the length written. */
  lemma ContentLengthReadsBack(contentLength: nat, ws: Whitespace)
    requires contentLength <= UsizeMax
    ensures SplitField(FieldLine("Content-Length", NatToDecimal(contentLength)), ws) == Some(("Content-Length", NatToDecimal(contentLength)))
    ensures ParseUsize(NatToDecimal(contentLength)) == Some(contentLength)
  {
    var digits := NatToDecimal(contentLength);
    DigitsAreNotBreaks(digits);
    assert IsDigit(digits[0]) && IsDigit(digits[|digits| - 1]);
    assert WellFormedField("Content-Length", digits, ws);
    SplitFieldLine("Content-Length", digits, ws);
    DigitsValueOfDecimal(contentLength);
  }

  lemma StatusLineIsSingle(code: int)
    ensures '\r' !in StatusLine(code) && '\n' !in StatusLine(code)
  {
    var prefix := "HTTP/1.1 ";
    IntToDecimalIsSingle(code);
    StatusTextIsSingle(code);
    NoBreakConcat(prefix, IntToDecimal(code));
    NoBreakConcat(prefix + IntToDecimal(code), " ");
    NoBreakConcat(prefix + IntToDecimal(code) + " ", StatusText(code));
  }

  lemma StatusTextIsSingle(code: int)
    ensures '\r' !in StatusText(code) && '\n' !in StatusText(code)
  {
    var text := StatusText(code);
    if code == 200 {
      assert text == "OK";
    } else if code == 400 {
      assert text == "Bad Request";
    } else if code == 404 {
      assert text == "Not Found";
    } else if code == 500 {
      assert text == "Internal Server Error";
    } else {
      assert text == "Unknown";
    }
  }

  lemma IntToDecimalIsSingle(i: int)
    ensures '\r' !in IntToDecimal(i) && '\n' !in IntToDecimal(i)
  {
    if i < 0 {
      DigitsAreNotBreaks(NatToDecimal(-i));
      NoBreakConcat("-", NatToDecimal(-i));
    } else {
      DigitsAreNotBreaks(NatToDecimal(i));
    }
  }

  /** Two strings without line breaks make one without. */
  lemma NoBreakConcat(a: string, b: string)
    requires '\r' !in a && '\n' !in a && '\r' !in b && '\n' !in b
    ensures '\r' !in a + b && '\n' !in a + b
  {
  }

  lemma DigitsAreNotBreaks(s: string)
    requires AllDigits(s)
    ensures '\r' !in s && '\n' !in s
  {
    forall c | c in s ensures c != '\r' && c != '\n' {
      var i :| 0 <= i < |s| && s[i] == c;
      assert IsDigit(s[i]);
    }
  }
}

=== FILE: http_server.dfy ===
/**
 * The lifecycle of the HTTP(S) server: a state machine over the locked
 * `ServerState` plus two handles the server owns, a lazily created runtime
 * and the sending end of a single-use shutdown channel.
 *
 * Starting checks, in order: already running, the address, (for HTTPS) the
 * TLS setup, and the runtime; each failure leaves every field as it was.
 * The spawned background task shares the state and flips `isRunning` back to
 * false on its own; its outcomes are the event methods of `ServeTask`.
 */
module HttpServer {
  import opened Common
  import opened CoreTypes

  /** The mutex-protected state, shared by the server and its background tasks. */
  class SharedState {
    var state: ServerState

    constructor()
      ensures state == DefaultServerState
    {
      state := DefaultServerState;
    }
  }

  /**
   * A one-shot shutdown channel. The receiving task wakes up once a value
   * has been sent or once the sender is gone.
   */
  class ShutdownChannel {
    var signalled: bool
    var senderDropped: bool

    constructor()
      ensures !signalled && !senderDropped
    {
      signalled := false;
      senderDropped := false;
    }

    /** The receiver's `changed()` has resolved. */
    predicate Fired()
      reads this
    {
      signalled || senderDropped
    }

    /** `send(())`, followed by the sender going out of scope. */
    method SendAndDrop()
      modifies this
      ensures signalled && senderDropped && Fired()
    {
      signalled := true;
      senderDropped := true;
    }

    /** The sender is dropped without a value. */
    method Drop()
      modifies this
      ensures signalled == old(signalled) && senderDropped && Fired()
    {
      senderDropped := true;
    }
  }

  /**
   * The outcomes of the TLS setup that `start_https` performs before it
   * touches the runtime: certificate generation, certificate parsing,
   * private-key parsing, the number of keys found, and building the config.
   */
  datatype TlsSetup = TlsSetup(
    certGenerated: bool,
    certsParsed: bool,
    keysParsed: bool,
    keyCount: nat,
    configBuilt: bool)

  /** Every TLS step succeeded and there is a key to use. */
  predicate TlsReady(tls: TlsSetup) {
    tls.certGenerated && tls.certsParsed && tls.keysParsed && tls.keyCount >= 1 && tls.configBuilt
  }

  /** Where a background server task is. */
  datatype Phase = Binding | Serving | Exited

  /** What the HTTPS accept loop's `select!` produced in one iteration. */
  datatype SelectOutcome = Accepted | AcceptFailed | ShutdownChanged

  /** A spawned server task: binds, serves, and reacts to shutdown. */
  class ServeTask {
    const inner: SharedState
    const shutdown: ShutdownChannel
    const https: bool
    var phase: Phase

    constructor(inner: SharedState, shutdown: ShutdownChannel, https: bool)
      ensures this.inner == inner && this.shutdown == shutdown && this.https == https
      ensures phase == Binding
    {
      this.inner := inner;
      this.shutdown := shutdown;
      this.https := https;
      phase := Binding;
    }

    /** Binding the listener failed: the task ends and `isRunning` stays as it is. */
    method BindFailed(ghost server: HttpServerState)
      requires phase == Binding
      requires server.inner == inner && server.Valid()
      modifies this
      ensures phase == Exited && inner.state == old(inner.state)
      ensures server.Valid()
    {
      phase := Exited;
    }

    /** Binding the listener succeeded. */
    method Bound()
      requires phase == Binding
      modifies this
      ensures phase == Serving && inner.state == old(inner.state)
    {
      phase := Serving;
    }

    /** The plain server returned an error: the task clears `isRunning`. */
    method ServeFailed(ghost server: HttpServerState)
      requires phase == Serving && !https
      requires server.inner == inner && server.Valid()
      modifies this, inner
      ensures phase == Exited
      ensures inner.state == old(inner.state).(isRunning := false)
      ensures server.Valid()
    {
      phase := Exited;
      inner.state := inner.state.(isRunning := false);
    }

    /**
     * The task saw the shutdown channel fire. The plain server finishes its
     * graceful shutdown without touching the state; the HTTPS loop breaks and
     * clears `isRunning`.
     */
    method ShutdownObserved(ghost server: HttpServerState)
      requires phase == Serving && shutdown.Fired()
      requires server.inner == inner && server.Valid()
      modifies this, inner
      ensures phase == Exited
      ensures inner.state == if https then old(inner.state).(isRunning := false) else old(inner.state)
      ensures server.Valid()
    {
      phase := Exited;
      if https {
        inner.state := inner.state.(isRunning := false);
      }
    }

    /**
     * The HTTPS accept loop over a run of `select!` outcomes: accepted and
     * failed connections go round again, and the first shutdown breaks the
     * loop and clears `isRunning`. `consumed` counts the outcomes used.
     */
    method RunHttpsLoop(outcomes: seq<SelectOutcome>, ghost server: HttpServerState) returns (consumed: nat)
      requires phase == Serving && https
      requires ShutdownChanged in outcomes ==> shutdown.Fired()
      requires server.inner == inner && server.Valid()
      modifies this, inner
      ensures consumed <= |outcomes|
      ensures phase == Exited <==> ShutdownChanged in outcomes
      ensures phase == Exited ==>
        (consumed >= 1 && outcomes[consumed - 1] == ShutdownChanged && ShutdownChanged !in outcomes[..consumed - 1]
         && inner.state == old(inner.state).(isRunning := false))
      ensures phase == Serving ==> consumed == |outcomes| && inner.state == old(inner.state)
      ensures server.Valid()
    {
      var i := 0;
      while i < |outcomes| && outcomes[i] != ShutdownChanged
        invariant 0 <= i <= |outcomes|
        invariant ShutdownChanged !in outcomes[..i]
      {
        assert outcomes[..i + 1] == outcomes[..i] + [outcomes[i]];
        i := i + 1;
      }
      if i < |outcomes| {
        ShutdownObserved(server);
        consumed := i + 1;
      } else {
        assert outcomes[..i] == outcomes;
        consumed := i;
      }
    }
  }

  /** `HttpServerState`: the shared state plus the runtime and shutdown-sender handles. */
  class HttpServerState {
    const inner: SharedState
    var runtime: Option<Runtime>
    var shutdownTx: Option<ShutdownChannel>

    /** The sender object the server holds, if any. */
    function Sender(): set<object>
      reads this
    {
      if shutdownTx.Some? then {shutdownTx.value} else {}
    }

    /**
     * A running server has a configuration and a live sender; a configured
     * server has a runtime; a held sender has not fired yet.
     */
    predicate Valid()
      reads this, inner, Sender()
    {
      (inner.state.isRunning ==> inner.state.config.Some? && shutdownTx.Some?)
      && (inner.state.config.Some? ==> runtime.Some?)
      && (shutdownTx.Some? ==> runtime.Some? && !shutdownTx.value.Fired())
    }

    /** `new`: not running, no clients, no configuration, no runtime, no sender. */
    constructor()
      ensures fresh(inner) && inner.state == DefaultServerState
      ensures runtime == None && shutdownTx == None
      ensures Valid()
    {
      inner := new SharedState();
      runtime := None;
      shutdownTx := None;
    }

    /**
     * `is_running`: the shared flag. In a consistent state a running server
     * is configured and holds a sender that `stop` has not yet fired.
     */
    function IsRunning(): (running: bool)
      reads this, inner, Sender()
      ensures Valid() && running ==>
        inner.state.config.Some? && shutdownTx.Some? && !shutdownTx.value.Fired()
    {
      inner.state.isRunning
    }

    /** `get_address`: the configured address, or the empty string before any start. */
    function GetAddress(): (address: string)
      reads this, inner
      ensures inner.state.config.None? ==> address == ""
      ensures inner.state.config.Some? ==> address == inner.state.config.value.address
    {
      match inner.state.config
      case None => ""
      case Some(config) => config.address
    }

    /**
     * The common tail of both starts: make the runtime if there is none,
     * mark the state running with the new configuration, replace the
     * shutdown sender (dropping the old one) and spawn the task.
     */
    method Launch(address: string, staticDir: string, https: bool, runtimeCreated: bool)
      returns (r: Outcome, task: ServeTask?)
      requires Valid() && !inner.state.isRunning
      modifies this, inner, Sender()
      ensures Valid()
      ensures old(runtime).None? && !runtimeCreated ==>
        r == Err(Unknown) && task == null && inner.state == old(inner.state)
        && runtime == old(runtime) && shutdownTx == old(shutdownTx)
      ensures old(runtime).Some? || runtimeCreated ==>
        (r == Ok && fresh(task) && Started(address, staticDir, https, old(inner.state), old(runtime), old(shutdownTx), task)
         && (old(runtime).None? ==> fresh(runtime.value)) && fresh(shutdownTx.value)
         && (old(shutdownTx).Some? ==> old(shutdownTx).value.senderDropped))
    {
      if runtime.None? {
        if !runtimeCreated {
          return Err(Unknown), null;
        }
        var created := new Runtime();
        runtime := Some(created);
      }
      inner.state := inner.state.(
        isRunning := true,
        config := Some(ServerConfig(address, staticDir, https, None, None)));
      if shutdownTx.Some? {
        shutdownTx.value.Drop();
      }
      var channel := new ShutdownChannel();
      shutdownTx := Some(channel);
      task := new ServeTask(inner, channel, https);
      r := Ok;
    }

    /** What a successful start leaves behind. */
    ghost predicate Started(address: string, staticDir: string, https: bool, before: ServerState,
                            runtimeBefore: Option<Runtime>, senderBefore: Option<ShutdownChannel>, task: ServeTask?)
      reads this, inner, Sender(), task
    {
      inner.state == before.(isRunning := true, config := Some(ServerConfig(address, staticDir, https, None, None)))
      && (runtimeBefore.Some? ==> runtime == runtimeBefore)
      && runtime.Some?
      && shutdownTx.Some? && shutdownTx != senderBefore && !shutdownTx.value.Fired()
      && task != null && task.inner == inner && task.shutdown == shutdownTx.value
      && task.https == https && task.phase == Binding
    }

    /**
     * `start`: AlreadyRunning, then InvalidAddress, then a runtime failure
     * (Unknown); otherwise the server is marked running with a plain-HTTP
     * configuration and a task is spawned.
     */
    method Start(address: string, staticDir: string, validAddress: string -> bool, runtimeCreated: bool)
      returns (r: Outcome, task: ServeTask?)
      requires Valid()
      modifies this, inner, Sender()
      ensures Valid()
      ensures r.Ok? <==> task != null
      ensures old(inner.state.isRunning) ==> r == Err(AlreadyRunning)
      ensures !old(inner.state.isRunning) && !validAddress(address) ==> r == Err(InvalidAddress(address))
      ensures !old(inner.state.isRunning) && validAddress(address) && old(runtime).None? && !runtimeCreated ==>
        r == Err(Unknown)
      ensures r.Err? ==> (inner.state == old(inner.state) && runtime == old(runtime) && shutdownTx == old(shutdownTx))
      ensures r.Ok? <==> !old(inner.state.isRunning) && validAddress(address) && (old(runtime).Some? || runtimeCreated)
      ensures r.Ok? ==> fresh(task) && Started(address, staticDir, false, old(inner.state), old(runtime), old(shutdownTx), task)
      ensures r.Ok? && old(runtime).None? ==> fresh(runtime.value)
      ensures r.Ok? ==> fresh(shutdownTx.value)
    {
      if inner.state.isRunning {
        return Err(AlreadyRunning), null;
      }
      if !validAddress(address) {
        return Err(InvalidAddress(address)), null;
      }
      r, task := Launch(address, staticDir, false, runtimeCreated);
    }

    /**
     * `start_https`: as `start`, with the TLS setup checked between the
     * address and the runtime; a TLS failure is Unknown and creates no runtime.
     */
    method StartHttps(address: string, staticDir: string, validAddress: string -> bool, tls: TlsSetup, runtimeCreated: bool)
      returns (r: Outcome, task: ServeTask?)
      requires Valid()
      modifies this, inner, Sender()
      ensures Valid()
      ensures r.Ok? <==> task != null
      ensures old(inner.state.isRunning) ==> r == Err(AlreadyRunning)
      ensures !old(inner.state.isRunning) && !validAddress(address) ==> r == Err(InvalidAddress(address))
      ensures !old(inner.state.isRunning) && validAddress(address) && !TlsReady(tls) ==> r == Err(Unknown)
      ensures !old(inner.state.isRunning) && validAddress(address) && old(runtime).None? && !runtimeCreated ==>
        r == Err(Unknown)
      ensures r.Err? ==> (inner.state == old(inner.state) && runtime == old(runtime) && shutdownTx == old(shutdownTx))
      ensures r.Ok? <==> !old(inner.state.isRunning) && validAddress(address) && TlsReady(tls)
                          && (old(runtime).Some? || runtimeCreated)
      ensures r.Ok? ==> fresh(task) && Started(address, staticDir, true, old(inner.state), old(runtime), old(shutdownTx), task)
      ensures r.Ok? && old(runtime).None? ==> fresh(runtime.value)
      ensures r.Ok? ==> fresh(shutdownTx.value)
    {
      if inner.state.isRunning {
        return Err(AlreadyRunning), null;
      }
      if !validAddress(address) {
        return Err(InvalidAddress(address)), null;
      }
      if !TlsReady(tls) {
        return Err(Unknown), null;
      }
      r, task := Launch(address, staticDir, true, runtimeCreated);
    }

    /**
     * `stop`: a stopped server is left alone; a running one has its sender
     * taken and fired, `isRunning` cleared and `connectedClients` reset,
     * keeping its configuration.
     */
    method Stop()
      requires Valid()
      modifies this, inner, Sender()
      ensures Valid()
      ensures runtime == old(runtime)
      ensures !old(inner.state.isRunning) ==> (inner.state == old(inner.state) && shutdownTx == old(shutdownTx))
      ensures old(inner.state.isRunning) ==>
        (inner.state == old(inner.state).(isRunning := false, connectedClients := 0)
         && shutdownTx == None
         && old(shutdownTx).value.signalled && old(shutdownTx).value.senderDropped)
    {
      if !inner.state.isRunning {
        return;
      }
      if shutdownTx.Some? {
        var tx := shutdownTx.value;
        shutdownTx := None;
        tx.SendAndDrop();
      }
      inner.state := inner.state.(isRunning := false, connectedClients := 0);
    }

    /** `Drop`: release the sender (waking the task) and then the runtime. */
    method Drop()
      modifies this, Sender()
      ensures shutdownTx == None && runtime == None
      ensures old(shutdownTx).Some? ==> old(shutdownTx).value.senderDropped
    {
      if shutdownTx.Some? {
        var tx := shutdownTx.value;
        shutdownTx := None;
        tx.Drop();
      }
      runtime := None;
    }
  }

  /** Stopping twice is the same as stopping once. */
  method StopTwice(server: HttpServerState)
    requires server.Valid()
    modifies server, server.inner, server.Sender()
    ensures server.Valid()
    ensures server.inner.state ==
      if old(server.inner.state.isRunning) then old(server.inner.state).(isRunning := false, connectedClients := 0)
      else old(server.inner.state)
    ensures !server.IsRunning()
  {
    server.Stop();
    server.Stop();
  }

  /** The address survives a stop. */
  method AddressAfterStop(server: HttpServerState) returns (address: string)
    requires server.Valid()
    modifies server, server.inner, server.Sender()
    ensures address == old(server.GetAddress())
  {
    server.Stop();
    address := server.GetAddress();
  }

  /**
   * A stopped HTTPS server that is started again before its old task has
   * seen the shutdown: when the old task then wakes up it clears
   * `isRunning`, and the freshly started server reports itself stopped.
   */
  method StaleHttpsTask(server: HttpServerState, oldTask: ServeTask, address: string, staticDir: string,
                        validAddress: string -> bool, tls: TlsSetup)
    returns (restarted: ServeTask?)
    requires server.Valid() && server.IsRunning()
    requires oldTask.inner == server.inner && oldTask.https && oldTask.phase == Serving
    requires server.shutdownTx == Some(oldTask.shutdown)
    requires validAddress(address) && TlsReady(tls)
    modifies server, server.inner, server.Sender(), oldTask
    ensures restarted != null && restarted.phase == Binding
    ensures !server.IsRunning()
  {
    server.Stop();
    assert oldTask.shutdown.Fired();
    var r;
    r, restarted := server.StartHttps(address, staticDir, validAddress, tls, true);
    assert server.IsRunning();
    oldTask.ShutdownObserved(server);
  }
}

=== FILE: logger.dfy ===
/**
 * The Swift app's logger: four levels, four category helpers that prefix
 * the message with a tag, and an in-memory buffer of at most 1000 entries
 * that drops its oldest 100 when it overflows, mirrored by the newest 100
 * for display. Entries can be filtered by category and exported as text.
 *
 * The clock, the console (`os_log`) and the log file are outside the model:
 * an entry's timestamp is a parameter in milliseconds, rendered as UTC
 * time of day.
 */
module SwiftLogger {
  import opened Common
  import opened Text

  // ---------------------------------------------------------------------
  // Levels
  // ---------------------------------------------------------------------

  /** `LogLevel`. */
  datatype LogLevel = Debug | Info | Warning | Error

  /** The unified-logging types a level is written with. */
  datatype OSLogType = DebugType | InfoType | DefaultType | ErrorType

  /** `rawValue`. */
  function RawValue(level: LogLevel): string {
    match level
    case Debug => "DEBUG"
    case Info => "INFO"
    case Warning => "WARNING"
    case Error => "ERROR"
  }

  /** `init?(rawValue:)`: the level whose raw value is `raw`, if any. */
  function LevelFromRaw(raw: string): (level: Option<LogLevel>)
    ensures level.Some? ==> RawValue(level.value) == raw
  {
    if raw == "DEBUG" then Some(Debug)
    else if raw == "INFO" then Some(Info)
    else if raw == "WARNING" then Some(Warning)
    else if raw == "ERROR" then Some(Error)
    else None
  }

  /** A raw value reads back as its level, so distinct levels have distinct raw values. */
  lemma RawValueRoundTrip(level: LogLevel)
    ensures LevelFromRaw(RawValue(level)) == Some(level)
  {
  }

  /** `osLogType`: a warning is written at the default type, the others at their own. */
  function OsLogType(level: LogLevel): (t: OSLogType)
    ensures t == DefaultType <==> level == Warning
  {
    match level
    case Debug => DebugType
    case Info => InfoType
    case Warning => DefaultType
    case Error => ErrorType
  }

  lemma OsLogTypeInjective(a: LogLevel, b: LogLevel)
    ensures OsLogType(a) == OsLogType(b) <==> a == b
  {
  }

  // ---------------------------------------------------------------------
  // Entries
  // ---------------------------------------------------------------------

  /** `LogEntry`; the random `id` is not modelled. */
  datatype LogEntry = LogEntry(timestamp: nat, level: LogLevel, message: string, file: string,
                               caller: string, line: int)

  /** Strip every '/' at the end. */
  function TrimTrailingSlashes(path: string): (r: string)
    ensures r <= path && (r == [] || r[|r| - 1] != '/')
    ensures forall i | |r| <= i < |path| :: path[i] == '/'
  {
    if path != [] && path[|path| - 1] == '/' then TrimTrailingSlashes(path[..|path| - 1]) else path
  }

  /** The position just after the last '/', or 0. */
  function AfterLastSlash(path: string): (i: nat)
    ensures i <= |path|
    ensures i > 0 ==> path[i - 1] == '/'
    ensures '/' !in path[i..]
  {
    if path == [] then 0
    else if path[|path| - 1] == '/' then |path|
    else
      var i := AfterLastSlash(path[..|path| - 1]);
      assert path[i..] == path[..|path| - 1][i..] + [path[|path| - 1]];
      i
  }

  /**
   * `NSString.lastPathComponent`: trailing slashes are ignored, then the
   * text after the last '/' is taken; a path of slashes only gives "/".
   */
  function LastPathComponent(path: string): (name: string)
    ensures path == [] ==> name == []
    ensures name != "/" ==> '/' !in name
  {
    var trimmed := TrimTrailingSlashes(path);
    if trimmed == [] then (if path == [] then "" else "/")
    else trimmed[AfterLastSlash(trimmed)..]
  }

  /** After a '/' and a name without one, the last '/' is the one before the name. */
  lemma {:induction false} AfterSlashBeforeName(dir: string, name: string)
    requires '/' !in name
    ensures AfterLastSlash(dir + "/" + name) == |dir| + 1
    decreases |name|
  {
    var path := dir + "/" + name;
    if name != [] {
      assert path[|path| - 1] == name[|name| - 1];
      assert path[..|path| - 1] == dir + "/" + name[..|name| - 1];
      AfterSlashBeforeName(dir, name[..|name| - 1]);
    }
  }

  /** The source file of a log call is named by its last path component. */
  lemma LastPathComponentOfFile(dir: string, name: string)
    requires name != [] && '/' !in name
    ensures LastPathComponent(dir + "/" + name) == name
  {
    var path := dir + "/" + name;
    assert path[|path| - 1] == name[|name| - 1];
    assert TrimTrailingSlashes(path) == path;
    AfterSlashBeforeName(dir, name);
    assert path[|dir| + 1..] == name;
  }

  /** `NSString` corner cases: the empty path, the root, a trailing slash. */
  lemma LastPathComponentCorners()
    ensures LastPathComponent("") == ""
    ensures LastPathComponent("/") == "/" && LastPathComponent("//") == "/"
    ensures LastPathComponent("src/") == "src"
    ensures LastPathComponent("Logger.swift") == "Logger.swift"
  {
    assert TrimTrailingSlashes("//") == "";
    assert TrimTrailingSlashes("src/") == "src";
    assert AfterLastSlash("src") == 0;
    assert AfterLastSlash("Logger.swift") == 0 by {
      AfterSlashBeforeName("", "Logger.swift");
    }
  }

  /** Two digits, zero-padded. */
  function Pad2(n: nat): (r: string)
    requires n < 100
    ensures |r| == 2 && AllDigits(r)
  {
    [DigitChar(n / 10), DigitChar(n % 10)]
  }

  /** Three digits, zero-padded. */
  function Pad3(n: nat): (r: string)
    requires n < 1000
    ensures |r| == 3 && AllDigits(r)
  {
    [DigitChar(n / 100), DigitChar(n / 10 % 10), DigitChar(n % 10)]
  }

  /** The "HH:mm:ss.SSS" time of day of a timestamp in milliseconds. */
  function TimeText(millis: nat): (text: string)
    ensures |text| == 12
    ensures forall i | 0 <= i < |text| :: IsDigit(text[i]) || text[i] == ':' || text[i] == '.'
  {
    var ms := millis % 86_400_000;
    var t := Pad2(ms / 3_600_000) + ":" + Pad2(ms / 60_000 % 60) + ":" + Pad2(ms / 1000 % 60) + "." + Pad3(ms % 1000);
    assert forall i | 0 <= i < |t| :: t[i] == ':' || t[i] == '.' || IsDigit(t[i]);
    t
  }

  /** `formatted`: "HH:mm:ss.SSS [LEVEL] message", which reads back as its time, level and message. */
  function Formatted(entry: LogEntry): (line: string)
    ensures ParseFormatted(line) == Some((TimeText(entry.timestamp), entry.level, entry.message))
  {
    LineReadsBack(TimeText(entry.timestamp), entry.level, entry.message);
    TimeText(entry.timestamp) + " [" + RawValue(entry.level) + "] " + entry.message
  }

  /** `shortDescription`: "HH:mm:ss LEVEL: message": the time to the second first, the message last. */
  function ShortDescription(entry: LogEntry): (short: string)
    ensures |short| == 11 + |RawValue(entry.level)| + |entry.message|
    ensures short[..8] == TimeText(entry.timestamp)[..8]
    ensures short[|short| - |entry.message|..] == entry.message
    ensures short[8..|short| - |entry.message|] == " " + RawValue(entry.level) + ": "
  {
    var head, raw, message := TimeText(entry.timestamp)[..8], RawValue(entry.level), entry.message;
    KeepsHead(head, " ", 8);
    KeepsHead(head + " ", raw, 8);
    KeepsHead(head + " " + raw, ": ", 8);
    KeepsHead(head + " " + raw + ": ", message, 8);
    KeepsTail(head + " " + raw + ": ", message);
    head + " " + raw + ": " + message
  }

  /** Both renderings start with the same time of day to the second and end with the message. */
  lemma RenderingsAgree(entry: LogEntry)
    ensures var long := Formatted(entry);
      var short := ShortDescription(entry);
      long[..8] == short[..8]
      && long[|long| - |entry.message|..] == entry.message
      && short[|short| - |entry.message|..] == entry.message
  {
    var time := TimeText(entry.timestamp);
    var raw := RawValue(entry.level);
    var message := entry.message;
    KeepsHead(time, " [", 8);
    KeepsHead(time + " [", raw, 8);
    KeepsHead(time + " [" + raw, "] ", 8);
    KeepsHead(time + " [" + raw + "] ", message, 8);
    KeepsTail(time + " [" + raw + "] ", message);
  }

  /** Appending leaves the first `k` characters alone. */
  lemma KeepsHead(s: string, t: string, k: nat)
    requires k <= |s|
    ensures (s + t)[..k] == s[..k]
  {
  }

  /** What is appended is the end of the result. */
  lemma KeepsTail(s: string, t: string)
    ensures (s + t)[|s + t| - |t|..] == t
  {
  }

  /** Reading a formatted line back: the time, the level between the brackets, the message. */
  function ParseFormatted(line: string): Option<(string, LogLevel, string)> {
    if |line| < 14 || line[12..14] != " [" then None
    else
      var rest := line[14..];
      match IndexOfChar(rest, ']')
      case None => None
      case Some(close) =>
        if close + 2 > |rest| || rest[close + 1] != ' ' then None
        else match LevelFromRaw(rest[..close])
          case None => None
          case Some(level) => Some((line[..12], level, rest[close + 2..]))
  }

  /** A line made of a 12-character time, a bracketed level and a message reads back as those three. */
  lemma LineReadsBack(time: string, level: LogLevel, message: string)
    requires |time| == 12
    ensures ParseFormatted(time + " [" + RawValue(level) + "] " + message) == Some((time, level, message))
  {
    var raw := RawValue(level);
    var open, close := " [", "] ";
    var rest := raw + close + message;
    var line := time + open + rest;
    assert time + " [" + raw + "] " + message == line by {
      Regroup(time, open, raw, close, message);
    }
    assert line[12..14] == " [" && line[..12] == time && line[14..] == rest by {
      SplitBracket(time, open, rest);
    }
    assert ']' !in raw by {
      RawValueRoundTrip(level);
    }
    assert IndexOfChar(rest, ']') == Some(|raw|) && rest[|raw| + 1] == ' '
        && rest[..|raw|] == raw && rest[|raw| + 2..] == message by {
      SplitLevel(raw, close, message);
      forall j | 0 <= j < |raw| ensures rest[j] != ']' {
        assert rest[j] == raw[j];
      }
      IndexOfCharAt(rest, ']', |raw|);
    }
    RawValueRoundTrip(level);
    ParsedPieces(line, time, level, rest, |raw|, message);
  }

  /** `ParseFormatted` once the line is known to be cut where it looks. */
  lemma ParsedPieces(line: string, time: string, level: LogLevel, rest: string, close: nat, message: string)
    requires |line| >= 14 && line[12..14] == " [" && line[..12] == time && line[14..] == rest
    requires IndexOfChar(rest, ']') == Some(close) && close + 2 <= |rest| && rest[close + 1] == ' '
    requires LevelFromRaw(rest[..close]) == Some(level) && rest[close + 2..] == message
    ensures ParseFormatted(line) == Some((time, level, message))
  {
  }

  /** The pieces of a two-character separator put between a head and a rest. */
  lemma SplitBracket(head: string, sep: string, rest: string)
    requires |sep| == 2
    ensures var line := head + sep + rest;
      line[..|head|] == head && line[|head|..|head| + 2] == sep && line[|head| + 2..] == rest
  {
  }

  /** The pieces of a level followed by a two-character separator and a message. */
  lemma SplitLevel(raw: string, sep: string, message: string)
    requires |sep| == 2
    ensures var rest := raw + sep + message;
      rest[..|raw|] == raw && rest[|raw|] == sep[0] && rest[|raw| + 1] == sep[1]
      && rest[|raw| + 2..] == message
  {
  }

  // ---------------------------------------------------------------------
  // The logger
  // ---------------------------------------------------------------------

  /** The buffer never holds more than this many entries. */
  const Capacity: nat := 1000

  /** How many of the oldest entries an overflow drops. */
  const DropCount: nat := 100

  /** How many entries `recentLogs` mirrors. */
  const RecentCount: nat := 100

  /** The message tag a category helper adds. */
  function Tag(category: string): string {
    "[" + category + "]"
  }

  /** The entries whose message holds the tag of `category`, in buffer order. */
  function ByCategory(entries: seq<LogEntry>, category: string): (r: seq<LogEntry>)
    ensures |r| <= |entries|
    ensures forall e | e in r :: e in entries && Contains(e.message, Tag(category))
    ensures forall e | e in entries && Contains(e.message, Tag(category)) :: e in r
  {
    if entries == [] then []
    else
      var last := entries[|entries| - 1];
      var front := ByCategory(entries[..|entries| - 1], category);
      assert entries == entries[..|entries| - 1] + [last];
      if Contains(last.message, Tag(category)) then front + [last] else front
  }

  /** Filtering distributes over concatenation, so order is kept. */
  lemma {:induction false} ByCategoryAppend(a: seq<LogEntry>, b: seq<LogEntry>, category: string)
    ensures ByCategory(a + b, category) == ByCategory(a, category) + ByCategory(b, category)
    decreases |b|
  {
    if b == [] {
      assert a + b == a;
    } else {
      var last := b[|b| - 1];
      assert (a + b)[..|a + b| - 1] == a + b[..|b| - 1];
      ByCategoryAppend(a, b[..|b| - 1], category);
    }
  }

  /** The buffer after appending `entry` and dropping the oldest 100 on overflow. */
  function Appended(buffer: seq<LogEntry>, entry: LogEntry): (r: seq<LogEntry>)
    ensures |buffer| <= Capacity ==> |r| <= Capacity
    ensures |r| >= 1 && r[|r| - 1] == entry
  {
    var grown := buffer + [entry];
    if |grown| > Capacity then grown[DropCount..] else grown
  }

  /** `Logger`: the buffer and its mirror of the newest 100 entries. */
  class Logger {
    var logBuffer: seq<LogEntry>
    var recentLogs: seq<LogEntry>

    /** The cap holds and the mirror is up to date. */
    predicate Valid()
      reads this
    {
      |logBuffer| <= Capacity && recentLogs == Newest(logBuffer, RecentCount)
    }

    constructor()
      ensures Valid() && logBuffer == [] && recentLogs == []
    {
      logBuffer := [];
      recentLogs := [];
    }

    /**
     * `log`: build the entry (the file named by its last path component),
     * append it, drop the oldest 100 when more than 1000 are held, and
     * refresh the mirror.
     */
    method Log(level: LogLevel, message: string, file: string, caller: string, line: int, timestamp: nat)
      returns (entry: LogEntry)
      requires Valid()
      modifies this
      ensures Valid()
      ensures entry == LogEntry(timestamp, level, message, LastPathComponent(file), caller, line)
      ensures logBuffer == Appended(old(logBuffer), entry)
      ensures recentLogs == Newest(old(recentLogs) + [entry], RecentCount)
    {
      MirrorAfterAppend(logBuffer, LogEntry(timestamp, level, message, LastPathComponent(file), caller, line));
      entry := LogEntry(timestamp, level, message, LastPathComponent(file), caller, line);
      logBuffer := logBuffer + [entry];
      if |logBuffer| > Capacity {
        logBuffer := logBuffer[DropCount..];
      }
      recentLogs := Newest(logBuffer, RecentCount);
    }

    /** `debug`. */
    method LogDebug(message: string, file: string, caller: string, line: int, timestamp: nat)
      returns (entry: LogEntry)
      requires Valid()
      modifies this
      ensures Valid() && entry.level == Debug && entry.message == message
      ensures logBuffer == Appended(old(logBuffer), entry)
    {
      entry := Log(Debug, message, file, caller, line, timestamp);
    }

    /** `info`. */
    method LogInfo(message: string, file: string, caller: string, line: int, timestamp: nat)
      returns (entry: LogEntry)
      requires Valid()
      modifies this
      ensures Valid() && entry.level == Info && entry.message == message
      ensures logBuffer == Appended(old(logBuffer), entry)
    {
      entry := Log(Info, message, file, caller, line, timestamp);
    }

    /** `warning`. */
    method LogWarning(message: string, file: string, caller: string, line: int, timestamp: nat)
      returns (entry: LogEntry)
      requires Valid()
      modifies this
      ensures Valid() && entry.level == Warning && entry.message == message
      ensures logBuffer == Appended(old(logBuffer), entry)
    {
      entry := Log(Warning, message, file, caller, line, timestamp);
    }

    /** `error`. */
    method LogError(message: string, file: string, caller: string, line: int, timestamp: nat)
      returns (entry: LogEntry)
      requires Valid()
      modifies this
      ensures Valid() && entry.level == Error && entry.message == message
      ensures logBuffer == Appended(old(logBuffer), entry)
    {
      entry := Log(Error, message, file, caller, line, timestamp);
    }

    /** `network`, `discovery`, `connection` and `message`: info level, message behind "[CATEGORY] ". */
    method LogCategory(category: Category, message: string, file: string, caller: string, line: int, timestamp: nat)
      returns (entry: LogEntry)
      requires Valid()
      modifies this
      ensures Valid() && entry.level == Info && entry.message == Tag(CategoryName(category)) + " " + message
      ensures logBuffer == Appended(old(logBuffer), entry)
    {
      entry := Log(Info, Tag(CategoryName(category)) + " " + message, file, caller, line, timestamp);
    }

    /** `getRecentLogs(limit:)`: the newest `limit` entries; a negative limit traps (`None`). */
    function GetRecentLogs(limit: int): (r: Option<seq<LogEntry>>)
      reads this
      ensures r.None? <==> limit < 0
      ensures r.Some? ==> |r.value| == if |logBuffer| < limit then |logBuffer| else limit
      ensures r.Some? ==> r.value == logBuffer[|logBuffer| - |r.value|..]
    {
      Suffix(logBuffer, limit)
    }

    /** `getLogsByCategory`: the entries whose message contains "[category]". */
    function GetLogsByCategory(category: string): (r: seq<LogEntry>)
      reads this
      ensures forall e | e in r :: e in logBuffer && Contains(e.message, Tag(category))
      ensures forall e | e in logBuffer && Contains(e.message, Tag(category)) :: e in r
    {
      ByCategory(logBuffer, category)
    }

    /** `clearLogs`: both the buffer and the mirror become empty. */
    method ClearLogs()
      modifies this
      ensures Valid() && logBuffer == [] && recentLogs == []
    {
      logBuffer := [];
      recentLogs := [];
    }

    /**
     * `exportLogs`: the formatted entries, one per line, oldest first; when no
     * message holds a line break, splitting at line breaks gives the lines back.
     */
    function ExportLogs(): (text: string)
      reads this
      ensures logBuffer == [] ==> text == ""
      ensures logBuffer != [] && (forall e | e in logBuffer :: '\n' !in e.message) ==>
        Components(text, "\n") == FormattedLines(logBuffer)
    {
      ExportSplits(logBuffer);
      Join(FormattedLines(logBuffer), "\n")
    }
  }

  /** The helpers that tag their message. */
  datatype Category = Network | Discovery | Connection | Message

  function CategoryName(category: Category): string {
    match category
    case Network => "NETWORK"
    case Discovery => "DISCOVERY"
    case Connection => "CONNECTION"
    case Message => "MESSAGE"
  }

  /** Every entry's `formatted` text. */
  function FormattedLines(entries: seq<LogEntry>): (lines: seq<string>)
    ensures |lines| == |entries|
    ensures forall i | 0 <= i < |entries| :: lines[i] == Formatted(entries[i])
  {
    seq(|entries|, i requires 0 <= i < |entries| => Formatted(entries[i]))
  }

  // ---------------------------------------------------------------------
  // What the logger promises
  // ---------------------------------------------------------------------

  /**
   * Logging keeps a contiguous tail of everything logged: the new entry
   * last, the older ones in order, and only an overflow drops the oldest 100.
   */
  lemma AppendedKeepsTail(buffer: seq<LogEntry>, entry: LogEntry)
    requires |buffer| <= Capacity
    ensures var r := Appended(buffer, entry);
      |r| == (if |buffer| < Capacity then |buffer| + 1 else |buffer| + 1 - DropCount)
      && r == (buffer + [entry])[|buffer| + 1 - |r|..]
  {
  }

  /** A tail that is long enough, or everything, has the same newest `n` elements. */
  lemma NewestOfTail<T>(all: seq<T>, from: nat, n: nat)
    requires from <= |all|
    requires from == 0 || |all| - from >= n
    ensures Newest(all[from..], n) == Newest(all, n)
  {
    if from > 0 {
      var tail := all[from..];
      assert tail[|tail| - n..] == all[|all| - n..];
    }
  }

  /** The display mirror never notices an overflow: it is the newest 100 of what was logged. */
  lemma MirrorAfterAppend(buffer: seq<LogEntry>, entry: LogEntry)
    requires |buffer| <= Capacity
    ensures Newest(Appended(buffer, entry), RecentCount) == Newest(Newest(buffer, RecentCount) + [entry], RecentCount)
  {
    var all := buffer + [entry];
    var old100 := Newest(buffer, RecentCount);
    var recent := old100 + [entry];
    assert recent == all[|buffer| - |old100|..] by {
      assert old100 == buffer[|buffer| - |old100|..];
    }
    NewestOfTail(all, |buffer| - |old100|, RecentCount);
    AppendedKeepsTail(buffer, entry);
    var r := Appended(buffer, entry);
    NewestOfTail(all, |all| - |r|, RecentCount);
  }

  /** `getRecentLogs()` with its default limit gives exactly the mirror. */
  lemma DefaultRecentLogsIsMirror(logger: Logger)
    requires logger.Valid()
    ensures logger.GetRecentLogs(RecentCount) == Some(logger.recentLogs)
  {
  }

  /** A message logged through a category helper is found under that category. */
  lemma TaggedEntryIsFound(buffer: seq<LogEntry>, entry: LogEntry, category: Category, message: string)
    requires entry.message == Tag(CategoryName(category)) + " " + message
    ensures entry in ByCategory(Appended(buffer, entry), CategoryName(category))
  {
    var tag := Tag(CategoryName(category));
    assert OccursAt(entry.message, tag, 0) by {
      assert entry.message[..|tag|] == tag;
    }
    var r := Appended(buffer, entry);
    assert entry in r by {
      assert r[|r| - 1] == entry;
    }
  }

  /** Formatted text holds a line break only where the message does. */
  lemma FormattedIsOneLine(entry: LogEntry)
    requires '\n' !in entry.message
    ensures '\n' !in Formatted(entry)
  {
    assert '\n' !in TimeText(entry.timestamp);
    assert '\n' !in RawValue(entry.level);
    assert '\n' !in " [" && '\n' !in "] ";
  }

  /** Formatted lines joined at line breaks split back into the lines, when no message holds a line break. */
  lemma ExportSplits(entries: seq<LogEntry>)
    ensures entries != [] && (forall e | e in entries :: '\n' !in e.message) ==>
      Components(Join(FormattedLines(entries), "\n"), "\n") == FormattedLines(entries)
  {
    if entries != [] && (forall e | e in entries :: '\n' !in e.message) {
      var lines := FormattedLines(entries);
      forall i | 0 <= i < |lines| ensures '\n' !in lines[i] {
        FormattedIsOneLine(entries[i]);
      }
      assert "\n"[0] == '\n';
      ComponentsOfJoined(lines, "\n");
    }
  }
}

=== FILE: mdns_server.dfy ===
/**
 * The mDNS advertiser: a registered flag, the daemon and runtime handles,
 * and the four fields of the advertised record. Starting goes through five
 * fallible steps (runtime, daemon, service info, registration, monitor);
 * the daemon, the service-info checks and the registration belong to the
 * mdns-sd crate and appear here as the outcomes of those steps.
 */
module MdnsServer {
  import opened Common
  import opened CoreTypes

  // ---------------------------------------------------------------------
  // Names
  // ---------------------------------------------------------------------

  /** The name ends with a dot, as a fully-qualified DNS name does. */
  predicate EndsWithDot(name: string) {
    |name| >= 1 && name[|name| - 1] == '.'
  }

  /** The name ends with an empty label. */
  predicate EndsWithDoubleDot(name: string) {
    |name| >= 2 && name[|name| - 2] == '.' && name[|name| - 1] == '.'
  }

  /** `service_fullname` as written: the instance, a dot, the service type and another dot. */
  function FullnameAsWritten(instanceName: string, serviceType: string): (name: string)
    ensures |name| == |instanceName| + |serviceType| + 2
    ensures name[..|instanceName|] == instanceName && name[|instanceName|] == '.'
    ensures name[|instanceName| + 1..|name| - 1] == serviceType && EndsWithDot(name)
  {
    instanceName + "." + serviceType + "."
  }

  /** A service type written as a fully-qualified name gets an empty last label. */
  lemma AsWrittenDoublesTrailingDot(instanceName: string, serviceType: string)
    requires EndsWithDot(serviceType)
    ensures EndsWithDoubleDot(FullnameAsWritten(instanceName, serviceType))
  {
    var name := FullnameAsWritten(instanceName, serviceType);
    assert name[|name| - 2] == serviceType[|serviceType| - 1];
  }

  /** The default service type of the C interface yields "Instance._service._tcp.local..". */
  lemma AsWrittenDefaultName()
    ensures FullnameAsWritten("Instance", "_service._tcp.local.") == "Instance._service._tcp.local.."
    ensures EndsWithDoubleDot(FullnameAsWritten("Instance", "_service._tcp.local."))
  {
    AsWrittenDoublesTrailingDot("Instance", "_service._tcp.local.");
  }

  /** A domain with exactly the trailing dot it needs. */
  function Absolute(domain: string): (r: string)
    ensures EndsWithDot(r)
    ensures EndsWithDot(domain) ==> r == domain
    ensures !EndsWithDot(domain) ==> r == domain + "."
  {
    if EndsWithDot(domain) then domain else domain + "."
  }

  /**
   * The intended full name: `<Instance>.<Service>.<Domain>` with the
   * service type taken as a (possibly already absolute) domain name.
   */
  function Fullname(instanceName: string, serviceType: string): (name: string)
    ensures EndsWithDot(name)
  {
    instanceName + "." + Absolute(serviceType)
  }

  /**
   * The intended name splits back into the instance, a separating dot and
   * the absolute service type, and never gains an empty last label the type
   * did not have.
   */
  lemma FullnameParts(instanceName: string, serviceType: string)
    ensures var name := Fullname(instanceName, serviceType);
      name[..|instanceName|] == instanceName && name[|instanceName|] == '.'
      && name[|instanceName| + 1..] == Absolute(serviceType)
    ensures serviceType != "" && serviceType != "." && !EndsWithDoubleDot(serviceType) ==>
      !EndsWithDoubleDot(Fullname(instanceName, serviceType))
  {
    FullnameSplits(instanceName, serviceType);
    if serviceType != "" && serviceType != "." && !EndsWithDoubleDot(serviceType) {
      AbsoluteKeepsLastLabel(serviceType);
      var t := Absolute(serviceType);
      var name := Fullname(instanceName, serviceType);
      assert name[|name| - 2] == t[|t| - 2];
    }
  }

  lemma FullnameSplits(instanceName: string, serviceType: string)
    ensures var name := Fullname(instanceName, serviceType);
      |name| == |instanceName| + 1 + |Absolute(serviceType)|
      && name[..|instanceName|] == instanceName && name[|instanceName|] == '.'
      && name[|instanceName| + 1..] == Absolute(serviceType)
  {
    var name := Fullname(instanceName, serviceType);
    assert name == instanceName + ("." + Absolute(serviceType));
  }

  /** Making a name absolute adds no empty last label. */
  lemma AbsoluteKeepsLastLabel(serviceType: string)
    requires serviceType != "" && serviceType != "." && !EndsWithDoubleDot(serviceType)
    ensures var t := Absolute(serviceType); |t| >= 2 && t[|t| - 2] != '.'
  {
    var t := Absolute(serviceType);
    if EndsWithDot(serviceType) {
      assert t[|t| - 2] == serviceType[|serviceType| - 2];
    } else {
      assert t[|t| - 2] == serviceType[|serviceType| - 1];
    }
  }

  /** Where the written form does not double the dot, the two names agree. */
  lemma FullnameAgreesWithoutTrailingDot(instanceName: string, serviceType: string)
    ensures !EndsWithDot(serviceType) <==> Fullname(instanceName, serviceType) == FullnameAsWritten(instanceName, serviceType)
  {
    if EndsWithDot(serviceType) {
      var a := Fullname(instanceName, serviceType);
      var b := FullnameAsWritten(instanceName, serviceType);
      assert |a| + 1 == |b|;
    }
  }

  // ---------------------------------------------------------------------
  // The daemon and the advertised record
  // ---------------------------------------------------------------------

  /** The record handed to the daemon, with automatic address detection on. */
  datatype ServiceInfo = ServiceInfo(
    serviceType: string,
    instanceName: string,
    hostName: string,
    ipAddresses: string,
    port: U16,
    autoAddresses: bool)

  /** The record `start` builds: no fixed address, the hostname under `.local.`. */
  function Advertised(serviceType: string, instanceName: string, hostname: string, port: U16): (info: ServiceInfo)
    ensures info.hostName == hostname + ".local."
    ensures info.serviceType == serviceType && info.instanceName == instanceName && info.port == port
    ensures info.ipAddresses == "" && info.autoAddresses
  {
    ServiceInfo(serviceType, instanceName, hostname + ".local.", "", port, true)
  }

  /** A service daemon handle and the records registered with it. */
  class Daemon {
    var services: seq<ServiceInfo>

    constructor()
      ensures services == []
    {
      services := [];
    }

    /** `register`: the daemon now announces the record. */
    method Register(info: ServiceInfo)
      modifies this
      ensures services == old(services) + [info]
    {
      services := services + [info];
    }
  }

  /**
   * The outcomes of the fallible steps of `start`, in order: making the
   * runtime, making the daemon, building the service info, registering it.
   */
  datatype MdnsSetup = MdnsSetup(runtimeCreated: bool, daemonCreated: bool, infoBuilt: bool, registered: bool)

  /** Every step of `start` succeeds. */
  predicate SetupSucceeds(setup: MdnsSetup) {
    setup.runtimeCreated && setup.daemonCreated && setup.infoBuilt && setup.registered
  }

  // ---------------------------------------------------------------------
  // The advertiser state
  // ---------------------------------------------------------------------

  /** `MdnsServerState`. */
  class MdnsServerState {
    var daemon: Option<Daemon>
    var runtime: Option<Runtime>
    var isRegistered: bool
    var serviceType: string
    var instanceName: string
    var hostname: string
    var port: U16

    /** The daemon object the state holds, if any. */
    function DaemonObject(): set<object>
      reads this
    {
      if daemon.Some? then {daemon.value} else {}
    }

    /**
     * A daemon is held exactly while the service is registered, and then it
     * announces exactly the record of the stored fields.
     */
    predicate Valid()
      reads this, DaemonObject()
    {
      (daemon.Some? <==> isRegistered)
      && (isRegistered ==>
            runtime.Some? && daemon.value.services == [Advertised(serviceType, instanceName, hostname, port)])
    }

    /** `new`: unregistered, no daemon or runtime, empty names and port 0. */
    constructor()
      ensures daemon == None && runtime == None && !isRegistered
      ensures serviceType == "" && instanceName == "" && hostname == "" && port == 0
      ensures Valid()
    {
      daemon := None;
      runtime := None;
      isRegistered := false;
      serviceType := "";
      instanceName := "";
      hostname := "";
      port := 0;
    }

    /** `is_running`: registered, which for a valid state means a daemon is held. */
    function IsRunning(): (running: bool)
      reads this, DaemonObject()
      requires Valid()
      ensures running <==> daemon.Some?
    {
      isRegistered
    }

    /** `service_fullname`, as written: a type that already ends in a dot gets an empty last label. */
    function ServiceFullname(): (name: string)
      reads this
      ensures name == FullnameAsWritten(instanceName, serviceType)
      ensures EndsWithDot(serviceType) ==> EndsWithDoubleDot(name)
    {
      if EndsWithDot(serviceType) then
        AsWrittenDoublesTrailingDot(instanceName, serviceType);
        FullnameAsWritten(instanceName, serviceType)
      else FullnameAsWritten(instanceName, serviceType)
    }

    /**
     * `start`: AlreadyRunning when registered; otherwise a new runtime, a
     * new daemon, the service info and the registration, each of which may
     * fail with Unknown and leave every field as it was. Success stores the
     * new handles and the arguments verbatim; only the advertised hostname
     * gains `.local.`.
     */
    method Start(serviceType: string, instanceName: string, hostname: string, port: U16, setup: MdnsSetup)
      returns (r: Outcome)
      requires Valid()
      modifies this
      ensures Valid()
      ensures old(isRegistered) ==> r == Err(AlreadyRunning)
      ensures !old(isRegistered) && !SetupSucceeds(setup) ==> r == Err(Unknown)
      ensures r.Ok? <==> !old(isRegistered) && SetupSucceeds(setup)
      ensures r.Err? ==>
        daemon == old(daemon) && runtime == old(runtime) && isRegistered == old(isRegistered)
        && this.serviceType == old(this.serviceType) && this.instanceName == old(this.instanceName)
        && this.hostname == old(this.hostname) && this.port == old(this.port)
      ensures r.Ok? ==>
        isRegistered && fresh(daemon.value) && fresh(runtime.value)
        && this.serviceType == serviceType && this.instanceName == instanceName
        && this.hostname == hostname && this.port == port
        && daemon.value.services == [Advertised(serviceType, instanceName, hostname, port)]
    {
      if isRegistered {
        return Err(AlreadyRunning);
      }
      if !setup.runtimeCreated {
        return Err(Unknown);
      }
      var newRuntime := new Runtime();
      if !setup.daemonCreated {
        return Err(Unknown);
      }
      var newDaemon := new Daemon();
      if !setup.infoBuilt {
        return Err(Unknown);
      }
      var info := Advertised(serviceType, instanceName, hostname, port);
      if !setup.registered {
        return Err(Unknown);
      }
      newDaemon.Register(info);
      daemon := Some(newDaemon);
      runtime := Some(newRuntime);
      isRegistered := true;
      this.serviceType := serviceType;
      this.instanceName := instanceName;
      this.hostname := hostname;
      this.port := port;
      r := Ok;
    }

    /**
     * `stop`: an unregistered service is left alone; a registered one drops
     * its daemon and clears the flag, keeping the runtime and the record
     * fields.
     */
    method Stop()
      requires Valid()
      modifies this
      ensures Valid()
      ensures !isRegistered && daemon == None
      ensures runtime == old(runtime)
      ensures serviceType == old(serviceType) && instanceName == old(instanceName)
      ensures hostname == old(hostname) && port == old(port)
    {
      if !isRegistered {
        return;
      }
      daemon := None;
      isRegistered := false;
    }

    /** `Drop`: the runtime is released; the daemon goes with the value. */
    method Drop()
      modifies this
      ensures runtime == None
      ensures daemon == old(daemon) && isRegistered == old(isRegistered)
    {
      runtime := None;
    }
  }

  // ---------------------------------------------------------------------
  // The monitor task
  // ---------------------------------------------------------------------

  /** A daemon event; only `Error` matters to the monitor. */
  datatype DaemonEvent = Announce(detail: string) | IpAdded(address: string) | IpRemoved(address: string) | Error(message: string)

  /** One `recv_timeout`: an event, or a timeout (or channel error). */
  datatype Received = Event(event: DaemonEvent) | TimedOut

  /** The received item ends the monitor. */
  predicate Ends(item: Received) {
    item.Event? && item.event.Error?
  }

  /**
   * The monitor task over a run of `recv_timeout` results. Without a
   * monitor channel it ends at once; otherwise it skips timeouts and
   * non-error events and stops after the first daemon error. It touches no
   * state of the advertiser, so `is_registered` is left alone.
   */
  method MonitorLoop(monitorOpened: bool, received: seq<Received>) returns (consumed: nat, ended: bool)
    ensures consumed <= |received|
    ensures !monitorOpened ==> consumed == 0 && ended
    ensures monitorOpened ==> (ended <==> exists i | 0 <= i < |received| :: Ends(received[i]))
    ensures monitorOpened && ended ==> consumed >= 1 && Ends(received[consumed - 1])
    ensures monitorOpened ==> forall i | 0 <= i < consumed - 1 :: !Ends(received[i])
  {
    if !monitorOpened {
      return 0, true;
    }
    var i := 0;
    while i < |received| && !Ends(received[i])
      invariant 0 <= i <= |received|
      invariant forall j | 0 <= j < i :: !Ends(received[j])
    {
      i := i + 1;
    }
    if i < |received| {
      consumed, ended := i + 1, true;
    } else {
      consumed, ended := i, false;
    }
  }

  // ---------------------------------------------------------------------
  // Scenarios
  // ---------------------------------------------------------------------

  /** Starting twice: the second start fails with AlreadyRunning and the service stays registered. */
  method StartWhileRegistered(server: MdnsServerState, setup: MdnsSetup)
    requires server.Valid() && server.isRegistered
    modifies server
    ensures server.Valid() && server.isRegistered
  {
    var r := server.Start("_other._tcp.local.", "Other", "other", 1, setup);
    assert r == Err(AlreadyRunning);
  }

  /** Stopping twice after a start is harmless and leaves the registered flag cleared. */
  method StopTwice(server: MdnsServerState)
    requires server.Valid()
    modifies server
    ensures server.Valid() && !server.IsRunning()
    ensures server.runtime == old(server.runtime)
  {
    server.Stop();
    server.Stop();
  }

  /** After a stop, a new start builds a new runtime rather than reusing the kept one. */
  method RestartMakesNewRuntime(server: MdnsServerState, setup: MdnsSetup)
    requires server.Valid() && server.isRegistered && SetupSucceeds(setup)
    modifies server
    ensures server.Valid() && server.IsRunning()
    ensures server.runtime != old(server.runtime)
  {
    server.Stop();
    var r := server.Start(server.serviceType, server.instanceName, server.hostname, server.port, setup);
    assert fresh(server.runtime.value);
  }
}

=== FILE: static_files.dfy ===
/**
 * The static-file half of the Rust router: which file a request names, and
 * whether it may be served. The filesystem is a map from canonical paths
 * (lists of names below `/`) to nodes; canonicalisation walks a path the
 * way `realpath` does, following symbolic links with a bounded budget.
 * Serving checks, in order: the joined path canonicalises (else 404), the
 * root canonicalises (else 500), the path lies under the root component by
 * component (else 403), it is not a directory (else 403), and it can be read
 * (else 404); then 200 with the bytes and a content type from a fixed table.
 */
module StaticFiles {
  import opened Common
  import opened Text

  // ---------------------------------------------------------------------
  // Paths
  // ---------------------------------------------------------------------

  /** A path as written: absolute or relative, and its components. */
  datatype RawPath = RawPath(absolute: bool, parts: seq<string>)

  /** The non-empty pieces of `s` between slashes. */
  function Segments(s: string): (parts: seq<string>)
    ensures forall i | 0 <= i < |parts| :: parts[i] != [] && '/' !in parts[i]
    decreases |s|
  {
    match IndexOfChar(s, '/')
    case None => if s == [] then [] else [s]
    case Some(i) => (if i == 0 then [] else [s[..i]]) + Segments(s[i + 1..])
  }

  /** A non-empty path that does not start with a slash has a first segment. */
  lemma SegmentsOfRelative(s: string)
    ensures s != [] && s[0] != '/' ==> Segments(s) != []
  {
    if s != [] && s[0] != '/' {
      match IndexOfChar(s, '/')
      case None =>
      case Some(i) => assert i != 0;
    }
  }

  /** A slash after the last name: that name must then be a directory. */
  predicate TrailingSlash(s: string) {
    |s| > 0 && s[|s| - 1] == '/' && Segments(s) != []
  }

  /**
   * `PathBuf::from`: a leading slash makes the path absolute. A trailing
   * slash after a name is kept as a final `.` component, which, as for
   * `realpath`, only a directory can be followed by.
   */
  function ParsePath(s: string): (p: RawPath)
    ensures p.absolute <==> |s| > 0 && s[0] == '/'
    ensures p == RawPath(false, []) <==> s == []
    ensures TrailingSlash(s) ==> p.parts != [] && p.parts[|p.parts| - 1] == "."
    ensures !TrailingSlash(s) ==> p.parts == Segments(s)
  {
    var parts := Segments(s);
    SegmentsOfRelative(s);
    RawPath(|s| > 0 && s[0] == '/', if TrailingSlash(s) then parts + ["."] else parts)
  }

  /**
   * `Path::join`: an absolute second path replaces the first; an empty one
   * leaves a trailing separator after a non-empty first path.
   */
  function JoinPath(base: RawPath, p: RawPath): (r: RawPath)
    ensures p.absolute ==> r == p
    ensures !p.absolute && p.parts != [] ==> r.absolute == base.absolute && r.parts == base.parts + p.parts
    ensures !p.absolute && p.parts == [] ==> r.absolute == base.absolute && r.parts == (if base.parts == [] then [] else base.parts + ["."])
  {
    if p.absolute then p
    else if p.parts == [] && base.parts != [] then RawPath(base.absolute, base.parts + ["."])
    else RawPath(base.absolute, base.parts + p.parts)
  }

  /** A name a directory entry can have. */
  predicate ValidName(name: string) {
    name != [] && name != "." && name != ".." && '/' !in name
  }

  /** `starts_with`: `root` is a component-wise prefix of `p`. */
  predicate Under(root: seq<string>, p: seq<string>) {
    |root| <= |p| && p[..|root|] == root
  }

  // ---------------------------------------------------------------------
  // The filesystem
  // ---------------------------------------------------------------------

  /** A directory, a regular file with its bytes and readability, or a symbolic link. */
  datatype Node = Dir | File(data: seq<byte>, readable: bool) | Symlink(target: RawPath)

  /** Nodes by canonical path (the root `[]` is always a directory), and the working directory. */
  datatype Fs = Fs(nodes: map<seq<string>, Node>, cwd: seq<string>)

  predicate IsDir(fs: Fs, p: seq<string>) {
    p == [] || (p in fs.nodes && fs.nodes[p].Dir?)
  }

  /**
   * Every entry has a proper name and sits in a directory, and the working
   * directory is a directory.
   */
  predicate ValidFs(fs: Fs) {
    (forall p | p in fs.nodes :: p != [] && ValidName(p[|p| - 1]) && IsDir(fs, p[..|p| - 1]))
    && IsDir(fs, fs.cwd)
  }

  /** Linux's limit on symbolic links followed in one resolution. */
  const MaxSymlinks: nat := 40

  function Parent(p: seq<string>): seq<string> {
    if p == [] then [] else p[..|p| - 1]
  }

  /**
   * Resolve `todo` starting in directory `cur`: `.` is skipped, `..` goes up
   * (staying at the root), a name must exist, a file must be the last
   * component, and a link is replaced by its target, which costs one unit
   * of `fuel`. Running out of fuel is the "too many links" error.
   */
  function Resolve(fs: Fs, cur: seq<string>, todo: seq<string>, fuel: nat): Option<seq<string>>
    decreases fuel, |todo|
  {
    if todo == [] then Some(cur)
    else
      var name := todo[0];
      var rest := todo[1..];
      if name == "" || name == "." then Resolve(fs, cur, rest, fuel)
      else if name == ".." then Resolve(fs, Parent(cur), rest, fuel)
      else
        var next := cur + [name];
        if next !in fs.nodes then None
        else match fs.nodes[next]
          case Dir => Resolve(fs, next, rest, fuel)
          case File(_, _) => if rest == [] then Some(next) else None
          case Symlink(target) =>
            if fuel == 0 then None
            else Resolve(fs, if target.absolute then [] else cur, target.parts + rest, fuel - 1)
  }

  /**
   * `canonicalize`: the real path a path names, if it names anything. The
   * empty path names nothing.
   */
  function Canonicalize(fs: Fs, p: RawPath): (c: Option<seq<string>>)
    ensures p == RawPath(false, []) ==> c.None?
  {
    if p == RawPath(false, []) then None
    else Resolve(fs, if p.absolute then [] else fs.cwd, p.parts, MaxSymlinks)
  }

  /**
   * A canonical path exists and is not a link, and it is a directory when
   * the path ends in `.` or a slash.
   */
  lemma CanonicalIsReal(fs: Fs, p: RawPath)
    requires ValidFs(fs)
    ensures var c := Canonicalize(fs, p);
      c.Some? ==> Real(fs, c.value) && (p.parts != [] && p.parts[|p.parts| - 1] == "." ==> IsDir(fs, c.value))
  {
    if p != RawPath(false, []) {
      var start := if p.absolute then [] else fs.cwd;
      ResolveIsReal(fs, start, p.parts, MaxSymlinks);
      if p.parts != [] && p.parts[|p.parts| - 1] == "." {
        ResolveDotIsDir(fs, start, p.parts, MaxSymlinks);
      }
    }
  }

  /** The path exists and is not a link. */
  predicate Real(fs: Fs, p: seq<string>) {
    p == [] || (p in fs.nodes && !fs.nodes[p].Symlink?)
  }

  /** Reading a file: its bytes, when it is a readable regular file. */
  function ReadFile(fs: Fs, p: seq<string>): (data: Option<seq<byte>>)
    ensures data.Some? <==> p in fs.nodes && fs.nodes[p].File? && fs.nodes[p].readable
    ensures data.Some? ==> data.value == fs.nodes[p].data
  {
    if p in fs.nodes && fs.nodes[p].File? && fs.nodes[p].readable then Some(fs.nodes[p].data) else None
  }

  // ---------------------------------------------------------------------
  // Content types
  // ---------------------------------------------------------------------

  /**
   * `Path::extension` of the last component: the text after its last dot;
   * none without a dot, and none when the only dot starts the name.
   */
  function Extension(p: seq<string>): (ext: Option<string>)
    ensures p == [] ==> ext.None?
    ensures ext.Some? ==> '.' !in ext.value
  {
    if p == [] then None
    else
      var name := p[|p| - 1];
      match LastDot(name)
      case None => None
      case Some(i) =>
        if i == 0 then None
        else
          assert '.' !in name[i + 1..];
          Some(name[i + 1..])
  }

  /** The index of the last '.' in `s`. */
  function LastDot(s: string): (r: Option<nat>)
    ensures r.None? <==> '.' !in s
    ensures r.Some? ==> r.value < |s| && s[r.value] == '.' && '.' !in s[r.value + 1..]
  {
    if s == [] then None
    else if s[|s| - 1] == '.' then Some(|s| - 1)
    else
      var init := s[..|s| - 1];
      assert s == init + [s[|s| - 1]];
      match LastDot(init)
      case None => None
      case Some(i) =>
        assert s[i + 1..] == init[i + 1..] + [s[|s| - 1]];
        Some(i)
  }

  /** The extensions the table recognises, matched exactly and case-sensitively. */
  const KnownExtensions: set<string> :=
    {"html", "htm", "css", "js", "json", "png", "jpg", "jpeg", "gif", "svg", "ico", "txt", "woff", "woff2"}

  const OctetStream: string := "application/octet-stream"

  /** The content type for an extension. */
  function ContentType(ext: Option<string>): (mime: string)
    ensures mime != OctetStream <==> ext.Some? && ext.value in KnownExtensions
  {
    match ext
    case None => OctetStream
    case Some(e) =>
      if e == "html" || e == "htm" then "text/html"
      else if e == "css" then "text/css"
      else if e == "js" then "application/javascript"
      else if e == "json" then "application/json"
      else if e == "png" then "image/png"
      else if e == "jpg" || e == "jpeg" then "image/jpeg"
      else if e == "gif" then "image/gif"
      else if e == "svg" then "image/svg+xml"
      else if e == "ico" then "image/x-icon"
      else if e == "txt" then "text/plain"
      else if e == "woff" then "font/woff"
      else if e == "woff2" then "font/woff2"
      else OctetStream
  }

  // ---------------------------------------------------------------------
  // Serving
  // ---------------------------------------------------------------------

  datatype Response = Response(status: int, headers: seq<(string, string)>, body: seq<byte>)

  /** A bare status code with no headers and no body. */
  function Status(code: int): Response {
    Response(code, [], [])
  }

  /** The headers of a served file. */
  function FileHeaders(contentType: string): seq<(string, string)> {
    [("content-type", contentType),
     ("Cross-Origin-Opener-Policy", "same-origin"),
     ("Cross-Origin-Embedder-Policy", "require-corp")]
  }

  /** The path a request names: the static directory joined with the requested path. */
  function Requested(staticDir: string, path: string): RawPath {
    JoinPath(ParsePath(staticDir), ParsePath(path))
  }

  /** `serve_static_file`. */
  function ServeStaticFile(fs: Fs, staticDir: string, path: string): (r: Response)
    ensures r.status == 200 || r.status == 403 || r.status == 404 || r.status == 500
    ensures Canonicalize(fs, Requested(staticDir, path)).None? ==> r == Status(404)
    ensures Canonicalize(fs, Requested(staticDir, path)).Some? && Canonicalize(fs, ParsePath(staticDir)).None? ==>
      r == Status(500)
    ensures r.status == 500 ==> Canonicalize(fs, ParsePath(staticDir)).None?
    ensures r.status == 403 ==> (
      var full := Canonicalize(fs, Requested(staticDir, path)).value;
      !Under(Canonicalize(fs, ParsePath(staticDir)).value, full) || IsDir(fs, full))
    ensures r.status == 200 ==> r.headers == FileHeaders(ContentType(Extension(Canonicalize(fs, Requested(staticDir, path)).value)))
    ensures r.status == 200 ==> !IsDir(fs, Canonicalize(fs, Requested(staticDir, path)).value)
    ensures var full, root := Canonicalize(fs, Requested(staticDir, path)), Canonicalize(fs, ParsePath(staticDir));
      full.Some? && root.Some? ==>
        (!Under(root.value, full.value) ==> r == Status(403))
        && (Under(root.value, full.value) && IsDir(fs, full.value) ==> r == Status(403))
        && (Under(root.value, full.value) && !IsDir(fs, full.value) && ReadFile(fs, full.value).None? ==> r == Status(404))
  {
    match Canonicalize(fs, Requested(staticDir, path))
    case None => Status(404)
    case Some(full) =>
      match Canonicalize(fs, ParsePath(staticDir))
      case None => Status(500)
      case Some(root) =>
        if !Under(root, full) then Status(403)
        else if IsDir(fs, full) then Status(403)
        else
          match ReadFile(fs, full)
          case None => Status(404)
          case Some(data) => Response(200, FileHeaders(ContentType(Extension(full))), data)
  }

  /** The paths the three routes match: `/`, `/health` and `/{*path}` with a non-empty rest. */
  predicate Routed(urlPath: string) {
    urlPath == "/" || urlPath == "/health" || (|urlPath| >= 2 && urlPath[0] == '/')
  }

  /** The answer of a route's `get` handler: `/` serves `index.html`, `/health` answers "OK", the rest are files. */
  function GetAnswer(fs: Fs, staticDir: string, urlPath: string): (r: Response)
    requires Routed(urlPath)
    ensures urlPath == "/" ==> r == ServeStaticFile(fs, staticDir, "index.html")
    ensures urlPath == "/health" ==> r.status == 200 && r.body == Utf8("OK")
    ensures urlPath != "/" && urlPath != "/health" ==> r == ServeStaticFile(fs, staticDir, urlPath[1..])
  {
    if urlPath == "/" then ServeStaticFile(fs, staticDir, "index.html")
    else if urlPath == "/health" then Response(200, [("content-type", "text/plain; charset=utf-8")], Utf8("OK"))
    else ServeStaticFile(fs, staticDir, urlPath[1..])
  }

  /**
   * The router: an unmatched path is 404; a matched one answers GET with its
   * handler, HEAD with the same status and headers and no body, and any
   * other method with 405 and the methods it allows.
   */
  function Dispatch(fs: Fs, staticDir: string, verb: string, urlPath: string): (r: Response)
    ensures !Routed(urlPath) ==> r == Status(404)
    ensures Routed(urlPath) && verb == "GET" ==> r == GetAnswer(fs, staticDir, urlPath)
    ensures Routed(urlPath) && verb == "HEAD" ==>
      r.status == GetAnswer(fs, staticDir, urlPath).status && r.headers == GetAnswer(fs, staticDir, urlPath).headers && r.body == []
    ensures Routed(urlPath) && verb != "GET" && verb != "HEAD" ==> r == Response(405, [("allow", "GET,HEAD")], [])
  {
    if !Routed(urlPath) then Status(404)
    else if verb == "GET" then GetAnswer(fs, staticDir, urlPath)
    else if verb == "HEAD" then GetAnswer(fs, staticDir, urlPath).(body := [])
    else Response(405, [("allow", "GET,HEAD")], [])
  }

  // ---------------------------------------------------------------------
  // What canonicalisation yields
  // ---------------------------------------------------------------------

  /** The parent of a directory is a directory. */
  lemma ParentIsDir(fs: Fs, p: seq<string>)
    requires ValidFs(fs) && IsDir(fs, p)
    ensures IsDir(fs, Parent(p))
  {
  }

  /** Resolution from a directory ends at an existing path that is not a link. */
  lemma {:induction false} ResolveIsReal(fs: Fs, cur: seq<string>, todo: seq<string>, fuel: nat)
    requires ValidFs(fs) && IsDir(fs, cur)
    ensures Resolve(fs, cur, todo, fuel).Some? ==> Real(fs, Resolve(fs, cur, todo, fuel).value)
    decreases fuel, |todo|
  {
    if todo != [] {
      var name := todo[0];
      var rest := todo[1..];
      if name == "" || name == "." {
        ResolveIsReal(fs, cur, rest, fuel);
      } else if name == ".." {
        ParentIsDir(fs, cur);
        ResolveIsReal(fs, Parent(cur), rest, fuel);
      } else {
        var next := cur + [name];
        if next in fs.nodes {
          match fs.nodes[next]
          case Dir => ResolveIsReal(fs, next, rest, fuel);
          case File(_, _) =>
          case Symlink(target) =>
            if fuel > 0 {
              ResolveIsReal(fs, if target.absolute then [] else cur, target.parts + rest, fuel - 1);
            }
        }
      }
    }
  }

  /**
   * Resolution from a directory of components ending in `.` ends at a
   * directory: `realpath` refuses a file followed by a slash.
   */
  lemma {:induction false} ResolveDotIsDir(fs: Fs, cur: seq<string>, todo: seq<string>, fuel: nat)
    requires ValidFs(fs) && IsDir(fs, cur)
    requires todo != [] && todo[|todo| - 1] == "."
    ensures Resolve(fs, cur, todo, fuel).Some? ==> IsDir(fs, Resolve(fs, cur, todo, fuel).value)
    decreases fuel, |todo|
  {
    var name := todo[0];
    var rest := todo[1..];
    if rest == [] {
      assert name == ".";
      assert Resolve(fs, cur, todo, fuel) == Resolve(fs, cur, rest, fuel);
    } else if name == "" || name == "." {
      ResolveDotIsDir(fs, cur, rest, fuel);
    } else if name == ".." {
      ParentIsDir(fs, cur);
      ResolveDotIsDir(fs, Parent(cur), rest, fuel);
    } else {
      var next := cur + [name];
      if next in fs.nodes {
        match fs.nodes[next]
        case Dir => ResolveDotIsDir(fs, next, rest, fuel);
        case File(_, _) =>
        case Symlink(target) =>
          if fuel > 0 {
            var more := target.parts + rest;
            assert more[|more| - 1] == ".";
            ResolveDotIsDir(fs, if target.absolute then [] else cur, more, fuel - 1);
          }
      }
    }
  }

  /** Every ancestor of an existing path is a directory. */
  lemma {:induction false} AncestorsAreDirs(fs: Fs, p: seq<string>)
    requires ValidFs(fs) && p in fs.nodes
    ensures forall k | 0 <= k < |p| :: IsDir(fs, p[..k])
    decreases |p|
  {
    var up := p[..|p| - 1];
    assert IsDir(fs, up);
    if up != [] {
      AncestorsAreDirs(fs, up);
    }
    forall k | 0 <= k < |p| ensures IsDir(fs, p[..k]) {
      if k < |up| {
        assert p[..k] == up[..k];
      } else {
        assert p[..k] == up;
      }
    }
  }

  /**
   * The guarantee the resolver gives: a 200 answer carries the bytes of a
   * readable regular file whose real path lies under the real static root,
   * with every directory between them real as well.
   */
  lemma ServedFileIsUnderRoot(fs: Fs, staticDir: string, path: string)
    requires ValidFs(fs)
    ensures var r := ServeStaticFile(fs, staticDir, path);
      r.status == 200 ==>
        Canonicalize(fs, Requested(staticDir, path)).Some? && Canonicalize(fs, ParsePath(staticDir)).Some? &&
        var full := Canonicalize(fs, Requested(staticDir, path)).value;
        var root := Canonicalize(fs, ParsePath(staticDir)).value;
        Under(root, full)
        && full in fs.nodes && fs.nodes[full] == File(r.body, true)
        && forall k | |root| <= k < |full| :: IsDir(fs, full[..k])
  {
    var r := ServeStaticFile(fs, staticDir, path);
    if r.status == 200 {
      var full := Canonicalize(fs, Requested(staticDir, path)).value;
      assert full in fs.nodes;
      AncestorsAreDirs(fs, full);
    }
  }

  /** Walking plain names through existing directories lands where they say. */
  lemma {:induction false} ResolvePlain(fs: Fs, cur: seq<string>, names: seq<string>, fuel: nat)
    requires forall i | 0 <= i < |names| :: ValidName(names[i])
    requires forall k | 1 <= k < |names| :: IsDir(fs, cur + names[..k]) && cur + names[..k] != []
    requires names != [] ==> cur + names in fs.nodes && (fs.nodes[cur + names].Dir? || fs.nodes[cur + names].File?)
    ensures Resolve(fs, cur, names, fuel) == Some(cur + names)
    decreases |names|
  {
    if names == [] {
      assert cur + names == cur;
    } else {
      var name := names[0];
      assert ValidName(name);
      var next := cur + [name];
      var rest := names[1..];
      assert cur + names == next + rest;
      if rest == [] {
        assert next == cur + names;
        assert Resolve(fs, cur, names, fuel) == Some(next);
      } else {
        assert names[..1] == [name];
        assert IsDir(fs, cur + names[..1]) && cur + names[..1] != [];
        assert fs.nodes[next].Dir?;
        forall k | 1 <= k < |rest| ensures IsDir(fs, next + rest[..k]) && next + rest[..k] != [] {
          assert next + rest[..k] == cur + names[..k + 1];
        }
        ResolvePlain(fs, next, rest, fuel);
        assert Resolve(fs, cur, names, fuel) == Resolve(fs, next, rest, fuel);
      }
    }
  }

  /**
   * Real paths are fixed points: canonicalising the absolute form of an
   * existing, link-free path gives it back.
   */
  lemma CanonicalIsFixpoint(fs: Fs, p: seq<string>)
    requires ValidFs(fs)
    requires p == [] || (p in fs.nodes && (fs.nodes[p].Dir? || fs.nodes[p].File?))
    requires DirChain(fs, p)
    ensures Canonicalize(fs, RawPath(true, p)) == Some(p)
  {
    forall i | 0 <= i < |p| ensures ValidName(p[i]) {
      var q := p[..i + 1];
      if i + 1 < |p| {
        assert q in fs.nodes;
      } else {
        assert q == p;
      }
      assert q[|q| - 1] == p[i];
    }
    forall k | 1 <= k < |p| ensures IsDir(fs, [] + p[..k]) && [] + p[..k] != [] {
      assert [] + p[..k] == p[..k];
    }
    assert [] + p == p;
    ResolvePlain(fs, [], p, MaxSymlinks);
  }

  /** Every proper prefix of `p` is an existing directory. */
  predicate DirChain(fs: Fs, p: seq<string>) {
    forall k | 1 <= k < |p| :: p[..k] in fs.nodes && fs.nodes[p[..k]].Dir?
  }

  lemma DirChainConcat(fs: Fs, root: seq<string>, names: seq<string>)
    requires DirChain(fs, root) && IsDir(fs, root)
    requires forall k | 1 <= k < |names| :: IsDir(fs, root + names[..k]) && root + names[..k] != []
    ensures DirChain(fs, root + names)
  {
    var p := root + names;
    forall k | 1 <= k < |p| ensures p[..k] in fs.nodes && fs.nodes[p[..k]].Dir? {
      if k < |root| {
        assert p[..k] == root[..k];
      } else if k == |root| {
        assert p[..k] == root;
      } else {
        assert p[..k] == root + names[..k - |root|];
      }
    }
  }

  /** The absolute path string of a real directory parses back to it. */
  lemma ParseAbsolute(root: seq<string>)
    requires forall i | 0 <= i < |root| :: ValidName(root[i])
    ensures ParsePath("/" + Join(root, "/")) == RawPath(true, root)
  {
    SegmentsOfJoin(root);
    SegmentsAfterSlash(Join(root, "/"));
    if root != [] {
      JoinEndsWithLast(root);
      var t := "/" + Join(root, "/");
      assert t[|t| - 1] == Join(root, "/")[|Join(root, "/")| - 1];
      assert t[|t| - 1] in root[|root| - 1];
    }
  }

  /** A relative path string of plain names parses back to them. */
  lemma ParseRelative(names: seq<string>)
    requires names != [] && forall i | 0 <= i < |names| :: ValidName(names[i])
    ensures ParsePath(Join(names, "/")) == RawPath(false, names)
  {
    SegmentsOfJoin(names);
    JoinStartsWithFirst(names);
    assert names[0][0] in names[0];
    JoinEndsWithLast(names);
    assert Join(names, "/")[|Join(names, "/")| - 1] in names[|names| - 1];
  }

  /** The names along a path are proper names when the path exists. */
  lemma NamesOfRealPath(fs: Fs, p: seq<string>)
    requires ValidFs(fs) && DirChain(fs, p) && (p == [] || p in fs.nodes)
    ensures forall i | 0 <= i < |p| :: ValidName(p[i])
  {
    forall i | 0 <= i < |p| ensures ValidName(p[i]) {
      var q := p[..i + 1];
      if i + 1 == |p| {
        assert q == p;
      }
      assert q[|q| - 1] == p[i];
    }
  }

  /**
   * The resolver serves what it should: a readable file reached from a real
   * static root by plain names through real directories is answered with
   * 200 and its bytes.
   */
  lemma ServesFilesUnderRoot(fs: Fs, root: seq<string>, names: seq<string>, data: seq<byte>)
    requires ValidFs(fs) && IsDir(fs, root) && DirChain(fs, root)
    requires names != [] && forall i | 0 <= i < |names| :: ValidName(names[i])
    requires forall k | 1 <= k < |names| :: IsDir(fs, root + names[..k]) && root + names[..k] != []
    requires root + names in fs.nodes && fs.nodes[root + names] == File(data, true)
    ensures ServeStaticFile(fs, "/" + Join(root, "/"), Join(names, "/")) ==
      Response(200, FileHeaders(ContentType(Extension(root + names))), data)
  {
    var staticDir, path, full := "/" + Join(root, "/"), Join(names, "/"), root + names;
    NamesOfRealPath(fs, root);
    ParseAbsolute(root);
    ParseRelative(names);
    CanonicalIsFixpoint(fs, root);
    DirChainConcat(fs, root, names);
    CanonicalIsFixpoint(fs, full);
    assert Requested(staticDir, path) == RawPath(true, full);
    assert full[..|root|] == root;
    ServesReadableFile(fs, staticDir, path, root, full, data);
  }

  /** Once both paths are canonical, a readable file under the root is served. */
  lemma ServesReadableFile(fs: Fs, staticDir: string, path: string, root: seq<string>, full: seq<string>, data: seq<byte>)
    requires Canonicalize(fs, Requested(staticDir, path)) == Some(full)
    requires Canonicalize(fs, ParsePath(staticDir)) == Some(root)
    requires Under(root, full) && full != [] && full in fs.nodes && fs.nodes[full] == File(data, true)
    ensures ServeStaticFile(fs, staticDir, path) == Response(200, FileHeaders(ContentType(Extension(full))), data)
  {
  }

  /** A leading slash adds no segment. */
  lemma SegmentsAfterSlash(s: string)
    ensures Segments("/" + s) == Segments(s)
  {
    var t := "/" + s;
    assert IndexOfChar(t, '/') == Some(0);
    assert t[1..] == s;
  }

  /** A name followed by a slash is the first segment. */
  lemma SegmentsCons(first: string, rest: string)
    requires first != [] && '/' !in first
    ensures Segments(first + "/" + rest) == [first] + Segments(rest)
  {
    var t := first + "/" + rest;
    assert t[|first|] == '/';
    assert t[..|first|] == first;
    assert IndexOfChar(t, '/') == Some(|first|);
    assert t[|first| + 1..] == rest;
  }

  /** Splitting slash-joined names at slashes gives the names back. */
  lemma {:induction false} SegmentsOfJoin(names: seq<string>)
    requires forall i | 0 <= i < |names| :: names[i] != [] && '/' !in names[i]
    ensures Segments(Join(names, "/")) == names
    decreases |names|
  {
    if |names| == 1 {
      assert Join(names, "/") == names[0];
      assert IndexOfChar(names[0], '/').None?;
    } else if |names| > 1 {
      JoinCons(names[0], names[1..], "/");
      assert names == [names[0]] + names[1..];
      SegmentsCons(names[0], Join(names[1..], "/"));
      SegmentsOfJoin(names[1..]);
    }
  }

  /** A slash-joined list of names ends with the last name's last character. */
  lemma JoinEndsWithLast(names: seq<string>)
    requires names != [] && names[|names| - 1] != []
    ensures var j := Join(names, "/"); j != [] && j[|j| - 1] == names[|names| - 1][|names[|names| - 1]| - 1]
  {
    if |names| > 1 {
      var front := names[..|names| - 1];
      assert names == front + [names[|names| - 1]];
      JoinSnoc(front, names[|names| - 1], "/");
    }
  }

  /** A slash-joined list of names starts with the first name's first character. */
  lemma JoinStartsWithFirst(names: seq<string>)
    requires names != [] && names[0] != []
    ensures Join(names, "/") != [] && Join(names, "/")[0] == names[0][0]
  {
    if |names| > 1 {
      JoinCons(names[0], names[1..], "/");
      assert names == [names[0]] + names[1..];
    }
  }

  // ---------------------------------------------------------------------
  // Paths that name nothing servable
  // ---------------------------------------------------------------------

  /**
   * A requested path ending in a slash names a directory, so it is never
   * served as a file: a file followed by a slash does not canonicalise, and
   * a directory is refused.
   */
  lemma TrailingSlashIsNotServed(fs: Fs, staticDir: string, path: string)
    requires ValidFs(fs) && TrailingSlash(path)
    ensures ServeStaticFile(fs, staticDir, path).status != 200
  {
    var q := ParsePath(path);
    var p := Requested(staticDir, path);
    assert q.parts != [] && q.parts[|q.parts| - 1] == ".";
    assert p.parts[|p.parts| - 1] == "." by {
      if !q.absolute {
        var b := ParsePath(staticDir).parts;
        assert p.parts == b + q.parts;
        assert (b + q.parts)[|b + q.parts| - 1] == q.parts[|q.parts| - 1];
      }
    }
    CanonicalIsReal(fs, p);
  }

  /**
   * An empty static directory does not canonicalise, so nothing is served:
   * every request is 404 or, once the joined path resolves from the working
   * directory, 500.
   */
  lemma EmptyStaticDirServesNothing(fs: Fs, path: string)
    ensures var r := ServeStaticFile(fs, "", path);
      (r.status == 404 || r.status == 500)
      && (r.status == 500 <==> Canonicalize(fs, Requested("", path)).Some?)
  {
    assert ParsePath("") == RawPath(false, []);
  }

  /**
   * Whatever the method and path, a 200 from the router is the health check
   * or the bytes (none for HEAD) of a readable file whose real path lies under
   * the real static root.
   */
  lemma RouterServesOnlyUnderRoot(fs: Fs, staticDir: string, verb: string, urlPath: string)
    requires ValidFs(fs)
    ensures var r := Dispatch(fs, staticDir, verb, urlPath);
      r.status == 200 && urlPath != "/health" ==>
        (verb == "GET" || verb == "HEAD") && Routed(urlPath) &&
        var path := if urlPath == "/" then "index.html" else urlPath[1..];
        var full := Canonicalize(fs, Requested(staticDir, path));
        var root := Canonicalize(fs, ParsePath(staticDir));
        full.Some? && root.Some? && Under(root.value, full.value) && full.value in fs.nodes
        && fs.nodes[full.value].File? && fs.nodes[full.value].readable
        && r.body == (if verb == "GET" then fs.nodes[full.value].data else [])
  {
    if Routed(urlPath) && urlPath != "/health" && (verb == "GET" || verb == "HEAD") {
      var path := if urlPath == "/" then "index.html" else urlPath[1..];
      ServedFileIsUnderRoot(fs, staticDir, path);
    }
  }
}

=== FILE: swift_http.dfy ===
/**
 * The Swift chat server's HTTP layer: requests and responses, the byte
 * form of a response, the chat room with its 100-message cap, the router
 * keyed by "METHOD:PATH", and the parsing of a raw request text.
 *
 * JSON encoding and decoding, the static page, fresh message ids and the
 * clock come from outside; they are the fields of `Env`.
 */
module SwiftHttp {
  import opened Common
  import opened Text
  import opened Http1

  // ---------------------------------------------------------------------
  // Requests and responses
  // ---------------------------------------------------------------------

  /** `HttpRequest`; the body is kept as the text it was encoded from. */
  datatype HttpRequest = HttpRequest(verb: string, path: string, headers: map<string, string>, body: Option<string>)

  /** `HttpResponse`. */
  datatype HttpResponse = HttpResponse(statusCode: int, headers: map<string, string>, body: Option<seq<byte>>)

  /** `ok(html:)`. */
  function OkHtml(html: string): (r: HttpResponse)
    ensures r.statusCode == 200 && r.body == Some(Utf8(html))
    ensures r.headers == map["Content-Type" := "text/html; charset=utf-8"]
  {
    HttpResponse(200, map["Content-Type" := "text/html; charset=utf-8"], Some(Utf8(html)))
  }

  /** `ok(json:)`, given what the serializer produced (nothing when it threw). */
  function OkJson(encoded: Option<seq<byte>>): (r: HttpResponse)
    ensures r.statusCode == 200 && r.body == encoded
    ensures r.headers == map["Content-Type" := "application/json"]
  {
    HttpResponse(200, map["Content-Type" := "application/json"], encoded)
  }

  /** "Not Found" in UTF-8. */
  const NotFoundBody: seq<byte> := [0x4E, 0x6F, 0x74, 0x20, 0x46, 0x6F, 0x75, 0x6E, 0x64]

  /** "Bad Request" in UTF-8. */
  const BadRequestBody: seq<byte> := [0x42, 0x61, 0x64, 0x20, 0x52, 0x65, 0x71, 0x75, 0x65, 0x73, 0x74]

  /** The fixed bodies are the UTF-8 encodings of their texts. */
  lemma NotFoundBodyIsText()
    ensures Utf8("Not Found") == NotFoundBody
  {
    AsciiBytes("Not Found", NotFoundBody);
  }

  lemma BadRequestBodyIsText()
    ensures Utf8("Bad Request") == BadRequestBody
  {
    AsciiBytes("Bad Request", BadRequestBody);
  }

  lemma AsciiBytes(s: string, bytes: seq<byte>)
    requires IsAscii(s)
    requires |s| == |bytes| && forall i | 0 <= i < |s| :: s[i] as int == bytes[i] as int
    ensures Utf8(s) == bytes
  {
    Utf8OfAscii(s);
  }

  /** `notFound()`: 404, no headers, body "Not Found". */
  function NotFound(): (r: HttpResponse)
    ensures r.statusCode == 404 && r.headers == map[] && r.body == Some(NotFoundBody)
  {
    HttpResponse(404, map[], Some(NotFoundBody))
  }

  /** `badRequest()`: 400, no headers, body "Bad Request". */
  function BadRequest(): (r: HttpResponse)
    ensures r.statusCode == 400 && r.headers == map[] && r.body == Some(BadRequestBody)
  {
    HttpResponse(400, map[], Some(BadRequestBody))
  }

  /** The advertised length: the body's byte count, or 0 without a body. */
  function BodyLength(body: Option<seq<byte>>): nat {
    match body
    case None => 0
    case Some(bytes) => |bytes|
  }

  /** The bytes sent after the head. */
  function BodyBytes(body: Option<seq<byte>>): (bytes: seq<byte>)
    ensures |bytes| == BodyLength(body)
  {
    match body
    case None => []
    case Some(b) => b
  }

  /**
   * `serialized`: the status line, `Content-Length`, `Connection: close`,
   * one line per header in the dictionary's walking order `order`, the
   * empty line, then the body bytes.
   */
  method Serialize(response: HttpResponse, order: seq<string>) returns (data: seq<byte>)
    requires Enumerates(order, response.headers)
    ensures data == Utf8(Head(response.statusCode, BodyLength(response.body), FieldLines(response.headers, order)))
                    + BodyBytes(response.body)
  {
    var output := WriteHead(response.statusCode, BodyLength(response.body), response.headers, order);
    data := Utf8(output);
    if response.body.Some? {
      data := data + response.body.value;
    }
  }

  // ---------------------------------------------------------------------
  // The chat room
  // ---------------------------------------------------------------------

  /** `ChatMessage`; the id and timestamp are supplied by the caller. */
  datatype ChatMessage = ChatMessage(id: string, username: string, content: string, timestamp: nat)

  /** The room keeps at most this many messages. */
  const MaxMessages: nat := 100

  /** `ChatRoom`. */
  class ChatRoom {
    var messages: seq<ChatMessage>

    /** The cap holds. */
    predicate Valid()
      reads this
    {
      |messages| <= MaxMessages
    }

    constructor()
      ensures messages == [] && Valid()
    {
      messages := [];
    }

    /**
     * `addMessage`: append the new message, then drop the oldest ones so
     * that at most 100 remain; the new message is the last one kept.
     */
    method AddMessage(username: string, content: string, id: string, timestamp: nat) returns (message: ChatMessage)
      requires Valid()
      modifies this
      ensures Valid()
      ensures message == ChatMessage(id, username, content, timestamp)
      ensures messages == Newest(old(messages) + [message], MaxMessages)
      ensures |messages| >= 1 && messages[|messages| - 1] == message
    {
      message := ChatMessage(id, username, content, timestamp);
      var all := messages + [message];
      if |all| > MaxMessages {
        messages := all[|all| - MaxMessages..];
      } else {
        messages := all;
      }
      assert messages == Newest(all, MaxMessages);
    }

    /**
     * `getMessages(limit:)` as written: all messages without a limit, the
     * newest `limit` in order otherwise, and a trap for a negative limit.
     */
    function GetMessagesAsWritten(limit: Option<int>): (r: Option<seq<ChatMessage>>)
      reads this
      ensures r.None? <==> limit.Some? && limit.value < 0
    {
      match limit
      case None => Some(messages)
      case Some(n) => Suffix(messages, n)
    }

    /** `getMessages(limit:)` with a negative limit taken as 0. */
    function GetMessages(limit: Option<int>): (r: seq<ChatMessage>)
      reads this
      ensures limit.None? ==> r == messages
      ensures limit.Some? ==> |r| == Min(Max(limit.value, 0), |messages|)
      ensures r == messages[|messages| - |r|..]
    {
      match limit
      case None => messages
      case Some(n) => Newest(messages, Max(n, 0))
    }
  }

  function Min(a: int, b: int): int {
    if a <= b then a else b
  }

  function Max(a: int, b: int): int {
    if a >= b then a else b
  }

  /** Where the written version does not trap, the corrected one gives the same messages. */
  lemma GetMessagesAgrees(room: ChatRoom, limit: Option<int>)
    requires limit.None? || limit.value >= 0
    ensures room.GetMessagesAsWritten(limit) == Some(room.GetMessages(limit))
  {
  }

  /** Adding to a room below the cap keeps every earlier message. */
  lemma AddBelowCapKeepsAll(before: seq<ChatMessage>, message: ChatMessage)
    requires |before| < MaxMessages
    ensures Newest(before + [message], MaxMessages) == before + [message]
  {
  }

  /** Adding to a full room drops exactly the oldest message. */
  lemma AddToFullRoomDropsOldest(before: seq<ChatMessage>, message: ChatMessage)
    requires |before| == MaxMessages
    ensures Newest(before + [message], MaxMessages) == before[1..] + [message]
  {
    var all := before + [message];
    assert all[|all| - MaxMessages..] == before[1..] + [message];
  }

  // ---------------------------------------------------------------------
  // The router
  // ---------------------------------------------------------------------

  /** The closures stored in the route table. */
  datatype Handler = Index | Status | ListMessages | PostMessage

  /** The dictionary key of a request: "METHOD:PATH". */
  function RouteKey(verb: string, path: string): string {
    verb + ":" + path
  }

  /** The table `setupRoutes` fills ("GET:/", "GET:/chat", ...), as a lookup by key. */
  function RouteOf(key: string): Option<Handler> {
    if key == RouteKey("GET", "/") || key == RouteKey("GET", "/chat") then Some(Index)
    else if key == RouteKey("GET", "/api/status") then Some(Status)
    else if key == RouteKey("GET", "/api/messages") then Some(ListMessages)
    else if key == RouteKey("POST", "/api/messages") then Some(PostMessage)
    else None
  }

  /**
   * What the handlers take from outside: the chat page, the JSON encodings
   * (`None` where `JSONSerialization` throws), the decoding of a posted body
   * into its `username` and `content` strings, and the id and clock reading
   * a new message receives.
   */
  datatype Env = Env(
    chatHtml: string,
    statusJson: Option<seq<byte>>,
    encodeMessages: seq<ChatMessage> -> Option<seq<byte>>,
    decodePost: string -> Option<(string, string)>,
    encodeAck: string -> Option<seq<byte>>,
    newId: string,
    now: nat)

  /** The limit of `GET /api/messages`: `X-Limit` read by `Int(_:)`, else 50. */
  function Limit(headers: map<string, string>): (n: int)
    ensures "X-Limit" !in headers ==> n == 50
    ensures "X-Limit" in headers && ParseSwiftInt(headers["X-Limit"]).Some? ==>
      n == ParseSwiftInt(headers["X-Limit"]).value
    ensures "X-Limit" in headers && ParseSwiftInt(headers["X-Limit"]).None? ==> n == 50
  {
    if "X-Limit" in headers && ParseSwiftInt(headers["X-Limit"]).Some? then ParseSwiftInt(headers["X-Limit"]).value
    else 50
  }

  /** `handleGetMessages` as written: `None` is the trap of `suffix` on a negative limit. */
  function ListedAsWritten(messages: seq<ChatMessage>, request: HttpRequest, env: Env): (r: Option<HttpResponse>)
    ensures r.None? <==> Limit(request.headers) < 0
  {
    match Suffix(messages, Limit(request.headers))
    case None => None
    case Some(listed) => Some(OkJson(env.encodeMessages(listed)))
  }

  /** `handleGetMessages` with a negative limit listing nothing. */
  function Listed(messages: seq<ChatMessage>, request: HttpRequest, env: Env): (r: HttpResponse)
    ensures r.statusCode == 200
    ensures r.body == env.encodeMessages(Newest(messages, Max(Limit(request.headers), 0)))
  {
    OkJson(env.encodeMessages(Newest(messages, Max(Limit(request.headers), 0))))
  }

  /** The `username` and `content` of a posted body, when it has both as strings. */
  function Posted(request: HttpRequest, env: Env): Option<(string, string)> {
    if request.body.None? then None else env.decodePost(request.body.value)
  }

  /** The message a successful post adds. */
  function NewMessage(fields: (string, string), env: Env): ChatMessage {
    ChatMessage(env.newId, fields.0, fields.1, env.now)
  }

  /** The answer `route` gives, over the messages before the call. */
  function Respond(messages: seq<ChatMessage>, request: HttpRequest, env: Env): (r: HttpResponse)
    ensures RouteOf(RouteKey(request.verb, request.path)).None? ==> r == NotFound()
  {
    Handle(RouteOf(RouteKey(request.verb, request.path)), messages, request, env)
  }

  /** What the looked-up closure answers; no closure means 404. */
  function Handle(handler: Option<Handler>, messages: seq<ChatMessage>, request: HttpRequest, env: Env): (r: HttpResponse)
    ensures r.statusCode == 404 <==> handler.None?
    ensures r.statusCode == 400 <==> handler == Some(PostMessage) && Posted(request, env).None?
    ensures r.statusCode == 200 <==> handler.Some? && !(handler == Some(PostMessage) && Posted(request, env).None?)
  {
    match handler
    case None => NotFound()
    case Some(Index) => OkHtml(env.chatHtml)
    case Some(Status) => OkJson(env.statusJson)
    case Some(ListMessages) => Listed(messages, request, env)
    case Some(PostMessage) =>
      match Posted(request, env)
      case None => BadRequest()
      case Some(_) => OkJson(env.encodeAck(env.newId))
  }

  /** The messages after `route`: only a well-formed post changes them. */
  function RespondedMessages(messages: seq<ChatMessage>, request: HttpRequest, env: Env): (r: seq<ChatMessage>)
    ensures |messages| <= MaxMessages ==> |r| <= MaxMessages
  {
    var key := RouteKey(request.verb, request.path);
    if RouteOf(key) == Some(PostMessage) && Posted(request, env).Some? then
      Newest(messages + [NewMessage(Posted(request, env).value, env)], MaxMessages)
    else messages
  }

  /** `Router`: the route table and the chat room its handlers share. */
  class Router {
    const chatRoom: ChatRoom

    constructor()
      ensures fresh(chatRoom) && chatRoom.messages == [] && chatRoom.Valid()
    {
      chatRoom := new ChatRoom();
    }

    /** `route(request:)`: look the key up, run its handler, 404 when absent. */
    method Route(request: HttpRequest, env: Env) returns (response: HttpResponse)
      requires chatRoom.Valid()
      modifies chatRoom
      ensures chatRoom.Valid()
      ensures response == Respond(old(chatRoom.messages), request, env)
      ensures chatRoom.messages == RespondedMessages(old(chatRoom.messages), request, env)
    {
      var handler := RouteOf(RouteKey(request.verb, request.path));
      if handler.None? {
        return NotFound();
      }
      match handler.value
      case Index =>
        response := OkHtml(env.chatHtml);
      case Status =>
        response := OkJson(env.statusJson);
      case ListMessages =>
        var listed := chatRoom.GetMessages(Some(Limit(request.headers)));
        response := OkJson(env.encodeMessages(listed));
      case PostMessage =>
        response := HandlePostMessage(request, env);
    }

    /** `handlePostMessage`: 400 unless the body carries both strings; else add and acknowledge. */
    method HandlePostMessage(request: HttpRequest, env: Env) returns (response: HttpResponse)
      requires chatRoom.Valid()
      modifies chatRoom
      ensures chatRoom.Valid()
      ensures Posted(request, env).None? ==>
        response == BadRequest() && chatRoom.messages == old(chatRoom.messages)
      ensures Posted(request, env).Some? ==>
        response == OkJson(env.encodeAck(env.newId))
        && chatRoom.messages == Newest(old(chatRoom.messages) + [NewMessage(Posted(request, env).value, env)], MaxMessages)
    {
      var fields := Posted(request, env);
      if fields.None? {
        return BadRequest();
      }
      var message := chatRoom.AddMessage(fields.value.0, fields.value.1, env.newId, env.now);
      response := OkJson(env.encodeAck(message.id));
    }
  }

  /** In "METHOD:PATH" with a method free of ':', the first ':' ends the method. */
  lemma FirstColonOfKey(verb: string, path: string)
    requires ':' !in verb
    ensures IndexOfChar(RouteKey(verb, path), ':') == Some(|verb|)
  {
    var key := RouteKey(verb, path);
    forall j | 0 <= j < |verb| ensures key[j] != ':' {
      assert key[j] == verb[j];
    }
    IndexOfCharAt(key, ':', |verb|);
  }

  /** A method without ':' is read back from the key, so distinct requests get distinct keys. */
  lemma RouteKeyInjective(verb: string, path: string, verb': string, path': string)
    requires ':' !in verb && ':' !in verb'
    ensures RouteKey(verb, path) == RouteKey(verb', path') <==> verb == verb' && path == path'
  {
    var k := RouteKey(verb, path);
    var k' := RouteKey(verb', path');
    if k == k' {
      FirstColonOfKey(verb, path);
      FirstColonOfKey(verb', path');
      assert |verb| == |verb'|;
      assert verb == k[..|verb|] == verb';
      assert path == k[|verb| + 1..] == path';
    }
  }

  /**
   * A method holding ':' (the request line is split on spaces only, so
   * "GET:/x" is a method) puts a second ':' into its key, while every key of
   * the table holds exactly one: such a request is never routed.
   */
  lemma ColonInMethodIsNotRouted(verb: string, path: string)
    requires ':' in verb
    ensures RouteOf(RouteKey(verb, path)).None?
  {
    var i :| 0 <= i < |verb| && verb[i] == ':';
    var key := RouteKey(verb, path);
    assert key[i] == ':' && key[|verb|] == ':' && i < |verb|;
  }

  /** Exactly five (method, path) pairs reach a handler; everything else is 404. */
  lemma RouteTable(verb: string, path: string)
    ensures RouteOf(RouteKey(verb, path)).Some? <==>
      (verb == "GET" && (path == "/" || path == "/chat" || path == "/api/status" || path == "/api/messages"))
      || (verb == "POST" && path == "/api/messages")
    ensures RouteOf(RouteKey(verb, path)) == Some(PostMessage) <==> verb == "POST" && path == "/api/messages"
  {
    if ':' in verb {
      ColonInMethodIsNotRouted(verb, path);
    } else {
      RouteKeyInjective(verb, path, "GET", "/");
      RouteKeyInjective(verb, path, "GET", "/chat");
      RouteKeyInjective(verb, path, "GET", "/api/status");
      RouteKeyInjective(verb, path, "GET", "/api/messages");
      RouteKeyInjective(verb, path, "POST", "/api/messages");
    }
  }

  /** Every answer carries at most the one header `Content-Type`. */
  predicate StandardHeaders(h: map<string, string>) {
    forall k | k in h :: k == "Content-Type"
  }

  lemma RespondHeaders(messages: seq<ChatMessage>, request: HttpRequest, env: Env)
    ensures StandardHeaders(Respond(messages, request, env).headers)
  {
    HandleHeaders(RouteOf(RouteKey(request.verb, request.path)), messages, request, env);
  }

  lemma HandleHeaders(handler: Option<Handler>, messages: seq<ChatMessage>, request: HttpRequest, env: Env)
    ensures StandardHeaders(Handle(handler, messages, request, env).headers)
  {
    match handler
    case None =>
    case Some(Index) =>
    case Some(Status) =>
    case Some(ListMessages) =>
    case Some(PostMessage) =>
      if Posted(request, env).None? {
        assert Handle(handler, messages, request, env) == BadRequest();
      }
  }

  /** Only `POST /api/messages` with a well-formed body changes the room, and then it adds one message last. */
  lemma OnlyPostsChangeTheRoom(messages: seq<ChatMessage>, request: HttpRequest, env: Env)
    requires |messages| <= MaxMessages
    ensures RespondedMessages(messages, request, env) != messages ==>
      request.verb == "POST" && request.path == "/api/messages" && Posted(request, env).Some?
    ensures request.verb == "POST" && request.path == "/api/messages" && Posted(request, env).Some? ==>
      var after := RespondedMessages(messages, request, env);
      |after| == Min(|messages| + 1, MaxMessages) && after[|after| - 1] == NewMessage(Posted(request, env).value, env)
      && Respond(messages, request, env) == OkJson(env.encodeAck(env.newId))
  {
    RouteTable(request.verb, request.path);
    if request.verb == "POST" && request.path == "/api/messages" && Posted(request, env).Some? {
      var handler := RouteOf(RouteKey(request.verb, request.path));
      assert handler == Some(PostMessage);
      assert Respond(messages, request, env) == Handle(handler, messages, request, env);
      var all := messages + [NewMessage(Posted(request, env).value, env)];
      var after := Newest(all, MaxMessages);
      assert after == all[|all| - |after|..];
      assert after[|after| - 1] == all[|all| - 1];
    }
  }

  /** A post lacking `username` or `content` is answered 400 and the room is untouched. */
  lemma MalformedPostIsBadRequest(messages: seq<ChatMessage>, request: HttpRequest, env: Env)
    requires request.verb == "POST" && request.path == "/api/messages" && Posted(request, env).None?
    ensures Respond(messages, request, env) == BadRequest()
    ensures RespondedMessages(messages, request, env) == messages
  {
    var handler := RouteOf(RouteKey(request.verb, request.path));
    assert handler == Some(PostMessage);
    assert Respond(messages, request, env) == Handle(handler, messages, request, env);
  }

  /** `GET /api/messages` lists the newest `X-Limit` messages, 50 without the header. */
  lemma ListingHonoursTheLimit(messages: seq<ChatMessage>, request: HttpRequest, env: Env)
    requires request.verb == "GET" && request.path == "/api/messages"
    ensures var n := Min(Max(Limit(request.headers), 0), |messages|);
      Respond(messages, request, env) == OkJson(env.encodeMessages(messages[|messages| - n..]))
      && RespondedMessages(messages, request, env) == messages
    ensures "X-Limit" !in request.headers ==>
      Respond(messages, request, env) == OkJson(env.encodeMessages(Newest(messages, 50)))
  {
    var handler := RouteOf(RouteKey(request.verb, request.path));
    assert handler == Some(ListMessages);
    assert Respond(messages, request, env) == Listed(messages, request, env);
    var listed := Newest(messages, Max(Limit(request.headers), 0));
    assert listed == messages[|messages| - Min(Max(Limit(request.headers), 0), |messages|)..];
  }

  /**
   * As written, an `X-Limit` of "-1" reaches `suffix` with a negative
   * length, which traps and takes the whole server down.
   */
  lemma NegativeLimitTrapsAsWritten(messages: seq<ChatMessage>, request: HttpRequest, env: Env)
    requires request.headers == map["X-Limit" := "-1"]
    ensures ListedAsWritten(messages, request, env).None?
  {
    assert ParseSwiftInt("-1") == Some(-1) by {
      assert "-1"[1..] == "1";
      assert DigitsValue("1") == 1;
    }
  }

  /** Where the written handler does not trap, the corrected one answers the same. */
  lemma ListedAgrees(messages: seq<ChatMessage>, request: HttpRequest, env: Env)
    requires Limit(request.headers) >= 0
    ensures ListedAsWritten(messages, request, env) == Some(Listed(messages, request, env))
  {
  }

  /** The corrected handler answers a negative limit with the empty list. */
  lemma NegativeLimitListsNothing(messages: seq<ChatMessage>, request: HttpRequest, env: Env)
    requires Limit(request.headers) < 0
    ensures Listed(messages, request, env) == OkJson(env.encodeMessages([]))
  {
  }

  // ---------------------------------------------------------------------
  // Reading a request
  // ---------------------------------------------------------------------

  /** `prefix(while: { !$0.isEmpty })`: the lines up to the first empty one. */
  function HeaderBlock(lines: seq<string>): (block: seq<string>)
    ensures block <= lines
    ensures forall i | 0 <= i < |block| :: block[i] != []
    ensures |block| < |lines| ==> lines[|block|] == []
  {
    if lines == [] || lines[0] == [] then [] else [lines[0]] + HeaderBlock(lines[1..])
  }

  /** The path of a request target: the first non-empty piece between '?'s, or the target itself. */
  function PathOf(target: string): (path: string)
    ensures '?' !in target ==> path == target
    ensures target != [] ==> path != []
  {
    match FirstPiece(target, '?')
    case Some(p) => p
    case None => target
  }

  /** Everything after the first empty line, if there is one. */
  function BodyOf(text: string): (body: Option<string>)
    ensures body.None? <==> !Contains(text, CRLF + CRLF)
    ensures body.Some? ==> exists i: nat | i + 4 <= |text| ::
      OccursAt(text, CRLF + CRLF, i) && (forall j: nat | j < i :: !OccursAt(text, CRLF + CRLF, j))
      && body.value == text[i + 4..]
  {
    match IndexOf(text, CRLF + CRLF)
    case None => None
    case Some(i) => Some(text[i + 4..])
  }

  /**
   * The parsing part of `processRequest`: `None` when the request line has
   * fewer than two space-separated parts (no answer is sent).
   */
  function ParseRequest(text: string): (r: Option<HttpRequest>)
    ensures r.Some? ==> r.value.verb != [] && ' ' !in r.value.verb && r.value.path != []
    ensures r.Some? ==> (r.value.body.Some? <==> Contains(text, CRLF + CRLF))
  {
    var lines := Components(text, CRLF);
    var parts := SplitOmittingEmpty(lines[0], ' ', 2);
    if |parts| < 2 then None
    else Some(HttpRequest(parts[0], PathOf(parts[1]), FoldFields(HeaderBlock(lines[1..]), SwiftWhitespaces), BodyOf(text)))
  }

  /** `processRequest` up to the routing. */
  method ReadRequest(text: string) returns (request: Option<HttpRequest>)
    ensures request == ParseRequest(text)
  {
    var lines := Components(text, CRLF);
    var parts := SplitOmittingEmpty(lines[0], ' ', 2);
    if |parts| < 2 {
      return None;
    }
    var headers := ReadHeaders(HeaderBlock(lines[1..]));
    request := Some(HttpRequest(parts[0], PathOf(parts[1]), headers, BodyOf(text)));
  }

  /** The header loop of `processRequest`: each line with a ':' sets its trimmed name to its trimmed value. */
  method ReadHeaders(block: seq<string>) returns (headers: map<string, string>)
    ensures headers == FoldFields(block, SwiftWhitespaces)
  {
    headers := map[];
    var i := 0;
    while i < |block|
      invariant 0 <= i <= |block|
      invariant headers == FoldFields(block[..i], SwiftWhitespaces)
    {
      var line := block[i];
      FoldFieldsStep(block, i, SwiftWhitespaces);
      var colon := IndexOfChar(line, ':');
      if colon.Some? {
        var key := Trim(line[..colon.value], SwiftWhitespaces);
        var value := Trim(line[colon.value + 1..], SwiftWhitespaces);
        assert SplitField(line, SwiftWhitespaces) == Some((key, value));
        headers := headers[key := value];
      }
      i := i + 1;
    }
    assert block[..i] == block;
  }

  /**
   * The bytes `processRequest` sends for a response whose only header can
   * be `Content-Type` (as every handler's is): such a dictionary has one
   * walking order.
   */
  function Wire(response: HttpResponse): seq<byte> {
    var order := HeaderOrder(response.headers);
    Utf8(Head(response.statusCode, BodyLength(response.body), FieldLines(response.headers, order)))
      + BodyBytes(response.body)
  }

  /** The walking order of a dictionary with at most the key `Content-Type`. */
  function HeaderOrder(h: map<string, string>): seq<string> {
    if "Content-Type" in h then ["Content-Type"] else []
  }

  lemma HeaderOrderEnumerates(h: map<string, string>)
    requires StandardHeaders(h)
    ensures Enumerates(HeaderOrder(h), h)
  {
  }

  /** `HttpServer`: its router; the listener and the connections are not modelled. */
  class Server {
    const port: U16
    const router: Router

    constructor(port: U16)
      ensures this.port == port && fresh(router) && fresh(router.chatRoom)
      ensures router.chatRoom.messages == [] && router.chatRoom.Valid()
    {
      this.port := port;
      router := new Router();
    }

    /**
     * `processRequest`: text that is not UTF-8 (`None`) or a request line
     * with fewer than two parts gets no answer; otherwise the request is
     * routed and the serialized answer sent.
     */
    method ProcessRequest(decoded: Option<string>, env: Env) returns (sent: Option<seq<byte>>)
      requires router.chatRoom.Valid()
      modifies router.chatRoom
      ensures router.chatRoom.Valid()
      ensures decoded.None? || ParseRequest(decoded.value).None? ==>
        sent == None && router.chatRoom.messages == old(router.chatRoom.messages)
      ensures decoded.Some? && ParseRequest(decoded.value).Some? ==>
        var request := ParseRequest(decoded.value).value;
        sent == Some(Wire(Respond(old(router.chatRoom.messages), request, env)))
        && router.chatRoom.messages == RespondedMessages(old(router.chatRoom.messages), request, env)
    {
      if decoded.None? {
        return None;
      }
      var request := ReadRequest(decoded.value);
      if request.None? {
        return None;
      }
      var response := router.Route(request.value, env);
      RespondHeaders(old(router.chatRoom.messages), request.value, env);
      HeaderOrderEnumerates(response.headers);
      var data := Serialize(response, HeaderOrder(response.headers));
      sent := Some(data);
    }
  }

  // ---------------------------------------------------------------------
  // Reading back what a client writes
  // ---------------------------------------------------------------------

  /** The text of a request: request line, field lines, the empty line, the body. */
  function RequestText(verb: string, target: string, h: map<string, string>, order: seq<string>, body: string): string
    requires forall k | k in order :: k in h
  {
    Join([RequestLine(verb, target)] + FieldLines(h, order), CRLF) + CRLF + CRLF + body
  }

  function RequestLine(verb: string, target: string): string {
    verb + " " + target + " " + "HTTP/1.1"
  }

  /** A token: non-empty, without spaces or line breaks. */
  predicate Token(s: string) {
    s != [] && ' ' !in s && '\r' !in s && '\n' !in s
  }

  /** The request line splits into method, target and version. */
  lemma RequestLineParts(verb: string, target: string)
    requires Token(verb) && Token(target)
    ensures SplitOmittingEmpty(RequestLine(verb, target), ' ', 2) == [verb, target, "HTTP/1.1"]
  {
    ThreeParts(verb, target, "HTTP/1.1");
  }

  /** "a b c" with two tokens in front splits into its three parts, whatever `c` holds. */
  lemma ThreeParts(a: string, b: string, c: string)
    requires Token(a) && Token(b) && c != []
    ensures SplitOmittingEmpty(a + " " + b + " " + c, ' ', 2) == [a, b, c]
  {
    var rest := b + " " + c;
    assert a + " " + b + " " + c == a + " " + rest;
    SplitAtToken(a, rest, 2);
    SplitAtToken(b, c, 1);
  }

  /** Cutting "first rest" at the space after the token `first`. */
  lemma SplitAtToken(first: string, rest: string, maxSplits: nat)
    requires Token(first) && maxSplits >= 1
    ensures SplitOmittingEmpty(first + " " + rest, ' ', maxSplits) ==
      if maxSplits == 1 then [first] + (if rest == [] then [] else [rest])
      else [first] + SplitOmittingEmpty(rest, ' ', maxSplits - 1)
  {
    var s := first + " " + rest;
    forall j | 0 <= j < |first| ensures s[j] != ' ' {
      assert s[j] == first[j];
    }
    IndexOfCharAt(s, ' ', |first|);
    assert s[..|first|] == first;
    assert s[|first| + 1..] == rest;
  }

  /**
   * What a client writes is what the server reads: the method, the path of
   * the target, every header (when names and values are trimmed single
   * lines) and the body after the empty line.
   */
  lemma RequestReadsBack(verb: string, target: string, h: map<string, string>, order: seq<string>, body: string)
    requires Token(verb) && Token(target)
    requires Enumerates(order, h) && WellFormedFields(h, SwiftWhitespaces)
    ensures ParseRequest(RequestText(verb, target, h, order, body))
         == Some(HttpRequest(verb, PathOf(target), h, Some(body)))
  {
    var text := RequestText(verb, target, h, order, body);
    var comps := Components(text, CRLF);
    RequestPiecesReadBack(verb, target, h, order, body);
    var parts := SplitOmittingEmpty(comps[0], ' ', 2);
    assert parts[0] == verb && parts[1] == target;
  }

  /** The request line, the header block and the body of a request text. */
  lemma RequestPiecesReadBack(verb: string, target: string, h: map<string, string>, order: seq<string>, body: string)
    requires Token(verb) && Token(target)
    requires Enumerates(order, h) && WellFormedFields(h, SwiftWhitespaces)
    ensures var text := RequestText(verb, target, h, order, body);
      var comps := Components(text, CRLF);
      SplitOmittingEmpty(comps[0], ' ', 2) == [verb, target, "HTTP/1.1"]
      && FoldFields(HeaderBlock(comps[1..]), SwiftWhitespaces) == h
      && BodyOf(text) == Some(body)
  {
    var text := RequestText(verb, target, h, order, body);
    RequestTextComponents(verb, target, h, order, body);
    RequestLineParts(verb, target);
    HeadersReadBack(h, order, Components(text, CRLF), RequestLine(verb, target), Components(body, CRLF));
  }

  lemma HeadersReadBack(h: map<string, string>, order: seq<string>, comps: seq<string>, first: string, rest: seq<string>)
    requires Enumerates(order, h) && WellFormedFields(h, SwiftWhitespaces)
    requires comps == [first] + FieldLines(h, order) + [""] + rest
    ensures FoldFields(HeaderBlock(comps[1..]), SwiftWhitespaces) == h
  {
    var fields := FieldLines(h, order);
    assert comps[1..] == fields + [""] + rest;
    FieldLinesAreNotEmpty(h, order);
    HeaderBlockOfFields(fields, rest);
    FieldLinesRoundTrip(h, order, SwiftWhitespaces);
  }

  lemma FieldLinesAreNotEmpty(h: map<string, string>, order: seq<string>)
    requires forall k | k in order :: k in h
    ensures forall i | 0 <= i < |order| :: FieldLines(h, order)[i] != []
  {
    forall i | 0 <= i < |order| ensures FieldLines(h, order)[i] != [] {
      assert FieldLines(h, order)[i] == order[i] + ": " + h[order[i]];
    }
  }

  /** A request text cuts at CRLF into its lines, one empty line, and the pieces of the body. */
  lemma RequestTextComponents(verb: string, target: string, h: map<string, string>, order: seq<string>, body: string)
    requires Token(verb) && Token(target)
    requires Enumerates(order, h) && WellFormedFields(h, SwiftWhitespaces)
    ensures var text := RequestText(verb, target, h, order, body);
      Components(text, CRLF) == [RequestLine(verb, target)] + FieldLines(h, order) + [""] + Components(body, CRLF)
      && BodyOf(text) == Some(body)
  {
    var lines := [RequestLine(verb, target)] + FieldLines(h, order);
    RequestLinesAreSingle(verb, target, h, order);
    RequestComponents(lines, body);
  }

  /** Cutting a request text at CRLF, and finding its body after the empty line. */
  lemma RequestComponents(lines: seq<string>, body: string)
    requires |lines| >= 1 && SingleLines(lines) && forall i | 0 <= i < |lines| :: lines[i] != []
    ensures var text := Join(lines, CRLF) + CRLF + CRLF + body;
      Components(text, CRLF) == lines + [""] + Components(body, CRLF)
      && BodyOf(text) == Some(body)
  {
    var text := Join(lines, CRLF) + CRLF + CRLF + body;
    assert text == Join(lines, CRLF) + CRLF + (CRLF + body);
    ComponentsOfJoin(lines, CRLF + body);
    ComponentsCons("", CRLF, body);
    assert "" + CRLF + body == CRLF + body;
    BlankLineAfter(lines, body);
    assert text[|Join(lines, CRLF)| + 4..] == body;
  }

  /** The lines of a request text are non-empty and hold no line break. */
  lemma RequestLinesAreSingle(verb: string, target: string, h: map<string, string>, order: seq<string>)
    requires Token(verb) && Token(target)
    requires forall k | k in order :: k in h && WellFormedField(k, h[k], SwiftWhitespaces)
    ensures var lines := [RequestLine(verb, target)] + FieldLines(h, order);
      SingleLines(lines) && forall i | 0 <= i < |lines| :: lines[i] != []
  {
    FieldLinesAreSingle(h, order, SwiftWhitespaces);
    FieldLinesAreNotEmpty(h, order);
    RequestLineIsSingle(verb, target);
    ConsSingleLine(RequestLine(verb, target), FieldLines(h, order));
  }

  /** A non-empty single line in front of non-empty single lines. */
  lemma ConsSingleLine(first: string, rest: seq<string>)
    requires '\r' !in first && '\n' !in first && first != []
    requires SingleLines(rest) && forall j | 0 <= j < |rest| :: rest[j] != []
    ensures var lines := [first] + rest;
      SingleLines(lines) && forall i | 0 <= i < |lines| :: lines[i] != []
  {
    var lines := [first] + rest;
    forall i | 1 <= i < |lines| ensures '\r' !in lines[i] && '\n' !in lines[i] && lines[i] != [] {
      assert lines[i] == rest[i - 1];
    }
  }

  lemma RequestLineIsSingle(verb: string, target: string)
    requires Token(verb) && Token(target)
    ensures '\r' !in RequestLine(verb, target) && '\n' !in RequestLine(verb, target)
    ensures RequestLine(verb, target) != []
  {
    NoBreakConcat(verb, " ");
    NoBreakConcat(verb + " ", target);
    NoBreakConcat(verb + " " + target, " ");
    NoBreakConcat(verb + " " + target + " ", "HTTP/1.1");
  }

  /** Non-empty lines followed by an empty one form the header block. */
  lemma HeaderBlockOfFields(fields: seq<string>, rest: seq<string>)
    requires forall i | 0 <= i < |fields| :: fields[i] != []
    ensures HeaderBlock(fields + [""] + rest) == fields
  {
    var lines := fields + [""] + rest;
    var block := HeaderBlock(lines);
    assert lines[|fields|] == "";
    forall j | 0 <= j < |fields| ensures lines[j] == fields[j] != [] {
    }
    forall j | 0 <= j < |block| ensures lines[j] != [] {
      assert lines[j] == block[j];
    }
    assert |block| == |fields|;
    assert block == lines[..|block|] == fields;
  }

  /** The path of a target is the text before its first '?'. */
  lemma PathOfQuery(path: string, query: string)
    requires path != [] && '?' !in path
    ensures PathOf(path + "?" + query) == path
  {
    var target := path + "?" + query;
    forall j | 0 <= j < |path| ensures target[j] != '?' {
      assert target[j] == path[j];
    }
    IndexOfCharAt(target, '?', |path|);
    assert target[..|path|] == path;
  }

  /**
   * Empty pieces are skipped: a target that starts with '?' has as its
   * path the first non-empty piece after it.
   */
  lemma PathAfterLeadingQuestionMark()
    ensures PathOf("?a=1") == "a=1"
  {
    var target := "?a=1";
    IndexOfCharAt(target, '?', 0);
    assert target[1..] == "a=1";
    assert '?' !in "a=1";
    assert SplitOmittingEmpty(target, '?', |target| + 1) == SplitOmittingEmpty("a=1", '?', |target| + 1) == ["a=1"];
  }

  /** A first line without a space is not a request: no answer is sent. */
  lemma NoSpaceNoRequest(line: string, rest: string)
    requires ' ' !in line && '\r' !in line
    ensures ParseRequest(line + CRLF + rest).None?
  {
    ComponentsCons(line, CRLF, rest);
  }
}

=== FILE: text.dfy ===
/**
 * Text primitives the HTTP code relies on: UTF-8 encoding (what `Data` /
 * `as_bytes` produce), decimal formatting and parsing of integers (Swift
 * string interpolation and `Int(String)`, Rust `format!` and
 * `parse::<usize>()`), whitespace trimming (Swift `.whitespaces`, Rust
 * `char::is_whitespace`), and the splitting functions used to cut a request
 * into lines and words.
 */
module Text {
  import opened Common

  // ---------------------------------------------------------------------
  // UTF-8
  // ---------------------------------------------------------------------

  /** The UTF-8 encoding of one Unicode scalar value. */
  function EncodeChar(c: char): (r: seq<byte>)
    ensures 1 <= |r| <= 4
    ensures |r| == 1 <==> c as int < 0x80
    ensures |r| == 1 ==> r[0] as int == c as int
    // bytes of a multi-byte sequence never look like ASCII, so ASCII
    // delimiters (CR, LF, ':') are never produced by another character
    ensures |r| > 1 ==> forall i | 0 <= i < |r| :: r[i] >= 0x80
  {
    var cp := c as int;
    if cp < 0x80 then
      [cp as byte]
    else if cp < 0x800 then
      [(0xC0 + cp / 0x40) as byte, (0x80 + cp % 0x40) as byte]
    else if cp < 0x1_0000 then
      [(0xE0 + cp / 0x1000) as byte, (0x80 + cp / 0x40 % 0x40) as byte, (0x80 + cp % 0x40) as byte]
    else
      [(0xF0 + cp / 0x4_0000) as byte, (0x80 + cp / 0x1000 % 0x40) as byte,
       (0x80 + cp / 0x40 % 0x40) as byte, (0x80 + cp % 0x40) as byte]
  }

  /** The UTF-8 encoding of a string. */
  function Utf8(s: string): (r: seq<byte>)
    ensures |r| >= |s|
  {
    if s == [] then [] else EncodeChar(s[0]) + Utf8(s[1..])
  }

  predicate IsAscii(s: string) {
    forall i | 0 <= i < |s| :: s[i] as int < 0x80
  }

  /** Encoding distributes over concatenation. */
  lemma {:induction false} Utf8Concat(a: string, b: string)
    ensures Utf8(a + b) == Utf8(a) + Utf8(b)
  {
    if a == [] {
      assert a + b == b;
    } else {
      var c := a + b;
      assert c[0] == a[0];
      assert c[1..] == a[1..] + b;
      assert Utf8(c) == EncodeChar(a[0]) + Utf8(a[1..] + b);
      Utf8Concat(a[1..], b);
      assert Utf8(a) == EncodeChar(a[0]) + Utf8(a[1..]);
      assert EncodeChar(a[0]) + (Utf8(a[1..]) + Utf8(b)) == (EncodeChar(a[0]) + Utf8(a[1..])) + Utf8(b);
    }
  }

  /** An ASCII string encodes to one byte per character, each its code. */
  lemma {:induction false} Utf8OfAscii(s: string)
    requires IsAscii(s)
    ensures |Utf8(s)| == |s|
    ensures forall i | 0 <= i < |s| :: Utf8(s)[i] as int == s[i] as int
  {
    if s != [] {
      Utf8OfAscii(s[1..]);
    }
  }

  // ---------------------------------------------------------------------
  // Decimal numbers
  // ---------------------------------------------------------------------

  predicate IsDigit(c: char) {
    '0' <= c <= '9'
  }

  predicate AllDigits(s: string) {
    forall i | 0 <= i < |s| :: IsDigit(s[i])
  }

  function DigitChar(d: nat): (c: char)
    requires d < 10
    ensures IsDigit(c) && c as int - '0' as int == d
  {
    (('0' as int) + d) as char
  }

  /** The decimal digits of `n`, most significant first, without leading zeros. */
  function NatToDecimal(n: nat): (r: string)
    ensures |r| >= 1 && AllDigits(r)
    ensures r[0] == '0' ==> n == 0
  {
    if n < 10 then [DigitChar(n)] else NatToDecimal(n / 10) + [DigitChar(n % 10)]
  }

  /** How Swift interpolates an `Int` (and Rust formats an integer). */
  function IntToDecimal(i: int): string {
    if i < 0 then "-" + NatToDecimal(-i) else NatToDecimal(i)
  }

  /** The value of a string of decimal digits. */
  function DigitsValue(s: string): nat
    requires AllDigits(s)
  {
    if s == [] then 0 else DigitsValue(s[..|s| - 1]) * 10 + (s[|s| - 1] as int - '0' as int)
  }

  lemma {:induction false} DigitsValueOfDecimal(n: nat)
    ensures DigitsValue(NatToDecimal(n)) == n
  {
    if n >= 10 {
      var r := NatToDecimal(n);
      assert r[..|r| - 1] == NatToDecimal(n / 10);
      DigitsValueOfDecimal(n / 10);
    }
  }

  const Int64Min: int := -0x8000_0000_0000_0000
  const Int64Max: int := 0x7FFF_FFFF_FFFF_FFFF
  const UsizeMax: int := 0xFFFF_FFFF_FFFF_FFFF

  /**
   * Swift's `Int(_: String)` on a 64-bit platform: an optional `+` or `-`,
   * then one or more ASCII digits and nothing else; a value outside the
   * range of `Int` is a failure.
   */
  function ParseSwiftInt(s: string): (r: Option<int>)
    ensures r.Some? ==> Int64Min <= r.value <= Int64Max
    ensures r.Some? ==> |s| >= 1 && (IsDigit(s[0]) || s[0] == '+' || s[0] == '-') && AllDigits(s[1..])
    ensures r.Some? ==> (r.value < 0 ==> s[0] == '-')
  {
    var signed := |s| > 0 && (s[0] == '+' || s[0] == '-');
    var digits := if signed then s[1..] else s;
    if digits == [] || !AllDigits(digits) then None
    else
      var v: int := if signed && s[0] == '-' then -(DigitsValue(digits) as int) else DigitsValue(digits);
      if Int64Min <= v <= Int64Max then Some(v) else None
  }

  /**
   * Rust's `str::parse::<usize>()` on a 64-bit platform: an optional `+`,
   * then one or more ASCII digits; overflow is an error.
   */
  function ParseUsize(s: string): (r: Option<nat>)
    ensures r.Some? ==> r.value <= UsizeMax
  {
    var digits := if |s| > 0 && s[0] == '+' then s[1..] else s;
    if digits == [] || !AllDigits(digits) then None
    else if DigitsValue(digits) <= UsizeMax then Some(DigitsValue(digits))
    else None
  }

  /** Formatting an `Int` and parsing it back with `Int(_:)` gives it back. */
  lemma SwiftIntRoundTrip(i: int)
    requires Int64Min <= i <= Int64Max
    ensures ParseSwiftInt(IntToDecimal(i)) == Some(i)
  {
    if i < 0 {
      DigitsValueOfDecimal(-i);
      ParseNegative(NatToDecimal(-i));
    } else {
      DigitsValueOfDecimal(i);
      ParseUnsigned(NatToDecimal(i));
    }
  }

  /** Digits alone, within range, parse as their value. */
  lemma ParseUnsigned(digits: string)
    requires |digits| >= 1 && AllDigits(digits) && DigitsValue(digits) <= Int64Max
    ensures ParseSwiftInt(digits) == Some(DigitsValue(digits))
  {
    assert IsDigit(digits[0]);
  }

  /** A minus sign and digits, within range, parse as the negated value. */
  lemma ParseNegative(digits: string)
    requires |digits| >= 1 && AllDigits(digits) && DigitsValue(digits) <= -Int64Min
    ensures ParseSwiftInt("-" + digits) == Some(-(DigitsValue(digits) as int))
  {
    var s := "-" + digits;
    assert s[0] == '-' && s[1..] == digits;
  }

  // ---------------------------------------------------------------------
  // Whitespace and trimming
  // ---------------------------------------------------------------------

  /**
   * The two whitespace sets in play: Swift's `CharacterSet.whitespaces`
   * (Unicode general category Zs plus TAB) and Rust's `char::is_whitespace`
   * (the Unicode White_Space property, which adds line breaks).
   */
  datatype Whitespace = SwiftWhitespaces | RustWhiteSpace

  predicate IsSpace(ws: Whitespace, c: char) {
    var cp := c as int;
    var zs := cp == 0x20 || cp == 0xA0 || cp == 0x1680 || (0x2000 <= cp <= 0x200A)
              || cp == 0x202F || cp == 0x205F || cp == 0x3000;
    match ws
    case SwiftWhitespaces => zs || cp == 0x09
    case RustWhiteSpace => zs || (0x09 <= cp <= 0x0D) || cp == 0x85 || cp == 0x2028 || cp == 0x2029
  }

  /** Neither end of `s` is whitespace. */
  predicate Trimmed(s: string, ws: Whitespace) {
    s == [] || (!IsSpace(ws, s[0]) && !IsSpace(ws, s[|s| - 1]))
  }

  function TrimStart(s: string, ws: Whitespace): (r: string)
    ensures |r| <= |s|
    ensures r == [] || !IsSpace(ws, r[0])
    ensures s == [] || !IsSpace(ws, s[0]) ==> r == s
  {
    if s != [] && IsSpace(ws, s[0]) then TrimStart(s[1..], ws) else s
  }

  function TrimEnd(s: string, ws: Whitespace): (r: string)
    ensures |r| <= |s|
    ensures r == [] || !IsSpace(ws, r[|r| - 1])
    ensures s == [] || !IsSpace(ws, s[|s| - 1]) ==> r == s
  {
    if s != [] && IsSpace(ws, s[|s| - 1]) then TrimEnd(s[..|s| - 1], ws) else s
  }

  /** `trimmingCharacters(in:)` / `str::trim`. */
  function Trim(s: string, ws: Whitespace): (r: string)
    ensures |r| <= |s|
    ensures Trimmed(s, ws) ==> r == s
  {
    TrimEnd(TrimStart(s, ws), ws)
  }

  lemma {:induction false} TrimEndIsPrefix(s: string, ws: Whitespace)
    ensures TrimEnd(s, ws) == s[..|TrimEnd(s, ws)|]
  {
    if s != [] && IsSpace(ws, s[|s| - 1]) {
      TrimEndIsPrefix(s[..|s| - 1], ws);
    }
  }

  /** Trimming leaves no whitespace at either end. */
  lemma TrimIsTrimmed(s: string, ws: Whitespace)
    ensures Trimmed(Trim(s, ws), ws)
  {
    var t := TrimStart(s, ws);
    TrimEndIsPrefix(t, ws);
    var r := TrimEnd(t, ws);
    if r != [] {
      assert r[0] == t[0];
    }
  }

  // ---------------------------------------------------------------------
  // Searching
  // ---------------------------------------------------------------------

  /** The first index of `c` in `s` (`firstIndex(of:)`, `str::find`). */
  function IndexOfChar(s: string, c: char): (r: Option<nat>)
    ensures r.None? <==> c !in s
    ensures r.Some? ==> r.value < |s| && s[r.value] == c && c !in s[..r.value]
  {
    if s == [] then None
    else if s[0] == c then Some(0)
    else match IndexOfChar(s[1..], c)
      case None => None
      case Some(i) =>
        assert s[..i + 1] == [s[0]] + s[1..][..i];
        Some(i + 1)
  }

  /** A character at `i` with none before it is the first occurrence. */
  lemma IndexOfCharAt(s: string, c: char, i: nat)
    requires i < |s| && s[i] == c
    requires forall j | 0 <= j < i :: s[j] != c
    ensures IndexOfChar(s, c) == Some(i)
  {
    var r := IndexOfChar(s, c).value;
    forall j | 0 <= j < r ensures s[j] != c {
      assert s[..r][j] == s[j];
    }
  }

  predicate OccursAt(s: string, t: string, i: nat) {
    i + |t| <= |s| && s[i..i + |t|] == t
  }

  predicate Contains(s: string, t: string) {
    exists i: nat | i <= |s| :: OccursAt(s, t, i)
  }

  /** The first occurrence of `t` in `s` at or after `from`. */
  function IndexOfFrom(s: string, t: string, from: nat): (r: Option<nat>)
    requires from <= |s|
    ensures r.Some? ==> from <= r.value && OccursAt(s, t, r.value)
    ensures r.Some? ==> forall j: nat | from <= j < r.value :: !OccursAt(s, t, j)
    ensures r.None? ==> forall j: nat | from <= j :: !OccursAt(s, t, j)
    decreases |s| - from
  {
    if from + |t| > |s| then None
    else if s[from..from + |t|] == t then Some(from)
    else IndexOfFrom(s, t, from + 1)
  }

  function IndexOf(s: string, t: string): (r: Option<nat>)
    ensures r.Some? ==> OccursAt(s, t, r.value) && forall j: nat | j < r.value :: !OccursAt(s, t, j)
    ensures r.None? <==> !Contains(s, t)
  {
    IndexOfFrom(s, t, 0)
  }

  // ---------------------------------------------------------------------
  // Splitting
  // ---------------------------------------------------------------------

  /**
   * Foundation's `components(separatedBy:)` with a string separator: cut at
   * every occurrence, left to right, keeping empty pieces.
   */
  function Components(s: string, sep: string): (r: seq<string>)
    requires |sep| > 0
    ensures |r| >= 1
    decreases |s|
  {
    match IndexOf(s, sep)
    case None => [s]
    case Some(i) => [s[..i]] + Components(s[i + |sep|..], sep)
  }

  /** `joined(separator:)`. */
  function Join(parts: seq<string>, sep: string): string {
    if |parts| == 0 then ""
    else if |parts| == 1 then parts[0]
    else parts[0] + sep + Join(parts[1..], sep)
  }

  lemma JoinCons(first: string, rest: seq<string>, sep: string)
    requires |rest| >= 1
    ensures Join([first] + rest, sep) == first + sep + Join(rest, sep)
  {
    assert ([first] + rest)[1..] == rest;
  }

  /** Appending one part to a joined block. */
  lemma {:induction false} JoinSnoc(parts: seq<string>, part: string, sep: string)
    requires |parts| >= 1
    ensures Join(parts + [part], sep) == Join(parts, sep) + sep + part
    decreases |parts|
  {
    var first := parts[0];
    if |parts| == 1 {
      assert parts + [part] == [first] + [part];
      JoinCons(first, [part], sep);
    } else {
      var tail := parts[1..];
      assert parts + [part] == [first] + (tail + [part]);
      assert parts == [first] + tail;
      JoinCons(first, tail + [part], sep);
      JoinCons(first, tail, sep);
      JoinSnoc(tail, part, sep);
      var j := Join(tail, sep);
      assert first + sep + (j + sep + part) == (first + sep + j) + sep + part;
    }
  }

  /** Joining the pieces again with the separator gives the original text. */
  lemma {:induction false} JoinComponents(s: string, sep: string)
    requires |sep| > 0
    ensures Join(Components(s, sep), sep) == s
    decreases |s|
  {
    var found := IndexOf(s, sep);
    if found.Some? {
      var i := found.value;
      var rest := s[i + |sep|..];
      var cs := Components(rest, sep);
      assert Components(s, sep) == [s[..i]] + cs;
      assert Join(cs, sep) == rest by {
        JoinComponents(rest, sep);
      }
      JoinCons(s[..i], cs, sep);
      assert s == s[..i] + sep + rest by {
        assert s[i..i + |sep|] == sep;
        assert s == s[..i] + s[i..i + |sep|] + rest;
      }
    }
  }

  /** A piece without the separator's first character ends at the next separator. */
  lemma ComponentsCons(line: string, sep: string, rest: string)
    requires |sep| > 0 && sep[0] !in line
    ensures Components(line + sep + rest, sep) == [line] + Components(rest, sep)
  {
    var s := line + sep + rest;
    assert OccursAt(s, sep, |line|) by {
      assert s[|line|..|line| + |sep|] == sep;
    }
    forall j: nat | j < |line| ensures !OccursAt(s, sep, j) {
      assert s[j] == line[j] != sep[0];
      if j + |sep| <= |s| {
        assert s[j..j + |sep|][0] == s[j];
      }
    }
    assert IndexOf(s, sep) == Some(|line|);
    assert s[..|line|] == line;
    assert s[|line| + |sep|..] == rest;
  }

  /** A text without the separator's first character is a single piece. */
  lemma ComponentsOfPiece(piece: string, sep: string)
    requires |sep| > 0 && sep[0] !in piece
    ensures Components(piece, sep) == [piece]
  {
    forall j: nat | j <= |piece| ensures !OccursAt(piece, sep, j) {
      if j + |sep| <= |piece| {
        assert piece[j..j + |sep|][0] == piece[j];
      }
    }
  }

  /** Each line followed by the separator. */
  function Ended(lines: seq<string>, sep: string): string {
    if lines == [] then "" else Ended(lines[..|lines| - 1], sep) + lines[|lines| - 1] + sep
  }

  /** One more line adds that line and the separator. */
  lemma EndedSnoc(lines: seq<string>, line: string, sep: string)
    ensures Ended(lines + [line], sep) == Ended(lines, sep) + line + sep
  {
    assert (lines + [line])[..|lines|] == lines;
  }

  /** Three lines, the middle one written as a prefix and a value, each ended. */
  lemma EndedThree(a: string, prefix: string, value: string, c: string, sep: string)
    ensures Ended([a, prefix + value, c], sep) == a + sep + prefix + value + sep + c + sep
  {
    var b := prefix + value;
    assert [a, b, c][..2] == [a, b] && [a, b][..1] == [a] && [a][..0] == [];
    assert Ended([a], sep) == a + sep;
    assert Ended([a, b], sep) == a + sep + prefix + value + sep;
  }

  /** Non-empty lines each ended are the joined lines and one more separator. */
  lemma {:induction false} EndedJoin(lines: seq<string>, sep: string)
    requires |lines| >= 1
    ensures Ended(lines, sep) == Join(lines, sep) + sep
    decreases |lines|
  {
    var front, last := lines[..|lines| - 1], lines[|lines| - 1];
    if |lines| == 1 {
      assert front == [];
    } else {
      EndedJoin(front, sep);
      assert lines == front + [last];
      JoinSnoc(front, last, sep);
    }
  }

  /** Concatenation regrouped so that a head of two pieces is followed by the rest. */
  lemma Regroup(a: string, b: string, c: string, d: string, e: string)
    ensures a + b + c + d + e == a + b + (c + d + e)
  {
  }

  /** Cutting joined pieces, followed by the separator and more text, gives the pieces back first. */
  lemma {:induction false} ComponentsOfJoinThen(parts: seq<string>, sep: string, rest: string)
    requires |sep| > 0 && |parts| >= 1
    requires forall i | 0 <= i < |parts| :: sep[0] !in parts[i]
    ensures Components(Join(parts, sep) + sep + rest, sep) == parts + Components(rest, sep)
    decreases |parts|
  {
    if |parts| == 1 {
      ComponentsCons(parts[0], sep, rest);
      assert parts == [parts[0]];
    } else {
      var others := parts[1..];
      var tail := Join(others, sep) + sep + rest;
      JoinThenRegroup(parts, sep, rest);
      ComponentsCons(parts[0], sep, tail);
      assert forall i | 0 <= i < |others| :: others[i] == parts[i + 1];
      ComponentsOfJoinThen(others, sep, rest);
      ConsAppend(parts[0], others, Components(rest, sep));
      assert parts == [parts[0]] + others;
    }
  }

  /** Joined pieces followed by more text, seen as the first piece, the separator and the remainder. */
  lemma JoinThenRegroup(parts: seq<string>, sep: string, rest: string)
    requires |parts| >= 2
    ensures Join(parts, sep) + sep + rest == parts[0] + sep + (Join(parts[1..], sep) + sep + rest)
  {
    Regroup(parts[0], sep, Join(parts[1..], sep), sep, rest);
  }

  /** Putting an element in front commutes with appending. */
  lemma ConsAppend<T>(x: T, a: seq<T>, b: seq<T>)
    ensures [x] + (a + b) == [x] + a + b
  {
  }

  /** Cutting joined pieces gives them back when none holds the separator's first character. */
  lemma {:induction false} ComponentsOfJoined(parts: seq<string>, sep: string)
    requires |sep| > 0 && |parts| >= 1
    requires forall i | 0 <= i < |parts| :: sep[0] !in parts[i]
    ensures Components(Join(parts, sep), sep) == parts
    decreases |parts|
  {
    if |parts| == 1 {
      ComponentsOfPiece(parts[0], sep);
    } else {
      JoinCons(parts[0], parts[1..], sep);
      assert [parts[0]] + parts[1..] == parts;
      ComponentsCons(parts[0], sep, Join(parts[1..], sep));
      ComponentsOfJoined(parts[1..], sep);
    }
  }

  /** Rust's `str::lines`: split after each LF, drop one CR before it; no empty last line. */
  function RustLines(s: string): (r: seq<string>)
    ensures r == [] <==> s == []
    ensures forall i | 0 <= i < |r| :: '\n' !in r[i]
    decreases |s|
  {
    if s == [] then []
    else match IndexOfChar(s, '\n')
      case None => [s]
      case Some(i) => [StripCarriageReturn(s[..i])] + RustLines(s[i + 1..])
  }

  function StripCarriageReturn(line: string): string {
    if |line| > 0 && line[|line| - 1] == '\r' then line[..|line| - 1] else line
  }

  /**
   * Swift's `split(separator:maxSplits:)` with the default
   * `omittingEmptySubsequences: true`: empty pieces are dropped and do not
   * count as splits; after `maxSplits` splits the rest is one piece.
   */
  function SplitOmittingEmpty(s: string, sep: char, maxSplits: nat): (r: seq<string>)
    ensures forall k | 0 <= k < |r| :: r[k] != []
    ensures |r| <= maxSplits + 1
    ensures forall k | 0 <= k < |r| - 1 :: sep !in r[k]
    ensures |r| <= maxSplits ==> forall k | 0 <= k < |r| :: sep !in r[k]
    decreases |s|
  {
    if s == [] then []
    else if maxSplits == 0 then [s]
    else match IndexOfChar(s, sep)
      case None => [s]
      case Some(i) =>
        if i == 0 then SplitOmittingEmpty(s[1..], sep, maxSplits)
        else if maxSplits == 1 then [s[..i]] + (if s[i + 1..] == [] then [] else [s[i + 1..]])
        else [s[..i]] + SplitOmittingEmpty(s[i + 1..], sep, maxSplits - 1)
  }

  /** The first piece of an unlimited Swift split, if there is one. */
  function FirstPiece(s: string, sep: char): (r: Option<string>)
    ensures r.Some? ==> r.value != [] && sep !in r.value
  {
    var pieces := SplitOmittingEmpty(s, sep, |s| + 1);
    if pieces == [] then None else Some(pieces[0])
  }
}
